=== FILE: README.md ===
# Codebench ETL core in Dafny

This project models the extraction core of the Codebench ETL. The ETL reads a
Codebench dataset export: per class, an `assessments` directory of activity
files (`.data`), a `users` directory with one `user.data` profile per
student, execution logs (`.log`) and CodeMirror editor logs per student. It
turns them into activities, students, executions and solution intervals. It
also keeps a process-wide tally of the Python error names seen in the logs.
The repository carries several generations of the same readers: the
`extractors.py` family, `extractor.py`, `controllers.py`, the `controller/`
package and `model/atividades.py`. Where they differ, each is modelled
separately and the differences are proved.

Every reader is a pure function over the lines of a file. An unreadable file
is `None`. Python's `int()`, `float()` and `strptime` are function parameters
returning `Option`: `None` is the `ValueError`. An exception that aborts a
loop is an `Option` result, and what the caller keeps on that path is
modelled explicitly.

Modules:

- `Text`, `Conversions`, `Sorting`: Python string operations and list sorting.
- `ExerciseBlocks`: the `---- exercises` line and its `or` groups.
- `ActivityFixedColumns`, `ActivityKeyed`, `ActivityPositional`,
  `ActivityListing`: the activity readers and the listing of a class's
  activities.
- `Students`: both generations of the `user.data` parser.
- `FileNames`: activity and execution ids from file names, and class
  descriptions.
- `ErrorNames`, `ErrorTally`: error-name recognition and the process-wide
  error tally.
- `ExecutionSinglePass`, `ExecutionFlagged`, `ExecutionPrefix`,
  `ExecutionBlockWalk`: the four execution-log counters.
- `Events`, `InteractionChained`, `InteractionIntervals`: CodeMirror events
  and the two solution-time computations.
- `SolutionStamps`: the start and end timestamps of a solution.
- `SolutionSplit`: the script that splits the professors' solutions into one
  `.code` file per exercise.

## Model

| member | source | states |
|---|---|---|
| Conversions.ToInts | controller/controller_atividade.py:120 | The list comprehension of `int()` succeeds exactly when every element converts, and then holds each element's value at the same position. |
| Sorting.Sort | controller/controller_atividade.py:121 | `list.sort()` on ints yields a sorted permutation of the input of the same length. |
| Sorting.SortOfSorted | controller/controller_atividade.py:121 | Sorting an already sorted list changes nothing. |
| Text.Split | extract_solutions.py:16 | `str.split(sep)` returns parts that join back to the input, none of which contains the separator; there are at least two parts exactly when the separator occurs, and then the first part ends at the leftmost occurrence. |
| Text.Partition | extractor.py:441-442 | `str.partition('#')`: without a `#` the result is the whole string and an empty tail; otherwise the head has no `#` and head + `#` + tail is the input. |
| Text.IndexOf | extractors.py:272 | `str.find(':')` is absent exactly when the character does not occur; otherwise it is the first occurrence. |
| Text.FindFrom | extractors.py:272 | A substring search returns the first occurrence at or after the start position, and none is missed. |
| Text.AfterLastMeaning | controller/controller_atividade.py:38 | `split(':')[-1]` is the text after the last colon, which contains no colon, or the whole string when there is none. |
| Text.StripMeaning | extract_solutions.py:15 | `strip()` removes exactly the leading and trailing whitespace and keeps the middle unchanged. |
| Text.StripEmptyIff | controller/execucao.py:30 | A line strips to empty exactly when it is all whitespace. |
| Text.StripIdempotent | controller/estudante.py:74 | Stripping twice is the same as stripping once. |
| Text.Lower | controller/controller_atividade.py:36 | `lower()` keeps the length and maps each character through the case mapping. |
| Text.CountPrefixedAppend | controller/execucao.py:33-40 | The count of lines with a prefix is additive over concatenation. |
| Text.StripAll | controller/execucao.py:30 | The stripped line list has the same length and holds each stripped line at its position. |
| ExerciseBlocks.ParseBlock | extractors.py:160-170 | A block line is skipped exactly when its text is empty. |
| ExerciseBlocks.ParseBlockMeaning | extractors.py:160-170 | A block raises exactly when some `or`-part (or the single code) fails `int()`; a single code yields that int; an `or` group yields the sorted permutation of its converted parts. |
| ExerciseBlocks.CollectBlocksSomeIff | controller/controller_atividade.py:57-69 | Collecting the exercise lines succeeds exactly when no text fails to convert. |
| ExerciseBlocks.CollectBlocksOnePerText | controller/controller_atividade.py:57-69 | On success there is one block per non-empty text, in order, each the parse of that text. |
| ExerciseBlocks.CollectBlocksAppend | controller/controller_atividade.py:57-69 | Collecting a concatenation succeeds iff both halves do, and yields the concatenated blocks. |
| ExerciseBlocks.OrGroupIsSorted | extractors.py:163-167 | `"10 or 3 or 7"` becomes the group `[3, 7, 10]`. |
| ActivityFixedColumns.FieldIffPrefix | extractors.py:145-159 | A line is routed to a field exactly when it starts with that field's 7-character prefix. |
| ActivityFixedColumns.OtherIffNoPrefix | extractors.py:145-159 | A line is ignored exactly when it starts with none of the eight prefixes. |
| ActivityFixedColumns.StepRaises | extractors.py:143-170 | One line aborts the parse exactly when its weight, total or block conversion raises. |
| ActivityFixedColumns.ParseFailsIffSomeLineRaises | extractors.py:143-170 | The whole file fails to parse exactly when some line raises. |
| ActivityFixedColumns.StepBlocks | extractors.py:159-170 | A successful step appends exactly the blocks of its own exercise line. |
| ActivityFixedColumns.BlocksFollowExerciseLines | extractors.py:159-170 | A parsed activity's blocks are the initial blocks followed by the blocks of all exercise lines in file order. |
| ActivityFixedColumns.StepTitle | extractors.py:145-146 | A title line sets the title from column 23 on, stripped; other lines keep it. |
| ActivityFixedColumns.TitleFromLastTitleLine | extractors.py:145-146 | The title is that of the last title line, or the initial one when there is none. |
| ActivityFixedColumns.OneExerciseLine | extractors.py:159-170 | A file of one exercise line yields a fresh activity with that line's block. |
| ActivityFixedColumns.SingleGroupLine | extractors.py:159-170 | The sample exercise line yields the single block `[3, 7, 10]`. |
| ActivityKeyed.FieldIffPrefix | controller/controller_atividade.py:37-57 | A normalised line is routed to a field exactly when it starts with that field's prefix. |
| ActivityKeyed.WithDefaults | controller/controller_atividade.py:132-141 | A missing key becomes 0, `''`, 0.0 or `[]`; a present one is kept. |
| ActivityKeyed.StepRaises | controller/controller_atividade.py:35-69 | One line raises exactly when its class number, weight, total or block conversion raises. |
| ActivityKeyed.LoopCompletesIffNoLineRaises | controller/controller_atividade.py:35-71 | The loop completes exactly when no line raises. |
| ActivityKeyed.LoopStopsAtFirstRaise | controller/controller_atividade.py:35-76 | On a raise, the dictionary is exactly what the lines before the first raising line produced. |
| ActivityKeyed.StepBlocks | controller/controller_atividade.py:57-69 | A successful step appends exactly its own line's blocks. |
| ActivityKeyed.LoopBlocks | controller/controller_atividade.py:57-71 | A completed loop's block list is the collection of all exercise lines in order. |
| ActivityKeyed.CatchAllOutcome | controller/controller_atividade.py:25-82 | With a readable id, the result keeps the id; it has blocks exactly when no line raises, and those are the collected exercise blocks; otherwise the activity gets `[]`. |
| ActivityKeyed.LoopKeepsId | controller/controller_atividade.py:29-69 | No line changes the activity id. |
| ActivityKeyed.BadIdGivesDefaults | controller/controller_atividade.py:29 | When the file name is not an int, the activity is all defaults. |
| ActivityKeyed.EscapingOutcome | controller/atividade.py:25-79 | The second generation escapes exactly when the id or some line raises; otherwise it agrees with the first. |
| ActivityKeyed.StartDateKeepsMinutesOnly | controller/controller_atividade.py:41-42 | The start date `2020-01-01 00:00` is stored as `00`. |
| ActivityKeyed.ValueAfterFirstColonRoundTrip | controller/controller_atividade.py:41-44 | Splitting at the first colon gives back the whole value, colons included. |
| ActivityPositional.UntilEofOfNonEmpty | model/atividades.py:56-71 | With no empty line, reading until EOF keeps every line. |
| ActivityPositional.ColumnValue | model/atividades.py:41-53 | A value at line i from column k is read back exactly as the slice `[k:-1]`. |
| ActivityPositional.CollectStopsAtFirstFailure | model/atividades.py:56-83 | The block loop keeps the blocks before the first failing text, and it completes exactly when no text fails. |
| ActivityPositional.ReadNoneIff | model/atividades.py:19-83 | The reader yields nothing exactly when the file is unreadable, or the id or the class number fails `int()`. |
| ActivityPositional.PartialAfterConstruction | model/atividades.py:45-83 | After construction, a failing weight leaves weight, total and blocks at their defaults; a failing total leaves total and blocks; the title and kind are read. |
| ActivityPositional.ReadsLayout | model/atividades.py:19-83 | A file laid out with every value in its column reads back as exactly that activity. |
| ActivityListing.DataEntries | controller/controller_atividade.py:111-116 | The entries kept are exactly the `.data` files, in directory order. |
| ActivityListing.DataNames | controller/controller_atividade.py:111-116 | The k-th name is the k-th `.data` file's name without its five-character extension, one per `.data` file, in directory order. |
| ActivityListing.DataNamesMembership | controller/controller_atividade.py:111-116 | A name is listed exactly when some `.data` file in the directory has it as its stem. |
| ActivityListing.ShowAllReadsBack | controller/controller_atividade.py:120-122 | `str` then `int` gives back the ids. |
| ActivityListing.ActivityOrderMeaning | controller/controller_atividade.py:119-126 | When every name is an int, the names are reordered so that their ids are a sorted permutation; otherwise the order is unchanged. |
| ActivityListing.ActivitiesInIdOrder | controller/controller_atividade.py:105-152 | The activities come out in id order, one per `.data` file. |
| ActivityListing.ReadKeepsId | controller/controller_atividade.py:29 | A file whose name is an int yields that id. |
| ActivityListing.ReadAllIds | controller/controller_atividade.py:129-143 | The i-th activity read has the i-th id. |
| ActivityListing.LeadingZeroNameLosesFile | controller/controller_atividade.py:120-130 | `007.data` is reopened as `7.data`, which does not exist, so the activity is all defaults except the id. |
| ActivityListing.SortNamed | controller/controller_atividade.py:119-122 | The corrected order sorts the name/id pairs by id. |
| ActivityListing.NamesOfSort | controller/controller_atividade.py:119-122 | That sort permutes the file names. |
| ActivityListing.NameIdsMeaning | controller/controller_atividade.py:120 | The pairing succeeds exactly when every name is an int, and then keeps each name with its id. |
| ActivityListing.IdsOfSorted | controller/controller_atividade.py:121 | Sorted pairs have sorted ids. |
| ActivityListing.CorrectedOrderMeaning | controller/controller_atividade.py:119-126 | The corrected order is a permutation of the file names; when every name is an int, their ids are sorted. |
| ActivityListing.CorrectedKeepsLeadingZeroFile | controller/controller_atividade.py:129-130 | The corrected listing reads `007.data` itself. |
| Students.GetSet | extractors.py:236-260 | Setting one attribute leaves every other attribute unchanged. |
| Students.PropertyValue | extractors.py:272-275 | The value exists exactly when the line has a colon. |
| Students.PropertyValueOfKeyLine | extractors.py:272-275 | For `key: value`, the value is read back. |
| Students.Reading | extractors.py:236-260 | A read value fits its attribute's type. |
| Students.WithDefaults | controller/estudante.py:36-49 | A missing key becomes 0, `''` or `False`; a present one is kept. |
| Students.PrefixFieldPlaces | extractors.py:237-260 | Course lines count only at 0-based index 1 or 2, institution lines only at 3 or 4; the kids line counts anywhere. |
| Students.KeyedFieldPlaces | controller/estudante.py:73-98 | A field is taken exactly at its own 1-based line with its full prefix. |
| Students.KeyedLastFor | controller/estudante.py:73-98 | In the second generation the last line assigning a field is the one at its own line number when that line carries the full prefix, and there is none otherwise. |
| Students.HasKidsIffYes | extractors.py:259-260 | `tem_filhos` is true exactly when the value is `yes`. |
| Students.StepRaises | extractors.py:234-260 | A line raises exactly when its integer field fails `int()`. |
| Students.LoopFailsIffSomeLineRaises | controller/estudante.py:69-107 | The parse completes exactly when no line raises. |
| Students.LastLineWins | extractors.py:234-260 | Each attribute holds the reading of the last line routed to it, or its initial value. |
| Students.LastForIsLastWhere | extractors.py:234-260 | The last routed line is the last line matching the router. |
| Students.KeyedProfile | controller/estudante.py:64-107 | In the second generation, an attribute is read from its own line when that line carries its prefix, and is missing otherwise. |
| Students.PrefixCourseId | extractors.py:237-238 | The course id is `int()` of line 1's value when line 1 starts with `---- cou`, and missing otherwise. |
| Students.NoCourseIdAfter | extractors.py:237 | No line after index 1 sets the course id. |
| Students.UnreadableFile | controller/estudante.py:100-107 | An unreadable file drops the student in the first generation and gives all defaults in the second. |
| FileNames.ActivityIdOfDataFile | controllers.py:185 | Both id readings, slicing five characters and removing `.data`, give back the file's stem. |
| FileNames.ActivityIdOfFileName | controller/controller_atividade.py:116 | Slicing `.data` off a bare name gives back the stem. |
| FileNames.StemOfLogName | controllers.py:479 | Slicing four characters and removing `.log` give back the stem. |
| FileNames.PartsOfStem | controller/execucao.py:97-98 | Splitting `a_e...` at `_` gives `a` then `e`. |
| FileNames.ExecutionIdsOfLogName | extractors.py:504 | Both generations read the activity and exercise ids out of `a_e.log`. |
| FileNames.DescriptionByPrefixMeaning | extractor.py:80-86 | The description exists exactly when some line starts with `---- class name:`, and it comes from the first such line. |
| FileNames.DescriptionsAgree | controllers.py:78 | When the class name is on the third line, the fixed-line reader and the prefix reader agree. |
| ErrorNames.NameRun | extractors.py:473 | The run is the longest prefix of word characters and dots. |
| ErrorNames.LongestEndingMeaning | extractors.py:473-476 | Backtracking yields the longest prefix of the run that ends in `Error`, if any. |
| ErrorNames.ErrorNameMeaning | extractors.py:473-476 | `^([\w_\.]+Error)` matches exactly when some prefix is an error name, and the match is the longest such prefix. |
| ErrorNames.ExceptionLine | extractors.py:473-476 | A traceback's last line `NameError: …` yields `NameError`. |
| ErrorNames.NamesBeforeColon | controller/execucao.py:42 | At most one name per line is collected: those containing `Error`. |
| ErrorTally.Position | util.py:27-28 | `list.index` is the first occurrence, and is absent exactly when the name is not listed. |
| ErrorTally.FirstSeenMeaning | util.py:23 | `Counter(...).keys()` lists every name once, and only names of the list. |
| ErrorTally.CounterMeaning | util.py:23-24 | The `Counter` keys are the distinct names in first-seen order, each with its multiplicity; the counts add up to the list's length. |
| ErrorTally.AddMeaning | util.py:26-31 | Adding a pair appends a new name or bumps an old one by exactly that count, and nothing else changes. |
| ErrorTally.AddAllCounts | util.py:26-31 | Adding all pairs raises every name's count by its count among the pairs. |
| ErrorTally.AddAllNames | util.py:26-31 | The new names are appended in first-seen order. |
| ErrorTally.RegisterCounts | util.py:22-31 | After `register_errors`, each name's count rises by its multiplicity in the list. |
| ErrorTally.RegisterNames | util.py:22-31 | Known names keep their place; new ones follow in first-seen order. |
| ErrorTally.RegisterTotal | util.py:22-31 | The total rises by the length of the list. |
| ErrorTally.RegisterNothing | util.py:22-31 | Registering an empty list changes nothing. |
| ErrorTally.RegisterTwice | util.py:22-31 | Registering two lists in turn counts the same as registering their concatenation. |
| ErrorTally.Snapshot | util.py:33-35 | `get_unique_errors` pairs each name with its count, in order. |
| ErrorTally.SnapshotAfterRegister | util/utilidades.py:20-33 | After a registration, each old entry keeps its position and name. |
| Events.Parts | extractor.py:440-445 | Neither the stamp nor the name contains `#`; a line without `#` is all stamp. |
| Events.PartsOfFormat | extractor.py:440-445 | Splitting a formatted event gives it back. |
| Events.FormatOfParts | extractors.py:407-408 | A line with two `#` is rebuilt exactly from its parts. |
| ExecutionSinglePass.GradeMarker | extractors.py:460-462 | The search stops at the first `-- GRADE` or `*-*` line. |
| ExecutionSinglePass.StepKeepsGradeRule | extractors.py:457-476 | One step keeps "passed iff the grade is at least 100". A `== S` line adds exactly one submission. Otherwise a `== T` line adds exactly one test. Otherwise a `-- ER` line adds exactly one error. Every other counter stays unchanged. |
| ExecutionSinglePass.RunKeepsGradeRule | extractors.py:450-478 | So does the whole loop. |
| ExecutionSinglePass.ExtractGradeRule | extractors.py:450-481 | A readable log always yields a result satisfying the grade rule. |
| ExecutionSinglePass.SettledGradeStays | extractors.py:459 | Once a passing grade is read, it never changes. |
| ExecutionSinglePass.RunCountsBounded | extractors.py:456-478 | Each counter is bounded by the number of lines with its prefix. |
| ExecutionSinglePass.NoSubmissionsCountsAll | extractors.py:469-472 | Without submissions, every test and error line is counted. |
| ExecutionSinglePass.SearchedLinesNotCounted | extractors.py:460-462 | A `== T` line consumed by the grade search is not counted. |
| ExecutionFlagged.StepCounts | controllers.py:430-454 | Each line adds one to the counter whose prefix it carries and appends its error name, if any. |
| ExecutionFlagged.RunCounts | controllers.py:419-454 | The counters rise by the number of stripped lines with each prefix. |
| ExecutionFlagged.RunNames | controllers.py:451-454 | The names collected are those of the matching lines, in order. |
| ExecutionFlagged.ReadGradeMeaning | controllers.py:433-441 | A grade that fails to convert changes nothing; one that converts sets the grade and "passed iff above 99.99". |
| ExecutionFlagged.RunKeepsGradeRule | controllers.py:430-454 | The loop keeps the grade rule. |
| ExecutionFlagged.NoMarkerKeepsGrade | controllers.py:449-450 | Without a `-- GRAD` line, grade and passed are unchanged. |
| ExecutionFlagged.ExtractMeaning | controllers.py:419-456 | A readable log yields the three counts, a grade satisfying the rule, and the tally with the collected names registered. |
| ExecutionPrefix.FileDataOf | controller/execucao.py:25-63 | An unreadable file yields an empty dictionary and an unchanged tally. For a readable one, submissions, tests and errors are the numbers of stripped lines starting with `== SU`, `== TE` and `== ER`. The grade is that of the grade loop. The tally has registered the text before the first colon of every stripped line holding `Error`. |
| ExecutionPrefix.ExecutionOf | controller/execucao.py:93-110 | An execution exists exactly when both ids convert, and it carries the two ids read from the file name. Its counts and grade are the file data's, with a missing value read as 0. It passes exactly when its grade is above 99.99. The tally is the file reader's. |
| ExecutionPrefix.FailedStays | controller/execucao.py:45-58 | Once `float` raises, nothing more is read. |
| ExecutionPrefix.GradeRunAppend | controller/execucao.py:45-51 | The grade loop over a concatenation is the loop over the second part from where the first left off. |
| ExecutionPrefix.UnmarkedKeepsGrade | controller/execucao.py:45-51 | Without a `-- GR` line, nothing changes. |
| ExecutionPrefix.LastGradeWins | controller/execucao.py:45-51 | The grade is that following the last marker. |
| ExecutionPrefix.BadGradeKeepsEarlier | controller/execucao.py:48-58 | A grade that fails to convert keeps the earlier grade. |
| ExecutionPrefix.UnreadableFile | controller/execucao.py:95-107 | An unreadable log gives zero counts and not passed, and an unchanged tally. |
| ExecutionPrefix.RegisteredNames | controller/execucao.py:42-43 | Every stripped line containing `Error` registers its text before the first colon. |
| ExecutionPrefix.FewerSubmissionsThanFlagged | controller/execucao.py:33 | `== SU` counts no more submissions than the `== S` prefix of the other readers. |
| ExecutionPrefix.DashErrorsNotCounted | controller/execucao.py:39 | `-- ER` lines are not counted as errors, since the prefix searched is `== ER`. |
| ExecutionBlockWalk.FloatOrZero | extractor.py:448-454 | `float()` that raises gives 0.0; otherwise its value. |
| ExecutionBlockWalk.Opened | extractor.py:497-502 | A submission resets code, execution time and passed, and counts one more submission. |
| ExecutionBlockWalk.ExtractCodeMeaning | extractor.py:457-462 | The code exists exactly when a `-- ` line follows; it is the lines up to the first such line. |
| ExecutionBlockWalk.FirstMatchMeaning | extractor.py:465-471 | The error-name search returns the first error name before the first `*-*`, `None` at `*-*`, and raises when neither occurs. |
| ExecutionBlockWalk.ReadError | extractor.py:513-516 | A `-- ERROR` entry moves three lines on, adds exactly one error and appends the name searched for from there; it raises exactly when that search runs off the end. |
| ExecutionBlockWalk.SubmissionBody | extractor.py:503-518 | The submission loop ends on a `*-*` line, keeps the counts and passed, and appends one name per error. |
| ExecutionBlockWalk.SubmissionBodyErrors | extractor.py:503-518 | The errors a submission loop adds are exactly the `-- ERROR` entries it steps on (every line except the code after `-- CODE`, the value after `-- EXEC`/`-- GRAD` and the two after each entry), one error and one name each. |
| ExecutionBlockWalk.TestBody | extractor.py:525-531 | The test loop ends on a `*-*` line, changes only errors and names, and adds exactly one error and its name for each `-- ERROR` entry it steps on (every line except the two after each entry). |
| ExecutionBlockWalk.TestErrorsCountEntries | extractor.py:525-531 | When no entry sits on the two lines after another, the test loop counts every `-- ERROR` line of the block. |
| ExecutionBlockWalk.PlainSubmissionErrors | extractor.py:503-531 | A submission block with no code, execution-time or grade section counts the same errors as a test block. |
| ExecutionBlockWalk.SubmissionPass | extractor.py:497-522 | A submission block that does not pass adds one submission, no test, and exactly the errors its loop steps on, leaving passed false; one that passes ends the walk with passed true, a grade above 99.99 and code read. |
| ExecutionBlockWalk.TestPass | extractor.py:523-532 | A test block adds exactly one test, no submission, and exactly the errors its loop steps on, leaving grade, passed and code alone; it only stops the walk by raising. |
| ExecutionBlockWalk.Pass | extractor.py:496-532 | One block either stops the walk or continues past its `*-*` line. |
| ExecutionBlockWalk.Run | extractor.py:496-532 | The walk keeps the state consistent (one name per error; passed iff the last submission's grade is above 99.99), never lowers a counter, and counts no more blocks than there are marker lines. |
| ExecutionBlockWalk.ExecutionsCount | extractor.py:485-532 | A walk that completes leaves a consistent state within the marker counts on the `Execucao`. Line 534 then raises, as noted under Left out. |
| ExecutionBlockWalk.TestBodyCloses | extractor.py:525-531 | A test loop reads up to exactly the first `*-*` line when no error entry sits on the two lines before it. |
| ExecutionBlockWalk.RunOverTestLog | extractor.py:496-532 | On a log of closed test blocks the walk from any line completes, adds no submission, and adds one test for every `== T` line from there on. |
| ExecutionBlockWalk.TestLogCountsEveryTest | extractor.py:485-532 | On such a log `n_testes` is exactly the number of `== T` lines and `n_submissoes` is 0. |
| ExecutionBlockWalk.PassingSubmissionStops | extractor.py:519-522 | A submission graded above 99.99 ends the walk; it raises when no code was read. |
| ExecutionBlockWalk.PassEndsWalk | extractor.py:519-522 | Whatever follows a passing submission is never read. |
| ExecutionBlockWalk.UnclosedBlockRaises | extractor.py:525-531 | A test block without `*-*` raises `IndexError`. |
| ExecutionBlockWalk.PassWithoutCodeRaises | extractor.py:519-521 | A passing submission without `-- CODE` raises in `''.join(None)`. |
| InteractionChained.Step | extractors.py:405-436 | An event with an unreadable time or outside the window changes nothing. Inside it, `blur` drops the reference and `focus` sets it to the event's time. Any other event with a reference adds the gap to interaction time, adds it to solution time only when under 300 seconds, and becomes the reference; without a reference nothing changes. The scan stops exactly at a congratulated submission. |
| InteractionChained.RunWidensGap | extractors.py:405-436 | The whole scan never narrows that gap. |
| InteractionChained.SkipsOutside | extractors.py:407-413 | An event outside the activity window, or with an unreadable time, is skipped. |
| InteractionChained.StopsAtCongrat | extractors.py:431-432 | Nothing after an in-window congratulated submission is read. |
| InteractionChained.RunFits | extractors.py:405-436 | On a chronological log the accumulated times stay within the window. |
| InteractionChained.WithinWindow | extractors.py:387-436 | On a chronological log, 0 ≤ solution ≤ interaction ≤ the window's length. |
| InteractionChained.SolutionTimes | extractors.py:387-436 | A result needs a readable log and activity window, and its solution time is at most its interaction time. |
| InteractionIntervals.EventInfo | extractor.py:440-445 | The event exists exactly when its stamp parses, and then carries the stamp's time, the name and the message. |
| InteractionIntervals.FirstInWindow | extractor.py:388-397 | The first loop stops at the first parsed event at or after the window's start. |
| InteractionIntervals.FocusSearch | extractor.py:403-415 | The focus search advances and stops on the first `focus` event or the end. |
| InteractionIntervals.BlurSearch | extractor.py:418-426 | The blur search stops on the first `blur` event, remembering the last parsed event. |
| InteractionIntervals.SolutionInterval | extractor.py:377-437 | A result exists exactly when the activity window parses. |
| InteractionIntervals.Add | extractor.py:433-437 | An interval is added to interaction time, and to implementation time exactly when it is shorter than five minutes. |
| InteractionIntervals.FocusBlurPair | extractor.py:399-437 | A `focus` immediately followed by a `blur` inside the window adds exactly that interval (by the five-minute rule) and the scan resumes at the blur. |
| InteractionIntervals.LoopKeepsOrder | extractor.py:399-437 | Both times only grow, implementation never exceeds interaction, and implementation grows by no more than interaction does. |
| InteractionIntervals.ImplementationWithinInteraction | extractor.py:433-437 | 0 ≤ implementation ≤ interaction. |
| InteractionIntervals.LoopFits | extractor.py:399-437 | On a chronological log, interaction never exceeds the window's length. |
| InteractionIntervals.WithinWindow | extractor.py:377-437 | So does the final interaction time. |
| SolutionStamps.StampLengthMeaning | controllers.py:385-388 | The stamp matcher finds a length exactly when that prefix of the line is a timestamp. |
| SolutionStamps.StartIsStamp | controllers.py:385-391 | A start exists exactly when the line begins with a timestamp, and it is that timestamp. |
| SolutionStamps.EndLineIsStartLine | controllers.py:396-402 | A congratulated line's stamp is its start stamp, and the two end readings agree on which lines match. |
| SolutionStamps.FirstFound | controllers.py:383-392 | The first loop finds the first matching line; none is skipped. |
| SolutionStamps.LastFound | controllers.py:394-403 | The second loop finds the last matching line; none after it matches. |
| SolutionStamps.IntervalMeaning | controllers.py:380-403 | Start and end exist exactly when some line matches, and the start line comes no later than the end line. |
| SolutionStamps.IntervalStoresStamps | controllers.py:380-403 | The corrected reading stores timestamps only. |
| SolutionStamps.AsWrittenEndCarriesMessage | controllers.py:396-402 | The code as written stores the same start and finds an end on the same logs, but the end carries the congratulation text and is no timestamp. |
| SolutionStamps.CongratulatedLine | controllers.py:396-402 | On one congratulated line the code stores the stamp and message; the corrected reading stores the stamp. |
| SolutionSplit.Classify | extract_solutions.py:15-16 | A line is a marker exactly when its stripped text ends with ` == SOLUCAO DO PROFESSOR ==>`. The code is the raw line's text before its first ` == `, and contains no ` == `. A body line is kept as is. |
| SolutionSplit.SplitMeaning | extract_solutions.py:12-24 | The script agrees with the reference reading: it raises exactly when a body line precedes the first marker, and otherwise yields one group per marker. |
| SolutionSplit.RaisesIff | extract_solutions.py:17-21 | The script raises exactly when the first line is not a marker. |
| SolutionSplit.ParseKeeps | extract_solutions.py:14-21 | One group per marker, in order, and every body line written once, in order. |
| SolutionSplit.SplitKeepsLines | extract_solutions.py:14-21 | When the script completes, its groups carry the marker codes in order, and together they hold every body line in order. |
| SolutionSplit.ParseWritesNoMarker | extract_solutions.py:15-21 | No marker line is ever written. |
| SolutionSplit.FilesMeaning | extract_solutions.py:19 | A file exists for every code, holding the lines of the last group with that code. |

## Left out

- Code metrics: `radon` and `__get_code_metrics` are a foreign library; their call at extractor.py:521 is modelled only as the point where a missing code raises.
- File system: directory walks, `open`, CSV and report writers, and the logger are outside the model. A directory listing is a sequence of entries. An unreadable file is `None`.
- `Util.wait_user_input` waits for the console, so it is left out.
- `Util.count_error` is assumed to be an error counter that returns normally. It is called in the handlers at controller/controller_atividade.py:75, :125 and :149. It is called at model/atividades.py:76, through `util.Util` (imported at model/atividades.py:1), a module this model does not include. It is also called by cb-analyzer.py:134, next to `Util.get_total_errors` at cb-analyzer.py:139. Neither function is defined in util/utilidades.py or util.py.
- ActivityKeyed.ReadCatchingAll: with util/utilidades.py as given, the handler's `Util.count_error()` at controller/controller_atividade.py:75 raises `AttributeError`. So every caught error escapes from `__get_file_data`, and `get_atividades` never returns a partial dictionary. The same holds for the handlers at :125 and :149, so the directory-order fallback in ActivityListing.ActivityOrder and the default-filled activities are never returned either. The model gives what these handlers produce under the counter assumption above. CatchAllOutcome, BadIdGivesDefaults, LoopStopsAtFirstRaise and LeadingZeroNameLosesFile state properties of that result.
- ActivityPositional.ReadNoneIff and ActivityPositional.PartialAfterConstruction: the partial activity after a failing conversion is returned only if the handler's `Util.count_error()` at model/atividades.py:76 returns. The model takes it to, as stated above. Otherwise that error escapes the reader.
- ExecutionBlockWalk.Run: over a whole log the test and submission counts are stated as bounds (at most one per marker line). They are exact per block (SubmissionPass, TestPass) and over a log of closed test blocks (RunOverTestLog). In general the blocks' extent depends on what the walk skips inside them, such as a `*-*` line jumped over by an error entry or swallowed as code, so no simpler whole-log count holds.
- ExecutionBlockWalk.ExecutionsCount: the member gives the fields the walk leaves on the `Execucao` before extractor.py:534 runs. That line calls `Util.count_errors` unconditionally, and util.py, imported at extractor.py:3, does not define it. So, as written, every call of `__extract_executions_count` ends in `AttributeError`. `extract_execucoes` calls it at extractor.py:576 without a `try`, so this generation stops at its first `.log`. `CSVParser.salvar_erros` (parser.py:124, imported at extractor.py:10) is the file writer on the line after; it is never reached and is not modelled.
- Bytes, encodings and locale: strings are `seq<char>`. `\w` and `\d` are read as ASCII letters, digits and `_`. Case mapping is ASCII.
- Python's `int()`, `float()` and `strptime` are parameters. The model does not fix their grammar (leading signs, whitespace, `nan`, `inf`) or IEEE rounding. `float` values are `real`.
- Time units: `strptime` results are integers. extractors.py works in seconds. extractor.py keeps microseconds and compares `timedelta`s. The model leaves the unit to the parameter.
- ExecutionSinglePass.Extract: the error names are never registered, because `Util.register_errors(erros, execucao)` at extractors.py:481 passes two arguments to a one-argument method. That raises `TypeError`, and the caller at extractors.py:513-516 catches it.
- InteractionIntervals.FocusSearch: the `event_msg` read at extractor.py:411 is the one the previous blur search left. It is modelled faithfully. A `NameError` on the first pass counts as a skipped event.
- ExecutionPrefix.ExecutionOf: when an id fails `int()`, the `ValueError` escapes `get_execucoes` (only `OSError` is caught at controller/execucao.py:112). The model returns no execution. It does not model the loss of the executions listed before that one.
- Students.WithDefaults: the contract states the default rule for course id, sex and kids only; the other fields follow the same `GetOr` pattern in the body.
- ActivityKeyed.WithDefaults: the contract states the default rule for id, title, weight and blocks only; the other fields follow the same pattern in the body.
- SolutionSplit.Files: a code containing `/` names a path in another directory; paths are not modelled.
- Logging output, `print_info` and the console menu of cb-analyzer.py are presentation only.

## Findings

| source | as written | input that shows it | evidently intended | confidence | as-written member | corrected member |
|---|---|---|---|---|---|---|
| controller/controller_atividade.py:41-44 | The start and end dates keep only the text after the last `:`. | `---- start: 2020-01-01 00:00` is stored as `00`. | The value after the key's colon, here `2020-01-01 00:00`. | not executed | ActivityKeyed.StartDateKeepsMinutesOnly | ActivityKeyed.ValueAfterFirstColonRoundTrip |
| controller/controller_atividade.py:119-130 | The sorted names are rebuilt with `str(int(x))`, and the file is reopened under that name. | `007.data` is reopened as `7.data`, so its contents are lost. | Sort by id but keep the original file names. | not executed | ActivityListing.LeadingZeroNameLosesFile | ActivityListing.CorrectedKeepsLeadingZeroFile |
| controllers.py:396-402 | `data_termino` is `m.group(0)`, the whole match. | `2020-03-01 10:00:00.000#submit#Congratulations, your code is correct!` stores the stamp with the message. | The timestamp only, `m.group(1)`, as `data_inicio` gets. | not executed | SolutionStamps.AsWrittenEndCarriesMessage | SolutionStamps.IntervalStoresStamps |

=== FILE: activity_fixed.dfy ===
/** The first-generation activity-descriptor parser,
    `AtividadeExtractor.__get_data_from_file` (extractors.py:133-170). The same
    text appears as `CodebenchExtractor.__extract_atividade_info_from_file`
    (extractor.py:122-161) and `ControllerAtividade.__get_data_from_file`
    (controllers.py:127-164), so one definition models all three.

    Each raw line is dispatched on a seven-character prefix; the value is the
    line from a fixed column on, trimmed. A `float()`/`int()` that raises ends
    the parse: the callers catch it (extractors.py:198, controllers.py:193) or
    let it escape (extractor.py:194) and in neither case keep the activity,
    so the model returns `None`. */
module ActivityFixedColumns {
  import opened Wrappers
  import opened Text
  import opened Conversions
  import opened ExerciseBlocks

  /** The fields `__get_data_from_file` fills in; `None` is the `None` the
      `Atividade` constructor leaves (model.py:51-58). */
  datatype Activity = Activity(
    title: Option<string>,
    startsAt: Option<string>,
    endsAt: Option<string>,
    language: Option<string>,
    kind: Option<string>,
    weight: Option<real>,
    blockCount: Option<int>,
    blocks: seq<Block>
  )

  const Fresh: Activity := Activity(None, None, None, None, None, None, None, [])

  const ExercisePrefix: string := "---- ex"
  const TitlePrefix: string := "---- as"

  /** The block text of an exercise line: from column 18, trimmed. */
  function ExerciseText(line: string): string {
    Strip(Drop(line, 18))
  }

  /** The title of an assessment-name line: from column 23, trimmed. */
  function TitleText(line: string): string {
    Strip(Drop(line, 23))
  }

  /** Which branch of the `if/elif` chain a raw line takes. */
  datatype Field = Title | Opens | Closes | Language | Kind | Weight | Total | Exercise | Other

  /** The seven-character prefix that selects each branch. */
  function FieldPrefix(f: Field): string
    requires f != Other
  {
    match f
    case Title => TitlePrefix
    case Opens => "---- st"
    case Closes => "---- en"
    case Language => "---- la"
    case Kind => "---- ty"
    case Weight => "---- we"
    case Total => "---- to"
    case Exercise => ExercisePrefix
  }

  /** The line opens with the four dashes and the space all prefixes share. */
  predicate Dashed(line: string) {
    |line| >= 7 && line[0] == '-' && line[1] == '-' && line[2] == '-' && line[3] == '-' && line[4] == ' '
  }

  /** The branch a line takes, read off the two characters after the
      shared `"---- "`; the eight prefixes are pairwise distinct, so the
      order of the tests in the chain does not matter. */
  function FieldOf(line: string): Field {
    if !Dashed(line) then Other
    else
      match (line[5], line[6])
      case ('a', 's') => Title
      case ('s', 't') => Opens
      case ('e', 'n') => Closes
      case ('l', 'a') => Language
      case ('t', 'y') => Kind
      case ('w', 'e') => Weight
      case ('t', 'o') => Total
      case ('e', 'x') => Exercise
      case _ => Other
  }

  /** A line takes a branch exactly when it starts with that branch's prefix. */
  lemma FieldIffPrefix(line: string, f: Field)
    requires f != Other
    ensures FieldOf(line) == f <==> StartsWith(line, FieldPrefix(f))
  {
    var q := FieldPrefix(f);
    assert |q| == 7 && q[0] == '-' && q[1] == '-' && q[2] == '-' && q[3] == '-' && q[4] == ' ';
    if StartsWith(line, q) {
      assert line[..7] == q;
      assert line[0] == q[0] && line[1] == q[1] && line[2] == q[2] && line[3] == q[3];
      assert line[4] == q[4] && line[5] == q[5] && line[6] == q[6];
    }
    if FieldOf(line) == f {
      assert line[..7] == q;
    }
  }

  /** A line with none of the prefixes is ignored. */
  lemma OtherIffNoPrefix(line: string)
    ensures FieldOf(line) == Other <==>
      forall f :: f != Other ==> !StartsWith(line, FieldPrefix(f))
  {
    if FieldOf(line) != Other {
      FieldIffPrefix(line, FieldOf(line));
    } else {
      forall f | f != Other ensures !StartsWith(line, FieldPrefix(f)) {
        FieldIffPrefix(line, f);
      }
    }
  }

  /** One iteration of the `for line in f.readlines()` loop. */
  function Step(a: Activity, line: string, p: Parsers): Option<Activity> {
    match FieldOf(line)
    case Title => Some(a.(title := Some(TitleText(line))))
    case Opens => Some(a.(startsAt := Some(Strip(Drop(line, 12)))))
    case Closes => Some(a.(endsAt := Some(Strip(Drop(line, 10)))))
    case Language => Some(a.(language := Some(Strip(Drop(line, 15)))))
    case Kind => Some(a.(kind := Some(Strip(Drop(line, 11)))))
    case Weight =>
      (match p.toFloat(Strip(Drop(line, 13)))
       case None => None
       case Some(w) => Some(a.(weight := Some(w))))
    case Total =>
      (match p.toInt(Strip(Drop(line, 22)))
       case None => None
       case Some(n) => Some(a.(blockCount := Some(n))))
    case Exercise =>
      (match ParseBlock(ExerciseText(line), p.toInt)
       case Skip => Some(a)
       case Add(b) => Some(a.(blocks := a.blocks + [b]))
       case Raise => None)
    case Other => Some(a)
  }

  /** The loop over the remaining lines, starting from the record `a`. */
  function ParseFrom(a: Activity, lines: seq<string>, p: Parsers): Option<Activity>
    decreases |lines|
  {
    if |lines| == 0 then Some(a)
    else
      match Step(a, lines[0], p)
      case None => None
      case Some(a') => ParseFrom(a', lines[1..], p)
  }

  /** `__get_data_from_file` on the lines of one `.data` file. */
  function ParseActivity(lines: seq<string>, p: Parsers): Option<Activity> {
    ParseFrom(Fresh, lines, p)
  }

  // ---------------------------------------------------------------------
  // Independent descriptions of the result

  /** A line whose conversion raises, whatever came before it. */
  predicate LineRaises(line: string, p: Parsers) {
    match FieldOf(line)
    case Weight => p.toFloat(Strip(Drop(line, 13))).None?
    case Total => p.toInt(Strip(Drop(line, 22))).None?
    case Exercise => Fails(ExerciseText(line), p.toInt)
    case _ => false
  }

  /** The block texts of the exercise lines, in file order. */
  function ExerciseTexts(lines: seq<string>): seq<string> {
    if |lines| == 0 then []
    else OwnExerciseText(lines[0]) + ExerciseTexts(lines[1..])
  }

  /** The last line with the given prefix, if any. */
  function LastWith(lines: seq<string>, prefix: string): Option<string>
  {
    if |lines| == 0 then None
    else
      var later := LastWith(lines[1..], prefix);
      if later.Some? then later
      else if StartsWith(lines[0], prefix) then Some(lines[0])
      else None
  }

  lemma StepRaises(a: Activity, line: string, p: Parsers)
    ensures Step(a, line, p).None? <==> LineRaises(line, p)
  {
  }

  /** The parse fails exactly when some line's own conversion raises. */
  lemma {:induction false} ParseFailsIffSomeLineRaises(a: Activity, lines: seq<string>, p: Parsers)
    ensures ParseFrom(a, lines, p).None? <==> exists i :: 0 <= i < |lines| && LineRaises(lines[i], p)
    decreases |lines|
  {
    if |lines| > 0 {
      StepRaises(a, lines[0], p);
      match Step(a, lines[0], p)
      case None =>
      case Some(a') =>
        ParseFailsIffSomeLineRaises(a', lines[1..], p);
        if exists i :: 0 <= i < |lines| && LineRaises(lines[i], p) {
          var i :| 0 <= i < |lines| && LineRaises(lines[i], p);
          assert i > 0;
          assert lines[1..][i - 1] == lines[i];
        }
        if exists i :: 0 <= i < |lines[1..]| && LineRaises(lines[1..][i], p) {
          var i :| 0 <= i < |lines[1..]| && LineRaises(lines[1..][i], p);
          assert lines[i + 1] == lines[1..][i];
        }
    }
  }

  /** The exercise texts a single line contributes. */
  function OwnExerciseText(line: string): seq<string> {
    if FieldOf(line) == Exercise then [ExerciseText(line)] else []
  }

  lemma StepBlocks(a: Activity, line: string, p: Parsers)
    requires Step(a, line, p).Some?
    ensures CollectBlocks(OwnExerciseText(line), p.toInt).Some?
    ensures Step(a, line, p).value.blocks == a.blocks + CollectBlocks(OwnExerciseText(line), p.toInt).value
  {
    var a' := Step(a, line, p).value;
    if FieldOf(line) == Exercise {
      var t := ExerciseText(line);
      assert OwnExerciseText(line) == [t] + [];
      CollectBlocksCons(t, [], p.toInt);
      match ParseBlock(t, p.toInt)
      case Skip =>
        assert a' == a;
        assert a.blocks + [] == a.blocks;
      case Add(b) =>
        assert a'.blocks == a.blocks + [b];
        assert [b] + [] == [b];
    } else {
      assert OwnExerciseText(line) == [];
      match FieldOf(line)
      case Title =>
      case Opens =>
      case Closes =>
      case Language =>
      case Kind =>
      case Weight =>
      case Total =>
      case Other =>
      assert a'.blocks == a.blocks;
      assert a.blocks + [] == a.blocks;
    }
  }

  /** Blocks are appended one per non-empty exercise line, in file order,
      after those already present. */
  lemma {:induction false} BlocksFollowExerciseLines(a: Activity, lines: seq<string>, p: Parsers)
    requires ParseFrom(a, lines, p).Some?
    ensures CollectBlocks(ExerciseTexts(lines), p.toInt).Some?
    ensures ParseFrom(a, lines, p).value.blocks
         == a.blocks + CollectBlocks(ExerciseTexts(lines), p.toInt).value
    decreases |lines|
  {
    if |lines| > 0 {
      var a' := Step(a, lines[0], p).value;
      var own := OwnExerciseText(lines[0]);
      var rest := ExerciseTexts(lines[1..]);
      assert ParseFrom(a, lines, p) == ParseFrom(a', lines[1..], p);
      assert ExerciseTexts(lines) == own + rest;
      StepBlocks(a, lines[0], p);
      BlocksFollowExerciseLines(a', lines[1..], p);
      CollectBlocksAppend(own, rest, p.toInt);
      var x := CollectBlocks(own, p.toInt).value;
      var y := CollectBlocks(rest, p.toInt).value;
      assert CollectBlocks(ExerciseTexts(lines), p.toInt).value == x + y;
      assert ParseFrom(a, lines, p).value.blocks == a'.blocks + y;
      assert a'.blocks == a.blocks + x;
      AppendBlocksAssoc(a.blocks, x, y, a'.blocks);
    }
  }

  /** The title is the one on the last assessment-name line; earlier ones
      are overwritten, and without such a line the title stays as it was. */
  lemma StepTitle(a: Activity, line: string, p: Parsers)
    requires Step(a, line, p).Some?
    ensures Step(a, line, p).value.title
         == if StartsWith(line, TitlePrefix) then Some(TitleText(line)) else a.title
  {
    FieldIffPrefix(line, Title);
  }

  lemma {:induction false} TitleFromLastTitleLine(a: Activity, lines: seq<string>, p: Parsers)
    requires ParseFrom(a, lines, p).Some?
    ensures ParseFrom(a, lines, p).value.title
         == match LastWith(lines, TitlePrefix)
            case Some(l) => Some(TitleText(l))
            case None => a.title
    decreases |lines|
  {
    if |lines| > 0 {
      var a' := Step(a, lines[0], p).value;
      assert ParseFrom(a, lines, p) == ParseFrom(a', lines[1..], p);
      TitleFromLastTitleLine(a', lines[1..], p);
      StepTitle(a, lines[0], p);
    }
  }

  const ExampleLine: string := "---- exercise 1:  10 or 3 or 7\n"

  lemma ExampleLineField()
    ensures FieldOf(ExampleLine) == Exercise
  {
    assert ExampleLine[5] == 'e' && ExampleLine[6] == 'x';
  }

  lemma ExampleLineText()
    ensures ExerciseText(ExampleLine) == "10 or 3 or 7"
  {
    assert Drop(ExampleLine, 18) == "10 or 3 or 7\n";
    var t := "10 or 3 or 7\n";
    assert TrimLeft(t) == t by { assert !IsSpace(t[0]); }
    assert t[..|t| - 1] == "10 or 3 or 7";
    assert IsSpace(t[|t| - 1]);
    assert TrimRight(t) == TrimRight("10 or 3 or 7");
    assert TrimRight("10 or 3 or 7") == "10 or 3 or 7" by {
      assert !IsSpace("10 or 3 or 7"[11]);
    }
  }

  /** A one-line file whose line is an exercise line adding block `b`. */
  lemma OneExerciseLine(line: string, b: Block, p: Parsers)
    requires FieldOf(line) == Exercise
    requires ParseBlock(ExerciseText(line), p.toInt) == Add(b)
    ensures ParseActivity([line], p) == Some(Fresh.(blocks := [b]))
  {
    assert [line][0] == line && [line][1..] == [];
    assert Fresh.blocks + [b] == [b];
    assert Step(Fresh, line, p) == Some(Fresh.(blocks := [b]));
    assert ParseFrom(Fresh.(blocks := [b]), [], p) == Some(Fresh.(blocks := [b]));
    assert ParseFrom(Fresh, [line], p) == ParseFrom(Fresh.(blocks := [b]), [line][1..], p);
  }

  /** An activity file whose only line is the exercise line
      `"10 or 3 or 7"` holds that one group, sorted. */
  lemma SingleGroupLine(p: Parsers)
    requires p.toInt("10") == Some(10) && p.toInt("3") == Some(3) && p.toInt("7") == Some(7)
    ensures ParseActivity([ExampleLine], p) == Some(Fresh.(blocks := [Alternatives([3, 7, 10])]))
  {
    ExampleLineField();
    ExampleLineText();
    OrGroupIsSorted(p.toInt);
    OneExerciseLine(ExampleLine, Alternatives([3, 7, 10]), p);
  }
}

=== FILE: activity_keyed.dfy ===
/** The second-generation activity-descriptor parser,
    `ControllerAtividade.__get_file_data`, in its two copies:
    controller/controller_atividade.py:25-82, which catches every exception
    and keeps what it had read, and controller/atividade.py:25-79, which
    catches only `OSError` so that a failed conversion escapes.

    Every line is lower-cased and trimmed, dispatched on its prefix, and its
    value is the trimmed text after its last `:`. The exercise blocks are
    gathered in a local list that is stored only once the loop has finished. */
module ActivityKeyed {
  import opened Wrappers
  import opened Text
  import opened FileNames
  import opened Conversions
  import opened ExerciseBlocks

  /** The keys the parser stores; `None` is a key the dictionary lacks. */
  datatype Data = Data(
    id: Option<int>,
    title: Option<string>,
    classCode: Option<int>,
    opens: Option<string>,
    closes: Option<string>,
    language: Option<string>,
    kind: Option<string>,
    weight: Option<real>,
    total: Option<int>,
    blocks: Option<seq<Block>>
  )

  const Empty: Data := Data(None, None, None, None, None, None, None, None, None, None)

  /** Which branch of the `if/elif` chain a normalised line takes. The
      repeated `'---- la'` and `'---- ty'` branches (controller_atividade.py:47-48
      and 51-52) can never be reached, so they have no constructor here. */
  datatype Field = Title | ClassNumber | Opens | Closes | Language | Kind | Weight | Total | Exercise | Other

  function FieldPrefix(f: Field): string
    requires f != Other
  {
    match f
    case Title => "---- as"
    case ClassNumber => "---- class nu"
    case Opens => "---- st"
    case Closes => "---- en"
    case Language => "---- la"
    case Kind => "---- ty"
    case Weight => "---- we"
    case Total => "---- to"
    case Exercise => "---- ex"
  }


  predicate Dashed(line: string) {
    |line| >= 7 && line[0] == '-' && line[1] == '-' && line[2] == '-' && line[3] == '-' && line[4] == ' '
  }

  /** `"ass nu"` at columns 7-12, completing `"---- class nu"`. */
  predicate ClassNumberTail(line: string) {
    |line| >= 13 && line[7] == 'a' && line[8] == 's' && line[9] == 's' && line[10] == ' '
    && line[11] == 'n' && line[12] == 'u'
  }

  /** The branch a normalised line takes, read off its characters. */
  function FieldOf(line: string): Field {
    if !Dashed(line) then Other
    else
      match (line[5], line[6])
      case ('a', 's') => Title
      case ('c', 'l') => if ClassNumberTail(line) then ClassNumber else Other
      case ('s', 't') => Opens
      case ('e', 'n') => Closes
      case ('l', 'a') => Language
      case ('t', 'y') => Kind
      case ('w', 'e') => Weight
      case ('t', 'o') => Total
      case ('e', 'x') => Exercise
      case _ => Other
  }

  /** A normalised line takes a branch exactly when it starts with that
      branch's prefix: the prefixes exclude one another, so the order of the
      chain does not matter. */
  lemma FieldIffPrefix(line: string, f: Field)
    requires f != Other
    ensures FieldOf(line) == f <==> StartsWith(line, FieldPrefix(f))
  {
    var q := FieldPrefix(f);
    assert q[0] == '-' && q[1] == '-' && q[2] == '-' && q[3] == '-' && q[4] == ' ';
    if f == ClassNumber {
      assert |q| == 13;
      assert q[7] == 'a' && q[8] == 's' && q[9] == 's' && q[10] == ' ' && q[11] == 'n' && q[12] == 'u';
      if StartsWith(line, q) {
        assert line[..13] == q;
        assert line[0] == q[0] && line[1] == q[1] && line[2] == q[2] && line[3] == q[3] && line[4] == q[4];
        assert line[5] == q[5] && line[6] == q[6] && line[7] == q[7] && line[8] == q[8];
        assert line[9] == q[9] && line[10] == q[10] && line[11] == q[11] && line[12] == q[12];
      }
      if FieldOf(line) == f {
        assert line[..13] == q;
      }
    } else {
      assert |q| == 7;
      if StartsWith(line, q) {
        assert line[..7] == q;
        assert line[0] == q[0] && line[1] == q[1] && line[2] == q[2] && line[3] == q[3];
        assert line[4] == q[4] && line[5] == q[5] && line[6] == q[6];
      }
      if FieldOf(line) == f {
        assert line[..7] == q;
      }
    }
  }

  /** One iteration of the loop on a normalised line: the record and the
      local block list after it, or `None` when its conversion raises. */
  function Step(d: Data, acc: seq<Block>, line: string, p: Parsers): Option<(Data, seq<Block>)> {
    var v := ColonValue(line);
    match FieldOf(line)
    case Title => Some((d.(title := Some(v)), acc))
    case ClassNumber =>
      (match p.toInt(v)
       case None => None
       case Some(n) => Some((d.(classCode := Some(n)), acc)))
    case Opens => Some((d.(opens := Some(v)), acc))
    case Closes => Some((d.(closes := Some(v)), acc))
    case Language => Some((d.(language := Some(v)), acc))
    case Kind => Some((d.(kind := Some(v)), acc))
    case Weight =>
      (match p.toFloat(v)
       case None => None
       case Some(w) => Some((d.(weight := Some(w)), acc)))
    case Total =>
      (match p.toInt(v)
       case None => None
       case Some(n) => Some((d.(total := Some(n)), acc)))
    case Exercise =>
      (match ParseBlock(v, p.toInt)
       case Skip => Some((d, acc))
       case Add(b) => Some((d, acc + [b]))
       case Raise => None)
    case Other => Some((d, acc))
  }

  /** The `for line in lines` loop: the record as it stands when the loop
      ends or raises, and the block list, or `None` if it raised. */
  function Loop(d: Data, acc: seq<Block>, lines: seq<string>, p: Parsers): (Data, Option<seq<Block>>)
    decreases |lines|
  {
    if |lines| == 0 then (d, Some(acc))
    else
      match Step(d, acc, Normalize(lines[0]), p)
      case None => (d, None)
      case Some(next) => Loop(next.0, next.1, lines[1..], p)
  }

  /** controller_atividade.py's `__get_file_data`: `content` is `None` when
      the file cannot be opened. Every exception is caught, so the result is
      the dictionary as far as it got; the blocks are stored only after the
      whole loop succeeded. This takes the handler's `Util.count_error()` to
      return normally; util/utilidades.py does not define it. */
  function ReadCatchingAll(path: string, content: Option<seq<string>>, p: Parsers): Data {
    match p.toInt(ActivityIdText(path))
    case None => Empty
    case Some(id) =>
      var d := Empty.(id := Some(id));
      match content
      case None => d
      case Some(lines) =>
        var (d', bs) := Loop(d, [], lines, p);
        d'.(blocks := bs)
  }

  /** controller/atividade.py's `__get_file_data`: only `OSError` is caught,
      so a conversion that raises escapes (`None`). */
  function ReadEscaping(path: string, content: Option<seq<string>>, p: Parsers): Option<Data> {
    match p.toInt(ActivityIdText(path))
    case None => None
    case Some(id) =>
      var d := Empty.(id := Some(id));
      match content
      case None => Some(d)
      case Some(lines) =>
        var (d', bs) := Loop(d, [], lines, p);
        if bs.None? then None else Some(d'.(blocks := bs))
  }

  /** The `Atividade` that `get_atividades` builds, every field present. */
  datatype Activity = Activity(
    id: int,
    title: string,
    classCode: int,
    opens: string,
    closes: string,
    language: string,
    kind: string,
    weight: real,
    total: int,
    blocks: seq<Block>
  )

  /** `data.get(key, default)` for every key (controller_atividade.py:132-141,
      controller/atividade.py:112-122). */
  function WithDefaults(d: Data): (a: Activity)
    ensures d.id.None? ==> a.id == 0
    ensures d.title.None? ==> a.title == ""
    ensures d.weight.None? ==> a.weight == 0.0
    ensures d.blocks.None? ==> a.blocks == []
    ensures d.id.Some? ==> a.id == d.id.value
    ensures d.blocks.Some? ==> a.blocks == d.blocks.value
  {
    Activity(
      d.id.GetOr(0), d.title.GetOr(""), d.classCode.GetOr(0), d.opens.GetOr(""),
      d.closes.GetOr(""), d.language.GetOr(""), d.kind.GetOr(""), d.weight.GetOr(0.0),
      d.total.GetOr(0), d.blocks.GetOr([]))
  }

  // ---------------------------------------------------------------------
  // Independent descriptions of the result

  /** A normalised line whose conversion raises, whatever came before it. */
  predicate Raises(line: string, p: Parsers) {
    match FieldOf(line)
    case ClassNumber => p.toInt(ColonValue(line)).None?
    case Weight => p.toFloat(ColonValue(line)).None?
    case Total => p.toInt(ColonValue(line)).None?
    case Exercise => Fails(ColonValue(line), p.toInt)
    case _ => false
  }

  /** A raw line whose conversion raises. */
  predicate LineRaises(raw: string, p: Parsers) {
    Raises(Normalize(raw), p)
  }

  lemma StepRaises(d: Data, acc: seq<Block>, line: string, p: Parsers)
    ensures Step(d, acc, line, p).None? <==> Raises(line, p)
  {
  }

  /** The block text a normalised line contributes, if it is an exercise line. */
  function OwnExerciseText(line: string): seq<string> {
    if FieldOf(line) == Exercise then [ColonValue(line)] else []
  }

  /** The block texts of the exercise lines, in file order. */
  function ExerciseTexts(lines: seq<string>): seq<string> {
    if |lines| == 0 then [] else OwnExerciseText(Normalize(lines[0])) + ExerciseTexts(lines[1..])
  }

  /** The loop completes exactly when no line raises. */
  lemma {:induction false} LoopCompletesIffNoLineRaises(d: Data, acc: seq<Block>, lines: seq<string>, p: Parsers)
    ensures Loop(d, acc, lines, p).1.Some? <==> forall i :: 0 <= i < |lines| ==> !LineRaises(lines[i], p)
    decreases |lines|
  {
    if |lines| > 0 {
      StepRaises(d, acc, Normalize(lines[0]), p);
      match Step(d, acc, Normalize(lines[0]), p)
      case None =>
      case Some(next) =>
        LoopCompletesIffNoLineRaises(next.0, next.1, lines[1..], p);
        assert forall i :: 1 <= i < |lines| ==> lines[i] == lines[1..][i - 1];
    }
  }

  /** When a line raises, the record is what the lines before the first
      raising line made of it, and no block list is stored. */
  lemma {:induction false} LoopStopsAtFirstRaise(d: Data, acc: seq<Block>, lines: seq<string>, i: nat, p: Parsers)
    requires i < |lines| && LineRaises(lines[i], p)
    requires forall j :: 0 <= j < i ==> !LineRaises(lines[j], p)
    ensures Loop(d, acc, lines, p).1.None?
    ensures Loop(d, acc, lines, p).0 == Loop(d, acc, lines[..i], p).0
    decreases i
  {
    StepRaises(d, acc, Normalize(lines[0]), p);
    if i > 0 {
      var next := Step(d, acc, Normalize(lines[0]), p).value;
      assert !LineRaises(lines[0], p);
      assert lines[..i][0] == lines[0] && lines[..i][1..] == lines[1..][..i - 1];
      assert forall j :: 0 <= j < i - 1 ==> lines[1..][j] == lines[j + 1];
      LoopStopsAtFirstRaise(next.0, next.1, lines[1..], i - 1, p);
    }
  }

  lemma StepBlocks(d: Data, acc: seq<Block>, line: string, p: Parsers)
    requires Step(d, acc, line, p).Some?
    ensures CollectBlocks(OwnExerciseText(line), p.toInt).Some?
    ensures Step(d, acc, line, p).value.1 == acc + CollectBlocks(OwnExerciseText(line), p.toInt).value
  {
    if FieldOf(line) == Exercise {
      CollectBlocksCons(ColonValue(line), [], p.toInt);
      assert OwnExerciseText(line) == [ColonValue(line)] + [];
    }
  }

  /** A completed loop has appended one block per non-empty exercise line,
      in file order. */
  lemma {:induction false} LoopBlocks(d: Data, acc: seq<Block>, lines: seq<string>, p: Parsers)
    requires Loop(d, acc, lines, p).1.Some?
    ensures CollectBlocks(ExerciseTexts(lines), p.toInt).Some?
    ensures Loop(d, acc, lines, p).1.value == acc + CollectBlocks(ExerciseTexts(lines), p.toInt).value
    decreases |lines|
  {
    if |lines| > 0 {
      var next := Step(d, acc, Normalize(lines[0]), p).value;
      var own := OwnExerciseText(Normalize(lines[0]));
      var rest := ExerciseTexts(lines[1..]);
      assert Loop(d, acc, lines, p) == Loop(next.0, next.1, lines[1..], p);
      assert ExerciseTexts(lines) == own + rest;
      StepBlocks(d, acc, Normalize(lines[0]), p);
      LoopBlocks(next.0, next.1, lines[1..], p);
      CollectBlocksAppend(own, rest, p.toInt);
      var x := CollectBlocks(own, p.toInt).value;
      var y := CollectBlocks(rest, p.toInt).value;
      assert CollectBlocks(ExerciseTexts(lines), p.toInt).value == x + y;
      assert Loop(d, acc, lines, p).1.value == next.1 + y;
      assert next.1 == acc + x;
      AppendBlocksAssoc(acc, x, y, next.1);
    }
  }

  /** controller_atividade.py: a file that parses has its blocks in file
      order; one with a raising line keeps the fields read before that line,
      and its activity has no blocks. */
  lemma CatchAllOutcome(path: string, lines: seq<string>, p: Parsers)
    requires p.toInt(ActivityIdText(path)).Some?
    ensures var d := ReadCatchingAll(path, Some(lines), p);
      && d.id == p.toInt(ActivityIdText(path))
      && (d.blocks.Some? <==> forall i :: 0 <= i < |lines| ==> !LineRaises(lines[i], p))
      && (d.blocks.Some? ==> CollectBlocks(ExerciseTexts(lines), p.toInt) == d.blocks)
      && (d.blocks.None? ==> WithDefaults(d).blocks == [])
  {
    var d0 := Empty.(id := p.toInt(ActivityIdText(path)));
    LoopCompletesIffNoLineRaises(d0, [], lines, p);
    var r := Loop(d0, [], lines, p);
    if r.1.Some? {
      LoopBlocks(d0, [], lines, p);
      assert [] + CollectBlocks(ExerciseTexts(lines), p.toInt).value
          == CollectBlocks(ExerciseTexts(lines), p.toInt).value;
    }
    LoopKeepsId(d0, [], lines, p);
  }

  /** The loop never touches the id. */
  lemma {:induction false} LoopKeepsId(d: Data, acc: seq<Block>, lines: seq<string>, p: Parsers)
    ensures Loop(d, acc, lines, p).0.id == d.id
    decreases |lines|
  {
    if |lines| > 0 {
      match Step(d, acc, Normalize(lines[0]), p)
      case None =>
      case Some(next) =>
        assert next.0.id == d.id;
        LoopKeepsId(next.0, next.1, lines[1..], p);
    }
  }

  /** controller_atividade.py: an unreadable id leaves the dictionary empty,
      so every field takes its default. */
  lemma BadIdGivesDefaults(path: string, content: Option<seq<string>>, p: Parsers)
    requires p.toInt(ActivityIdText(path)).None?
    ensures WithDefaults(ReadCatchingAll(path, content, p))
         == Activity(0, "", 0, "", "", "", "", 0.0, 0, [])
  {
  }

  /** controller/atividade.py: the parse escapes exactly when the id or
      some line fails to convert; otherwise it agrees with the catch-all copy. */
  lemma EscapingOutcome(path: string, lines: seq<string>, p: Parsers)
    ensures ReadEscaping(path, Some(lines), p).None? <==>
      (p.toInt(ActivityIdText(path)).None? || exists i :: 0 <= i < |lines| && LineRaises(lines[i], p))
    ensures ReadEscaping(path, Some(lines), p).Some? ==>
      ReadEscaping(path, Some(lines), p).value == ReadCatchingAll(path, Some(lines), p)
  {
    if p.toInt(ActivityIdText(path)).Some? {
      LoopCompletesIffNoLineRaises(Empty.(id := p.toInt(ActivityIdText(path))), [], lines, p);
    }
  }

  // ---------------------------------------------------------------------
  // Dates keep only what follows their last colon

  /** `"---- start: 2020-01-01 00:00"`: the value kept is `"00"`. */
  lemma StartDateKeepsMinutesOnly()
    ensures ColonValue(Normalize("---- start: 2020-01-01 00:00")) == "00"
  {
    var raw := "---- start: 2020-01-01 00:00";
    assert Lower(raw) == raw by {
      forall i | 0 <= i < |raw| ensures LowerChar(raw[i]) == raw[i] {
      }
      assert Lower(raw) == raw;
    }
    assert Strip(raw) == raw by {
      assert !IsSpace(raw[0]) && !IsSpace(raw[|raw| - 1]);
      StripOfStripped(raw);
    }
    assert raw == "---- start: 2020-01-01 00" + ":" + "00";
    ColonValueOfKeyedLine("---- start: 2020-01-01 00", "00");
    assert Strip("00") == "00" by {
      StripOfStripped("00");
    }
  }

  /** The text after the first `:`, trimmed: the value the date lines
      evidently call for, since a date's time holds colons. */
  function ValueAfterFirstColon(line: string): string {
    match IndexOf(line, ':')
    case None => Strip(line)
    case Some(k) => Strip(line[k + 1..])
  }

  /** For a key without a colon, the text after the first colon gives the
      whole value back, colons included. */
  lemma ValueAfterFirstColonRoundTrip(key: string, v: string)
    requires ':' !in key
    ensures ValueAfterFirstColon(key + ":" + v) == Strip(v)
  {
    var line := key + ":" + v;
    assert line[|key|] == ':';
    assert ':' in line;
    var k := IndexOf(line, ':').value;
    assert line[..|key|] == key;
    assert line[|key| + 1..] == v;
  }
}

=== FILE: activity_listing.dfy ===
/** `ControllerAtividade.get_atividades` of
    controller/controller_atividade.py:105-152: the `.data` files of the
    assessments directory are listed, their names (without extension) are
    sorted numerically when every one of them reads as an int, and each
    activity is then read from the file named after the sorted id and
    completed with defaults. */
module ActivityListing {
  import opened Wrappers
  import opened Text
  import opened FileNames
  import opened Conversions
  import opened Sorting
  import opened ActivityKeyed

  /** A directory entry as `os.scandir` yields it; `content` is `None` for a
      file that cannot be opened. */
  datatype Entry = Entry(name: string, isFile: bool, content: Option<seq<string>>)

  predicate IsDataFile(e: Entry) {
    e.isFile && EndsWith(e.name, DataExtension)
  }

  /** The `.data` files among the entries, in directory order. */
  function DataEntries(entries: seq<Entry>): (r: seq<Entry>)
    ensures forall e :: e in r <==> e in entries && IsDataFile(e)
    decreases |entries|
  {
    if |entries| == 0 then []
    else (if IsDataFile(entries[0]) then [entries[0]] else []) + DataEntries(entries[1..])
  }

  /** The names of the `.data` files, extension dropped, in directory order:
      `entry.name[:-5]` for each of them. */
  function DataNames(entries: seq<Entry>): (names: seq<string>)
    ensures |names| == |DataEntries(entries)|
    ensures forall k :: 0 <= k < |names| ==> names[k] == DropLast(DataEntries(entries)[k].name, 5)
    decreases |entries|
  {
    if |entries| == 0 then []
    else
      var rest := DataNames(entries[1..]);
      if IsDataFile(entries[0]) then
        assert DataEntries(entries) == [entries[0]] + DataEntries(entries[1..]);
        [DropLast(entries[0].name, 5)] + rest
      else
        assert DataEntries(entries) == DataEntries(entries[1..]);
        rest
  }

  /** `e` is a `.data` file whose name without extension is `n`. */
  predicate HasStem(e: Entry, n: string) {
    IsDataFile(e) && DropLast(e.name, 5) == n
  }

  /** A name is listed exactly when some `.data` file carries it. */
  lemma {:induction false} DataNamesMembership(entries: seq<Entry>, n: string)
    ensures n in DataNames(entries) <==> exists e :: e in entries && HasStem(e, n)
    decreases |entries|
  {
    if |entries| > 0 {
      var head := entries[0];
      var tail := entries[1..];
      DataNamesMembership(tail, n);
      var here := if IsDataFile(head) then [DropLast(head.name, 5)] else [];
      assert DataNames(entries) == here + DataNames(tail) by {
        if IsDataFile(head) {
          assert DataEntries(entries) == [head] + DataEntries(tail);
        } else {
          assert DataEntries(entries) == DataEntries(tail);
        }
      }
      assert n in here <==> HasStem(head, n);
      if exists e :: e in tail && HasStem(e, n) {
        var e :| e in tail && HasStem(e, n);
        assert e in entries;
      }
      if exists e :: e in entries && HasStem(e, n) {
        var e :| e in entries && HasStem(e, n);
        if e != head {
          assert e in tail;
        }
      }
    }
  }

  /** `open(name)` then `readlines()`: the first file entry of that name, or
      `None` when there is none or it cannot be read. */
  function Lookup(entries: seq<Entry>, fileName: string): Option<seq<string>> {
    if |entries| == 0 then None
    else if entries[0].isFile && entries[0].name == fileName then entries[0].content
    else Lookup(entries[1..], fileName)
  }

  /** `[str(x) for x in ids]` */
  function ShowAll(ids: seq<int>, show: int -> string): (r: seq<string>)
    ensures |r| == |ids|
  {
    if |ids| == 0 then [] else [show(ids[0])] + ShowAll(ids[1..], show)
  }

  /** The order the files are read in: the names converted to ints, sorted
      and turned back into text; the directory order when a name is not an
      int (controller_atividade.py:119-126). */
  function ActivityOrder(names: seq<string>, p: Parsers): seq<string> {
    match ToInts(names, p.toInt)
    case None => names
    case Some(ids) => ShowAll(Sort(ids), p.show)
  }

  /** One activity per name, read from `<name>.data`. */
  function ReadAll(order: seq<string>, entries: seq<Entry>, p: Parsers): (r: seq<Activity>)
    ensures |r| == |order|
  {
    if |order| == 0 then []
    else
      var fileName := order[0] + DataExtension;
      [WithDefaults(ReadCatchingAll(fileName, Lookup(entries, fileName), p))]
      + ReadAll(order[1..], entries, p)
  }

  /** `None` when the directory cannot be scanned: the outer `except`
      returns the empty list. */
  function GetActivities(listing: Option<seq<Entry>>, p: Parsers): seq<Activity> {
    match listing
    case None => []
    case Some(entries) => ReadAll(ActivityOrder(DataNames(entries), p), entries, p)
  }

  // ---------------------------------------------------------------------

  /** `str` and `int` are inverse on the ids (`int(str(n)) == n`), and
      `str(n)` never holds a `/`. */
  ghost predicate ShowRoundTrips(p: Parsers) {
    forall n: int :: p.toInt(p.show(n)) == Some(n) && '/' !in p.show(n)
  }

  lemma ShowReadsBack(p: Parsers, n: int)
    requires ShowRoundTrips(p)
    ensures p.toInt(p.show(n)) == Some(n) && '/' !in p.show(n)
  {
  }

  lemma {:induction false} ShowAllReadsBack(ids: seq<int>, p: Parsers)
    requires ShowRoundTrips(p)
    ensures ToInts(ShowAll(ids, p.show), p.toInt) == Some(ids)
  {
    if |ids| > 0 {
      ShowAllReadsBack(ids[1..], p);
      var shown := ShowAll(ids, p.show);
      assert shown[0] == p.show(ids[0]) && shown[1..] == ShowAll(ids[1..], p.show);
      ShowReadsBack(p, ids[0]);
      assert [ids[0]] + ids[1..] == ids;
    }
  }

  /** When a name is not an int the directory order stays; otherwise the
      names read back as the same ids, in ascending order. */
  lemma ActivityOrderMeaning(names: seq<string>, p: Parsers)
    requires ShowRoundTrips(p)
    ensures ToInts(names, p.toInt).None? ==> ActivityOrder(names, p) == names
    ensures ToInts(names, p.toInt).Some? ==>
      var ids := ToInts(names, p.toInt).value;
      && |ActivityOrder(names, p)| == |names|
      && ToInts(ActivityOrder(names, p), p.toInt).Some?
      && Sorted(ToInts(ActivityOrder(names, p), p.toInt).value)
      && multiset(ToInts(ActivityOrder(names, p), p.toInt).value) == multiset(ids)
  {
    if ToInts(names, p.toInt).Some? {
      ShowAllReadsBack(Sort(ToInts(names, p.toInt).value), p);
    }
  }

  /** The activities come out with ascending ids, one per `.data` file,
      whenever every file name is an int (controller_atividade.py:116-126, 29). */
  lemma ActivitiesInIdOrder(entries: seq<Entry>, p: Parsers)
    requires ShowRoundTrips(p)
    requires ToInts(DataNames(entries), p.toInt).Some?
    ensures var acts := GetActivities(Some(entries), p);
      && |acts| == |DataNames(entries)|
      && forall i, j :: 0 <= i < j < |acts| ==> acts[i].id <= acts[j].id
  {
    var ids := ToInts(DataNames(entries), p.toInt).value;
    var sorted := Sort(ids);
    var order := ActivityOrder(DataNames(entries), p);
    assert order == ShowAll(sorted, p.show);
    ReadAllIds(sorted, entries, p);
  }

  /** A readable id survives whatever the file holds. */
  lemma ReadKeepsId(path: string, content: Option<seq<string>>, p: Parsers)
    requires p.toInt(ActivityIdText(path)).Some?
    ensures ReadCatchingAll(path, content, p).id == p.toInt(ActivityIdText(path))
  {
    if content.Some? {
      LoopKeepsId(Empty.(id := p.toInt(ActivityIdText(path))), [], content.value, p);
    }
  }

  /** Reading the files named after `ids` gives activities with those ids. */
  lemma {:induction false} ReadAllIds(ids: seq<int>, entries: seq<Entry>, p: Parsers)
    requires ShowRoundTrips(p)
    ensures var acts := ReadAll(ShowAll(ids, p.show), entries, p);
      forall i :: 0 <= i < |ids| ==> acts[i].id == ids[i]
  {
    if |ids| > 0 {
      ReadAllIds(ids[1..], entries, p);
      var shown := ShowAll(ids, p.show);
      assert shown[0] == p.show(ids[0]) && shown[1..] == ShowAll(ids[1..], p.show);
      ShowReadsBack(p, ids[0]);
      ActivityIdOfFileName(shown[0]);
      var fileName := shown[0] + DataExtension;
      ReadKeepsId(fileName, Lookup(entries, fileName), p);
      var acts := ReadAll(shown, entries, p);
      assert acts[1..] == ReadAll(ShowAll(ids[1..], p.show), entries, p);
      assert acts[0].id == ids[0];
      forall i | 1 <= i < |ids| ensures acts[i].id == ids[i] {
        assert acts[i] == acts[1..][i - 1];
      }
    }
  }

  // ---------------------------------------------------------------------
  // Reading back `str(int(name))` loses files whose name is not canonical

  /** A directory holding the single file `<name>.data`. */
  lemma {:induction false} SingleDataName(name: string, lines: seq<string>)
    ensures DataNames([Entry(name + DataExtension, true, Some(lines))]) == [name]
    ensures Lookup([Entry(name + DataExtension, true, Some(lines))], name + DataExtension) == Some(lines)
  {
    var entries := [Entry(name + DataExtension, true, Some(lines))];
    var file := name + DataExtension;
    assert file[|file| - 5..] == ".data";
    assert IsDataFile(entries[0]);
    assert DropLast(file, 5) == name by { assert file[..|name|] == name; }
    assert entries[1..] == [];
  }

  lemma ToIntsSingle(name: string, id: int, toInt: string -> Option<int>)
    requires toInt(name) == Some(id)
    ensures ToInts([name], toInt) == Some([id])
  {
    assert [name][1..] == [];
    assert [id] + [] == [id];
  }

  /** `007.data`: its name reads as 7, so the file opened is `7.data`, which
      is not there; the activity keeps only its id. */
  lemma LeadingZeroNameLosesFile(lines: seq<string>, p: Parsers)
    requires p.toInt("007") == Some(7) && p.show(7) == "7" && p.toInt("7") == Some(7)
    ensures GetActivities(Some([Entry("007.data", true, Some(lines))]), p)
         == [Activity(7, "", 0, "", "", "", "", 0.0, 0, [])]
  {
    var entries := [Entry("007.data", true, Some(lines))];
    SingleDataName("007", lines);
    assert "007" + DataExtension == "007.data";
    ToIntsSingle("007", 7, p.toInt);
    assert Sort([7]) == [7] by { assert [7][1..] == []; }
    assert ShowAll([7], p.show) == ["7"] by { assert [7][1..] == []; }
    assert ActivityOrder(["007"], p) == ["7"];
    assert Lookup(entries, "7.data") == None by {
      assert entries[0].name != "7.data" by { assert entries[0].name[0] != "7.data"[0]; }
      assert entries[1..] == [];
    }
    ActivityIdOfFileName("7");
    assert "7" + DataExtension == "7.data";
    assert ["7"][1..] == [];
  }

  /** An id paired with the name it was read from. */
  datatype Named = Named(id: int, name: string)

  ghost predicate SortedById(s: seq<Named>) {
    forall i, j :: 0 <= i < j < |s| ==> s[i].id <= s[j].id
  }

  function InsertNamed(x: Named, s: seq<Named>): (r: seq<Named>)
    requires SortedById(s)
    ensures SortedById(r)
    ensures |r| == |s| + 1
    ensures r[0] == if |s| == 0 || x.id <= s[0].id then x else s[0]
  {
    if |s| == 0 then [x]
    else if x.id <= s[0].id then [x] + s
    else
      var rest := InsertNamed(x, s[1..]);
      assert s[0].id <= rest[0].id;
      [s[0]] + rest
  }

  /** The pairs in ascending id order. */
  function SortNamed(s: seq<Named>): (r: seq<Named>)
    ensures SortedById(r)
    ensures |r| == |s|
  {
    if |s| == 0 then [] else InsertNamed(s[0], SortNamed(s[1..]))
  }

  /** Each name with the id it reads as; `None` when one is not an int. */
  function NameIds(names: seq<string>, toInt: string -> Option<int>): (r: Option<seq<Named>>)
    ensures r.Some? ==> |r.value| == |names|
  {
    if |names| == 0 then Some([])
    else
      match toInt(names[0])
      case None => None
      case Some(id) =>
        match NameIds(names[1..], toInt)
        case None => None
        case Some(rest) => Some([Named(id, names[0])] + rest)
  }

  function NamesOf(s: seq<Named>): (r: seq<string>)
    ensures |r| == |s|
  {
    if |s| == 0 then [] else [s[0].name] + NamesOf(s[1..])
  }

  function IdsOf(s: seq<Named>): (r: seq<int>)
    ensures |r| == |s|
  {
    if |s| == 0 then [] else [s[0].id] + IdsOf(s[1..])
  }

  /** The order read when the names are sorted by the id they stand for but
      kept as they are in the directory. */
  function CorrectedOrder(names: seq<string>, p: Parsers): seq<string> {
    match NameIds(names, p.toInt)
    case None => names
    case Some(named) => NamesOf(SortNamed(named))
  }

  function GetActivitiesCorrected(listing: Option<seq<Entry>>, p: Parsers): seq<Activity> {
    match listing
    case None => []
    case Some(entries) => ReadAll(CorrectedOrder(DataNames(entries), p), entries, p)
  }

  /** Inserting a pair adds its name and nothing else. */
  lemma {:induction false} NamesOfInsert(x: Named, s: seq<Named>)
    requires SortedById(s)
    ensures multiset(NamesOf(InsertNamed(x, s))) == multiset(NamesOf(s)) + multiset{x.name}
  {
    if |s| > 0 && x.id > s[0].id {
      NamesOfInsert(x, s[1..]);
      assert NamesOf(s) == [s[0].name] + NamesOf(s[1..]);
    }
  }

  /** Sorting the pairs keeps the names, each as often as before. */
  lemma {:induction false} NamesOfSort(s: seq<Named>)
    ensures multiset(NamesOf(SortNamed(s))) == multiset(NamesOf(s))
  {
    if |s| > 0 {
      NamesOfSort(s[1..]);
      NamesOfInsert(s[0], SortNamed(s[1..]));
      assert NamesOf(s) == [s[0].name] + NamesOf(s[1..]);
    }
  }

  /** The pairs' names are the names they were read from, and their ids the
      ids `int()` gives. */
  lemma {:induction false} NameIdsMeaning(names: seq<string>, toInt: string -> Option<int>)
    ensures NameIds(names, toInt).Some? <==> ToInts(names, toInt).Some?
    ensures NameIds(names, toInt).Some? ==>
      && NamesOf(NameIds(names, toInt).value) == names
      && IdsOf(NameIds(names, toInt).value) == ToInts(names, toInt).value
  {
    if |names| > 0 {
      NameIdsMeaning(names[1..], toInt);
      assert names == [names[0]] + names[1..];
    }
  }

  /** Every pair of `NameIds` holds a name and the id it reads as. */
  lemma {:induction false} NameIdsRead(names: seq<string>, toInt: string -> Option<int>)
    requires NameIds(names, toInt).Some?
    ensures forall x :: x in NameIds(names, toInt).value ==> toInt(x.name) == Some(x.id)
  {
    if |names| > 0 {
      NameIdsRead(names[1..], toInt);
    }
  }

  /** Inserting and sorting keep the pairs of the input. */
  lemma {:induction false} InsertNamedElements(x: Named, s: seq<Named>)
    requires SortedById(s)
    ensures forall y :: y in InsertNamed(x, s) ==> y == x || y in s
  {
    if |s| > 0 && x.id > s[0].id {
      InsertNamedElements(x, s[1..]);
    }
  }

  lemma {:induction false} SortNamedElements(s: seq<Named>)
    ensures forall y :: y in SortNamed(s) ==> y in s
  {
    if |s| > 0 {
      SortNamedElements(s[1..]);
      InsertNamedElements(s[0], SortNamed(s[1..]));
    }
  }

  /** Pairs each of whose names reads as its id read back as their ids. */
  lemma {:induction false} NamesOfIds(s: seq<Named>, toInt: string -> Option<int>)
    requires forall x :: x in s ==> toInt(x.name) == Some(x.id)
    ensures ToInts(NamesOf(s), toInt) == Some(IdsOf(s))
  {
    if |s| > 0 {
      NamesOfIds(s[1..], toInt);
      var ns := NamesOf(s);
      assert ns[0] == s[0].name && ns[1..] == NamesOf(s[1..]);
      assert toInt(ns[0]) == Some(s[0].id);
    }
  }

  /** The ids of ascending pairs are ascending. */
  lemma {:induction false} IdsOfSorted(s: seq<Named>)
    requires SortedById(s)
    ensures Sorted(IdsOf(s))
  {
    if |s| > 0 {
      IdsOfSorted(s[1..]);
      IdsOfAt(s);
    }
  }

  lemma {:induction false} IdsOfAt(s: seq<Named>)
    ensures forall i :: 0 <= i < |s| ==> IdsOf(s)[i] == s[i].id
  {
    if |s| > 0 {
      IdsOfAt(s[1..]);
      var r := IdsOf(s);
      assert r[1..] == IdsOf(s[1..]);
      forall i | 1 <= i < |s| ensures r[i] == s[i].id {
        assert r[i] == r[1..][i - 1];
      }
    }
  }

  /** The corrected order reads every `.data` file once, by its own name,
      and, when every name is an int, in ascending id order; no assumption
      about `str` is needed. */
  lemma CorrectedOrderMeaning(names: seq<string>, p: Parsers)
    ensures multiset(CorrectedOrder(names, p)) == multiset(names)
    ensures ToInts(names, p.toInt).None? ==> CorrectedOrder(names, p) == names
    ensures ToInts(names, p.toInt).Some? ==>
      && ToInts(CorrectedOrder(names, p), p.toInt).Some?
      && Sorted(ToInts(CorrectedOrder(names, p), p.toInt).value)
  {
    NameIdsMeaning(names, p.toInt);
    if NameIds(names, p.toInt).Some? {
      var named := NameIds(names, p.toInt).value;
      var sorted := SortNamed(named);
      NamesOfSort(named);
      NameIdsRead(names, p.toInt);
      SortNamedElements(named);
      NamesOfIds(sorted, p.toInt);
      IdsOfSorted(sorted);
    }
  }

  /** The corrected listing reads the contents of `007.data`. */
  lemma CorrectedKeepsLeadingZeroFile(lines: seq<string>, p: Parsers)
    requires p.toInt("007") == Some(7)
    ensures GetActivitiesCorrected(Some([Entry("007.data", true, Some(lines))]), p)
         == [WithDefaults(ReadCatchingAll("007.data", Some(lines), p))]
  {
    SingleDataName("007", lines);
    assert "007" + DataExtension == "007.data";
    var names: seq<string> := ["007"];
    assert names[0] == "007" && names[1..] == [];
    assert NameIds(names[1..], p.toInt) == Some([]);
    assert [Named(7, "007")] + [] == [Named(7, "007")];
    assert NameIds(names, p.toInt) == Some([Named(7, "007")]);
    assert [Named(7, "007")][1..] == [];
    assert SortNamed([Named(7, "007")]) == [Named(7, "007")];
    assert NamesOf([Named(7, "007")]) == ["007"];
    assert CorrectedOrder(["007"], p) == ["007"];
  }
}

=== FILE: activity_positional.dfy ===
/** `Atividade.get_atividade_from_file` (model/atividades.py:19-83): a purely
    positional reader. Line 0 is a header; line 1 holds the title from
    column 23, line 3 the class code from column 19, lines 4-6 and 8-10 the
    dates, language, type, weight and question count at fixed columns; lines
    2, 7 and 11 are skipped; every later line, up to the end of the file, is
    an exercise block from column 18. Each value is the slice `[k:-1]`, which
    drops the line's newline.

    Any exception is caught. One raised before the `Atividade` is built
    (opening the file, the id or the class code) leaves the result `None`;
    one raised later returns the activity as far as it was filled in. */
module ActivityPositional {
  import opened Wrappers
  import opened Text
  import opened Conversions
  import opened ExerciseBlocks
  import opened FileNames
  import ActivityKeyed

  type Activity = ActivityKeyed.Activity

  /** `readline()` past the end of the file yields `''`, which ends the
      block loop; the lines `readlines()` yields are never empty. */
  function UntilEof(lines: seq<string>): (r: seq<string>)
    ensures |r| <= |lines|
  {
    if |lines| == 0 || lines[0] == "" then [] else [lines[0]] + UntilEof(lines[1..])
  }

  /** The lines after the twelve header lines. */
  function Body(lines: seq<string>): seq<string> {
    if |lines| <= 12 then [] else lines[12..]
  }

  /** `line[18:-1].strip()` */
  function BlockText(line: string): string {
    Strip(SliceToLast(line, 18))
  }

  function BlockTexts(lines: seq<string>): (r: seq<string>)
    ensures |r| == |lines|
  {
    if |lines| == 0 then [] else [BlockText(lines[0])] + BlockTexts(lines[1..])
  }

  /** The block loop: blocks are appended as their lines are read, so one
      that raises keeps the blocks before it; the flag says whether the loop
      reached the end of the file. */
  function Collect(texts: seq<string>, toInt: string -> Option<int>): (r: (seq<Block>, bool))
    ensures |r.0| <= |texts|
  {
    if |texts| == 0 then ([], true)
    else
      match ParseBlock(texts[0], toInt)
      case Raise => ([], false)
      case Skip => Collect(texts[1..], toInt)
      case Add(b) =>
        var rest := Collect(texts[1..], toInt);
        ([b] + rest.0, rest.1)
  }

  /** The activity the reader returns: `content` is `None` when the file
      cannot be opened. */
  function Read(path: string, content: Option<seq<string>>, p: Parsers): Option<Activity> {
    match content
    case None => None
    case Some(lines) =>
      match p.toInt(ActivityIdText(path))
      case None => None
      case Some(id) =>
        match p.toInt(SliceToLast(LineAt(lines, 3), 19))
        case None => None
        case Some(classCode) =>
          var built := ActivityKeyed.Activity(
            id, SliceToLast(LineAt(lines, 1), 23), classCode,
            SliceToLast(LineAt(lines, 4), 12), SliceToLast(LineAt(lines, 5), 10),
            SliceToLast(LineAt(lines, 6), 15), SliceToLast(LineAt(lines, 8), 11),
            0.0, 0, []);
          match p.toFloat(SliceToLast(LineAt(lines, 9), 13))
          case None => Some(built)
          case Some(weight) =>
            match p.toInt(SliceToLast(LineAt(lines, 10), 22))
            case None => Some(built.(weight := weight))
            case Some(total) =>
              var (blocks, _) := Collect(BlockTexts(UntilEof(Body(lines))), p.toInt);
              Some(built.(weight := weight, total := total, blocks := blocks))
  }

  // ---------------------------------------------------------------------

  /** Line `i` holds `v` from column `k` up to its newline. */
  predicate HasValue(lines: seq<string>, i: nat, k: nat, v: string) {
    && i < |lines|
    && |lines[i]| == k + |v| + 1
    && lines[i][k..k + |v|] == v
    && lines[i][|lines[i]| - 1] == '\n'
  }

  /** `[k:-1]` on such a line gives back the value. */
  lemma ColumnValue(lines: seq<string>, i: nat, k: nat, v: string)
    requires HasValue(lines, i, k, v)
    ensures SliceToLast(LineAt(lines, i), k) == v
  {
    var line := lines[i];
    assert DropLast(line, 1) == line[..k + |v|];
    assert line[..k + |v|][k..] == v;
  }

  /** The index of the first text that raises, or the number of texts. */
  function FirstFailure(texts: seq<string>, toInt: string -> Option<int>): (k: nat)
    ensures k <= |texts|
  {
    if |texts| == 0 then 0
    else if Fails(texts[0], toInt) then 0
    else 1 + FirstFailure(texts[1..], toInt)
  }

  /** The block loop keeps exactly the blocks of the texts before the first
      one that raises, and reaches the end exactly when none raises. */
  lemma {:induction false} CollectStopsAtFirstFailure(texts: seq<string>, toInt: string -> Option<int>)
    ensures var k := FirstFailure(texts, toInt);
      && CollectBlocks(texts[..k], toInt).Some?
      && Collect(texts, toInt).0 == CollectBlocks(texts[..k], toInt).value
      && (Collect(texts, toInt).1 <==> k == |texts|)
      && (Collect(texts, toInt).1 <==> CollectBlocks(texts, toInt).Some?)
  {
    if |texts| > 0 {
      CollectStopsAtFirstFailure(texts[1..], toInt);
      var k := FirstFailure(texts, toInt);
      CollectBlocksCons(texts[0], texts[1..], toInt);
      if Fails(texts[0], toInt) {
        assert texts[..k] == [];
      } else {
        assert texts[..k] == [texts[0]] + texts[1..][..k - 1];
        CollectBlocksCons(texts[0], texts[1..][..k - 1], toInt);
        assert texts == [texts[0]] + texts[1..];
      }
    }
  }

  /** The result is `None` exactly when the file cannot be opened, or its
      id or class code is not an int. */
  lemma ReadNoneIff(path: string, content: Option<seq<string>>, p: Parsers)
    ensures Read(path, content, p).None? <==>
      || content.None?
      || p.toInt(ActivityIdText(path)).None?
      || p.toInt(SliceToLast(LineAt(content.value, 3), 19)).None?
  {
  }

  /** A weight or question count that fails to convert leaves the fields
      after it at their constructor defaults and the fields before it set. */
  lemma PartialAfterConstruction(path: string, lines: seq<string>, p: Parsers)
    requires Read(path, Some(lines), p).Some?
    ensures var a := Read(path, Some(lines), p).value;
      && a.title == SliceToLast(LineAt(lines, 1), 23)
      && a.kind == SliceToLast(LineAt(lines, 8), 11)
      && (p.toFloat(SliceToLast(LineAt(lines, 9), 13)).None? ==> a.weight == 0.0 && a.total == 0 && a.blocks == [])
      && (p.toFloat(SliceToLast(LineAt(lines, 9), 13)).Some? ==> Some(a.weight) == p.toFloat(SliceToLast(LineAt(lines, 9), 13)))
      && (p.toInt(SliceToLast(LineAt(lines, 10), 22)).None? ==> a.total == 0 && a.blocks == [])
  {
  }

  lemma {:induction false} UntilEofOfNonEmpty(lines: seq<string>)
    requires forall i :: 0 <= i < |lines| ==> lines[i] != ""
    ensures UntilEof(lines) == lines
  {
    if |lines| > 0 {
      UntilEofOfNonEmpty(lines[1..]);
    }
  }

  /** A file laid out as the format says reads back as the values it holds:
      the header values from their columns, and the blocks of the exercise
      lines in file order. */
  lemma ReadsLayout(path: string, lines: seq<string>, p: Parsers, a: Activity,
                    classText: string, weightText: string, totalText: string)
    requires p.toInt(ActivityIdText(path)) == Some(a.id)
    requires HasValue(lines, 1, 23, a.title)
    requires HasValue(lines, 3, 19, classText) && p.toInt(classText) == Some(a.classCode)
    requires HasValue(lines, 4, 12, a.opens)
    requires HasValue(lines, 5, 10, a.closes)
    requires HasValue(lines, 6, 15, a.language)
    requires HasValue(lines, 8, 11, a.kind)
    requires HasValue(lines, 9, 13, weightText) && p.toFloat(weightText) == Some(a.weight)
    requires HasValue(lines, 10, 22, totalText) && p.toInt(totalText) == Some(a.total)
    requires forall i :: 12 <= i < |lines| ==> lines[i] != ""
    requires CollectBlocks(BlockTexts(Body(lines)), p.toInt) == Some(a.blocks)
    ensures Read(path, Some(lines), p) == Some(a)
  {
    ColumnValue(lines, 1, 23, a.title);
    ColumnValue(lines, 3, 19, classText);
    ColumnValue(lines, 4, 12, a.opens);
    ColumnValue(lines, 5, 10, a.closes);
    ColumnValue(lines, 6, 15, a.language);
    ColumnValue(lines, 8, 11, a.kind);
    ColumnValue(lines, 9, 13, weightText);
    ColumnValue(lines, 10, 22, totalText);
    var body := Body(lines);
    assert forall i :: 0 <= i < |body| ==> body[i] == lines[i + 12];
    UntilEofOfNonEmpty(body);
    CollectStopsAtFirstFailure(BlockTexts(body), p.toInt);
    var texts := BlockTexts(body);
    assert texts[..|texts|] == texts;
  }
}

=== FILE: blocks.dfy ===
/** The exercise-block rule every generation of the activity parser shares
    (extractors.py:159-170, extractor.py:150-161, controllers.py:153-164,
    controller/controller_atividade.py:57-69, controller/atividade.py:56-68
    and model/atividades.py:56-71): an empty block text is skipped,
    `"a or b or c"` becomes the ascending list of its ids, anything else is a
    single id, and blocks keep the order of their lines. */
module ExerciseBlocks {
  import opened Wrappers
  import opened Text
  import opened Sorting
  import opened Conversions

  /** One entry of an activity's exercise list: a single exercise id, or a
      group of mutually substitutable ids. */
  datatype Block = Single(id: int) | Alternatives(ids: seq<int>)

  /** What one exercise line contributes: nothing, a block, or a `ValueError`
      raised by `int()`. */
  datatype BlockLine = Skip | Add(block: Block) | Raise

  /** The separator of substitutable ids. */
  const OrSeparator: string := " or "

  /** The ids of a `" or "` group, unsorted, as `int()` reads them. */
  function GroupIds(text: string, toInt: string -> Option<int>): Option<seq<int>> {
    ToInts(Split(text, OrSeparator), toInt)
  }

  /** The block an already-trimmed block text stands for. */
  function ParseBlock(text: string, toInt: string -> Option<int>): (r: BlockLine)
    ensures r.Skip? <==> |text| == 0
  {
    if |text| == 0 then Skip
    else if Contains(text, OrSeparator) then
      match GroupIds(text, toInt)
      case None => Raise
      case Some(ids) => Add(Alternatives(Sort(ids)))
    else
      match toInt(text)
      case None => Raise
      case Some(id) => Add(Single(id))
  }

  /** What a block text means: empty texts are skipped; a text holding
      `" or "` is a group of at least two ids, ascending, holding exactly the
      converted pieces; any other text is the single id it converts to; and
      `int()` raising on any piece drops the line's block with an error. */
  lemma ParseBlockMeaning(text: string, toInt: string -> Option<int>)
    ensures ParseBlock(text, toInt).Raise? <==> (|text| > 0 &&
      if Contains(text, OrSeparator) then GroupIds(text, toInt).None? else toInt(text).None?)
    ensures ParseBlock(text, toInt).Add? ==>
      (ParseBlock(text, toInt).block.Alternatives? <==> Contains(text, OrSeparator))
    ensures ParseBlock(text, toInt).Add? && ParseBlock(text, toInt).block.Single? ==>
      toInt(text) == Some(ParseBlock(text, toInt).block.id)
    ensures ParseBlock(text, toInt).Add? && ParseBlock(text, toInt).block.Alternatives? ==>
      var ids := ParseBlock(text, toInt).block.ids;
      && Sorted(ids)
      && |ids| >= 2
      && GroupIds(text, toInt).Some?
      && multiset(ids) == multiset(GroupIds(text, toInt).value)
  {
    if |text| > 0 && Contains(text, OrSeparator) {
      var parts := Split(text, OrSeparator);
      assert |parts| >= 2;
    }
  }

  /** A block text that makes `int()` raise. */
  predicate Fails(text: string, toInt: string -> Option<int>) {
    ParseBlock(text, toInt).Raise?
  }

  /** The block texts that add a block, in order. */
  function NonEmpty(texts: seq<string>): (r: seq<string>)
    ensures |r| <= |texts|
    ensures forall i :: 0 <= i < |r| ==> |r[i]| > 0
  {
    if |texts| == 0 then []
    else (if |texts[0]| > 0 then [texts[0]] else []) + NonEmpty(texts[1..])
  }

  /** The blocks of a sequence of exercise-line texts, appended one by one;
      `None` as soon as one of them raises. */
  function CollectBlocks(texts: seq<string>, toInt: string -> Option<int>): (r: Option<seq<Block>>)
    ensures r.Some? ==> |r.value| <= |texts|
  {
    if |texts| == 0 then Some([])
    else
      var rest := CollectBlocks(texts[1..], toInt);
      match ParseBlock(texts[0], toInt)
      case Raise => None
      case Skip => rest
      case Add(b) => if rest.None? then None else Some([b] + rest.value)
  }

  /** The blocks are collected exactly when no text raises. */
  lemma {:induction false} CollectBlocksSomeIff(texts: seq<string>, toInt: string -> Option<int>)
    ensures CollectBlocks(texts, toInt).Some? <==> forall i :: 0 <= i < |texts| ==> !Fails(texts[i], toInt)
  {
    if |texts| > 0 {
      CollectBlocksSomeIff(texts[1..], toInt);
      assert forall i :: 1 <= i < |texts| ==> texts[i] == texts[1..][i - 1];
    }
  }

  /** `CollectBlocks` on a text put in front of others. */
  lemma CollectBlocksCons(t: string, rest: seq<string>, toInt: string -> Option<int>)
    ensures CollectBlocks([t] + rest, toInt)
         == match ParseBlock(t, toInt)
            case Raise => None
            case Skip => CollectBlocks(rest, toInt)
            case Add(b) =>
              if CollectBlocks(rest, toInt).None? then None
              else Some([b] + CollectBlocks(rest, toInt).value)
  {
    assert ([t] + rest)[0] == t && ([t] + rest)[1..] == rest;
  }

  /** One block per non-empty text, in the order of the texts: the k-th
      block is what the k-th non-empty text parses to. */
  lemma {:induction false} CollectBlocksOnePerText(texts: seq<string>, toInt: string -> Option<int>)
    requires CollectBlocks(texts, toInt).Some?
    ensures |CollectBlocks(texts, toInt).value| == |NonEmpty(texts)|
    ensures forall k :: 0 <= k < |NonEmpty(texts)| ==>
      ParseBlock(NonEmpty(texts)[k], toInt) == Add(CollectBlocks(texts, toInt).value[k])
  {
    if |texts| > 0 {
      CollectBlocksOnePerText(texts[1..], toInt);
      var rest := CollectBlocks(texts[1..], toInt).value;
      var ne := NonEmpty(texts[1..]);
      match ParseBlock(texts[0], toInt)
      case Skip =>
        assert NonEmpty(texts) == ne;
      case Add(b) =>
        assert NonEmpty(texts) == [texts[0]] + ne;
        assert CollectBlocks(texts, toInt).value == [b] + rest;
    }
  }

  /** Blocks keep file order: two consecutive runs of lines parse exactly
      when each run does, and their blocks are those of the first run
      followed by those of the second. */
  lemma {:induction false} CollectBlocksAppend(a: seq<string>, b: seq<string>, toInt: string -> Option<int>)
    ensures CollectBlocks(a + b, toInt).Some? <==> CollectBlocks(a, toInt).Some? && CollectBlocks(b, toInt).Some?
    ensures CollectBlocks(a + b, toInt).Some? ==>
      CollectBlocks(a + b, toInt).value == CollectBlocks(a, toInt).value + CollectBlocks(b, toInt).value
    decreases |a|
  {
    if |a| == 0 {
      assert a + b == b;
    } else {
      var ab := a + b;
      assert ab == [a[0]] + (a[1..] + b);
      assert a == [a[0]] + a[1..];
      CollectBlocksCons(a[0], a[1..] + b, toInt);
      CollectBlocksCons(a[0], a[1..], toInt);
      CollectBlocksAppend(a[1..], b, toInt);
      match ParseBlock(a[0], toInt)
      case Raise =>
      case Skip =>
      case Add(x) =>
        if CollectBlocks(ab, toInt).Some? {
          var ra := CollectBlocks(a[1..], toInt).value;
          var rb := CollectBlocks(b, toInt).value;
          assert [x] + (ra + rb) == ([x] + ra) + rb;
        }
    }
  }

  /** Appending blocks in two steps is appending their concatenation. */
  lemma AppendBlocksAssoc(a: seq<Block>, x: seq<Block>, y: seq<Block>, b: seq<Block>)
    requires b == a + x
    ensures b + y == a + (x + y)
  {
  }

  /** `"10 or 3 or 7".split(" or ")` */
  lemma SplitExample()
    ensures Split("10 or 3 or 7", OrSeparator) == ["10", "3", "7"]
  {
    var text := "10 or 3 or 7";
    assert text[2..6] == OrSeparator;
    assert text[1..5] != OrSeparator by { assert text[1] != ' '; }
    assert text[0..4] != OrSeparator by { assert text[0] != ' '; }
    assert FindFrom(text, OrSeparator, 2) == Some(2);
    assert FindFrom(text, OrSeparator, 0) == Some(2);
    var t2 := "3 or 7";
    assert text[6..] == t2;
    assert t2[1..5] == OrSeparator;
    assert t2[0..4] != OrSeparator by { assert t2[0] != ' '; }
    assert FindFrom(t2, OrSeparator, 0) == Some(1);
    assert t2[5..] == "7";
    assert FindFrom("7", OrSeparator, 0) == None;
    assert Split("7", OrSeparator) == ["7"];
    assert t2[..1] == "3";
    assert Split(t2, OrSeparator) == ["3", "7"];
    assert text[..2] == "10";
  }

  /** `[int(x) for x in ["10", "3", "7"]]` */
  lemma ToIntsExample(toInt: string -> Option<int>)
    requires toInt("10") == Some(10) && toInt("3") == Some(3) && toInt("7") == Some(7)
    ensures ToInts(["10", "3", "7"], toInt) == Some([10, 3, 7])
  {
    var seven: seq<string> := ["7"];
    assert seven[0] == "7" && seven[1..] == [];
    assert ToInts([], toInt) == Some([]);
    assert [7] + [] == [7];
    assert ToInts(seven, toInt) == Some([7]);
    var threeSeven: seq<string> := ["3", "7"];
    assert threeSeven[0] == "3" && threeSeven[1..] == seven;
    assert [3] + [7] == [3, 7];
    assert ToInts(threeSeven, toInt) == Some([3, 7]);
    var parts: seq<string> := ["10", "3", "7"];
    assert parts[0] == "10" && parts[1..] == threeSeven;
    assert [10] + [3, 7] == [10, 3, 7];
  }

  /** The worked example of the format: `"10 or 3 or 7"` is the group
      `[3, 7, 10]`, not `[10, 3, 7]`. */
  lemma OrGroupIsSorted(toInt: string -> Option<int>)
    requires toInt("10") == Some(10) && toInt("3") == Some(3) && toInt("7") == Some(7)
    ensures ParseBlock("10 or 3 or 7", toInt) == Add(Alternatives([3, 7, 10]))
  {
    SplitExample();
    ToIntsExample(toInt);
    assert Contains("10 or 3 or 7", OrSeparator);
    assert GroupIds("10 or 3 or 7", toInt) == Some([10, 3, 7]);
    SortExample();
  }

  lemma SortExample()
    ensures Sort([10, 3, 7]) == [3, 7, 10]
  {
    var s: seq<int> := [10, 3, 7];
    assert s[1..] == [3, 7] && s[1..][1..] == [7] && s[1..][1..][1..] == [];
    assert Sort([7]) == [7];
    assert Insert(3, [7]) == [3, 7];
    assert Sort([3, 7]) == [3, 7];
    assert Insert(10, [7]) == [7, 10];
    assert Insert(10, [3, 7]) == [3, 7, 10];
  }
}

=== FILE: conversions.dfy ===
/** The conversions the parsers hand to Python's runtime. They are kept
    abstract: each is a total function returning `None` exactly where the
    Python call raises, and every parser takes them as a parameter. */
module Conversions {
  import opened Wrappers

  datatype Parsers = Parsers(
    /** `int(s)` */
    toInt: string -> Option<int>,
    /** `float(s)` */
    toFloat: string -> Option<real>,
    /** `str(n)` */
    show: int -> string
  )

  /** `[int(x) for x in parts]`: `None` when any element fails to convert. */
  function ToInts(parts: seq<string>, toInt: string -> Option<int>): (r: Option<seq<int>>)
    ensures r.Some? <==> forall i :: 0 <= i < |parts| ==> toInt(parts[i]).Some?
    ensures r.Some? ==> |r.value| == |parts|
    ensures r.Some? ==> forall i :: 0 <= i < |parts| ==> toInt(parts[i]) == Some(r.value[i])
  {
    if |parts| == 0 then Some([])
    else
      match toInt(parts[0])
      case None => None
      case Some(x) =>
        match ToInts(parts[1..], toInt)
        case None =>
          assert exists i :: 1 <= i < |parts| && toInt(parts[i]).None? by {
            var j :| 0 <= j < |parts[1..]| && toInt(parts[1..][j]).None?;
            assert toInt(parts[j + 1]).None?;
          }
          None
        case Some(xs) =>
          assert forall i :: 1 <= i < |parts| ==> toInt(parts[i]) == Some(xs[i - 1]) by {
            forall i | 1 <= i < |parts| ensures toInt(parts[i]) == Some(xs[i - 1]) {
              assert parts[i] == parts[1..][i - 1];
            }
          }
          Some([x] + xs)
  }
}

=== FILE: error_names.dfy ===
/** The error names the log scanners collect.

    Three generations match the start of a line against the pattern
    `^([\w_\.]+Error)` (extractors.py:473-476, controllers.py:451-454,
    extractor.py:467-469): a run of word characters and dots that ends in
    `Error`. The `+` is greedy, so the match is the longest such prefix.
    The fourth (controller/execucao.py:42) takes the text before the first
    `:` of every line that contains `Error`. */
module ErrorNames {
  import opened Wrappers
  import opened Text

  /** `[\w_\.]`: letters, digits, `_` and `.` */
  predicate IsNameChar(c: char) {
    || 'a' <= c <= 'z' || 'A' <= c <= 'Z' || '0' <= c <= '9' || c == '_' || c == '.'
  }

  /** A text the pattern matches entirely: at least one name character
      before `Error`, all of it name characters. */
  predicate IsErrorName(p: string) {
    && |p| >= 6
    && EndsWith(p, "Error")
    && forall i :: 0 <= i < |p| ==> IsNameChar(p[i])
  }

  /** The length of the run of name characters the line starts with. */
  function NameRun(line: string): (n: nat)
    ensures n <= |line|
    ensures forall i :: 0 <= i < n ==> IsNameChar(line[i])
    ensures n < |line| ==> !IsNameChar(line[n])
  {
    if |line| == 0 || !IsNameChar(line[0]) then 0
    else
      var n := NameRun(line[1..]);
      assert forall i :: 1 <= i < n + 1 ==> line[i] == line[1..][i - 1];
      n + 1
  }

  /** The longest prefix of `run` ending in `sfx` after at least one
      character. */
  function LongestEndingIn(run: string, sfx: string): Option<string>
    decreases |run|
  {
    if |run| > |sfx| && EndsWith(run, sfx) then Some(run)
    else if |run| <= |sfx| then None
    else LongestEndingIn(run[..|run| - 1], sfx)
  }

  /** The longest prefix of `run` ending in `Error` after at least one
      character. */
  function LongestEnding(run: string): Option<string> {
    LongestEndingIn(run, "Error")
  }

  /** `re.match(r"^([\w_\.]+Error)", line).group(0)`, or `None` when the
      pattern does not match. */
  function ErrorName(line: string): Option<string> {
    LongestEnding(line[..NameRun(line)])
  }

  /** `line.split(':')[0]` for a line holding `Error`, as
      controller/execucao.py:42 collects it. */
  function NameBeforeColon(line: string): string {
    Partition(line, ':').0
  }

  /** The names controller/execucao.py:42 collects from stripped lines. */
  function NamesBeforeColon(lines: seq<string>): (r: seq<string>)
    ensures |r| <= |lines|
  {
    if |lines| == 0 then []
    else (if Contains(lines[0], "Error") then [NameBeforeColon(lines[0])] else []) + NamesBeforeColon(lines[1..])
  }

  // ---------------------------------------------------------------------

  lemma {:induction false} LongestEndingInMeaning(run: string, sfx: string)
    ensures LongestEndingIn(run, sfx).Some? ==>
      var p := LongestEndingIn(run, sfx).value;
      && StartsWith(run, p) && |p| > |sfx| && EndsWith(p, sfx)
      && forall k :: |p| < k <= |run| ==> !EndsWith(run[..k], sfx)
    ensures LongestEndingIn(run, sfx).None? ==>
      forall k :: |sfx| < k <= |run| ==> !EndsWith(run[..k], sfx)
    decreases |run|
  {
    if |run| > |sfx| && !EndsWith(run, sfx) {
      var init := run[..|run| - 1];
      LongestEndingInMeaning(init, sfx);
      forall k | 0 <= k <= |init| ensures run[..k] == init[..k] { }
      assert run[..|run|] == run;
    } else if |run| > |sfx| {
      assert run[..|run|] == run;
    }
  }

  /** The match is the longest prefix of the run that ends in `Error` after
      at least one character; there is none when no such prefix exists. */
  lemma LongestEndingMeaning(run: string)
    ensures LongestEnding(run).Some? ==>
      var p := LongestEnding(run).value;
      && StartsWith(run, p) && |p| >= 6 && EndsWith(p, "Error")
      && forall k :: |p| < k <= |run| ==> !EndsWith(run[..k], "Error")
    ensures LongestEnding(run).None? ==>
      forall k :: 6 <= k <= |run| ==> !EndsWith(run[..k], "Error")
  {
    LongestEndingInMeaning(run, "Error");
  }

  /** The pattern matches exactly when some prefix of the line is an error
      name, and then its match is the longest such prefix. */
  lemma ErrorNameMeaning(line: string)
    ensures ErrorName(line).Some? <==> exists k :: 0 <= k <= |line| && IsErrorName(line[..k])
    ensures ErrorName(line).Some? ==>
      var p := ErrorName(line).value;
      && StartsWith(line, p) && IsErrorName(p)
      && forall k :: |p| < k <= |line| ==> !IsErrorName(line[..k])
  {
    var n := NameRun(line);
    var run := line[..n];
    LongestEndingMeaning(run);
    forall k | 0 <= k <= |line| && IsErrorName(line[..k])
      ensures k <= n && run[..k] == line[..k]
    {
      assert forall i :: 0 <= i < k ==> IsNameChar(line[..k][i]);
    }
    if ErrorName(line).Some? {
      var p := ErrorName(line).value;
      assert run[..|p|] == p;
      assert line[..|p|] == p;
      assert forall i :: 0 <= i < |p| ==> p[i] == line[i];
      assert IsErrorName(line[..|p|]);
    }
  }

  /** A Python exception line gives its class name. */
  lemma ExceptionLine(name: string, message: string)
    requires |name| >= 1 && forall i :: 0 <= i < |name| ==> IsNameChar(name[i])
    requires |message| > 0 ==> !IsNameChar(message[0])
    ensures ErrorName(name + "Error" + message) == Some(name + "Error")
  {
    var line := name + "Error" + message;
    var p := name + "Error";
    assert line[..|p|] == p;
    assert IsErrorName(p) by {
      assert p[|p| - 5..] == "Error";
      forall i | 0 <= i < |p| ensures IsNameChar(p[i]) {
        if i >= |name| { assert p[i] == "Error"[i - |name|]; }
      }
    }
    ErrorNameMeaning(line);
    forall k | |p| < k <= |line| ensures !IsErrorName(line[..k]) {
      assert line[..k][|p|] == message[0];
    }
    var q := ErrorName(line).value;
    assert |q| == |p|;
    assert q == line[..|q|];
  }
}

=== FILE: error_tally.dfy ===
/** The error tally kept by `Util` (util.py:22-35, and the same code in
    util/utilidades.py:20-33): a list of error names in the order they were
    first seen and a parallel list of counts. `register_errors` counts a list
    of names with `Counter`, whose keys come in first-occurrence order, and
    adds each count to the name's slot, appending names not seen before.

    The class-level lists become a `Tally` value threaded through the calls. */
module ErrorTally {
  import opened Wrappers

  datatype Tally = Tally(names: seq<string>, counts: seq<nat>)

  const Empty: Tally := Tally([], [])

  /** The two lists are parallel and no name appears twice. */
  predicate Valid(t: Tally) {
    |t.names| == |t.counts| && Distinct(t.names)
  }

  /** `list.index(x)`: the first position of `x`. */
  function Position(s: seq<string>, x: string): (r: Option<nat>)
    ensures r.None? <==> x !in s
    ensures r.Some? ==> r.value < |s| && s[r.value] == x && x !in s[..r.value]
  {
    if |s| == 0 then None
    else if s[0] == x then Some(0)
    else
      match Position(s[1..], x)
      case None => None
      case Some(k) =>
        assert s[..k + 1] == [s[0]] + s[1..][..k];
        Some(k + 1)
  }

  /** The keys of `Counter(list)`: each distinct name once, in the order of
      its first occurrence. */
  function FirstSeen(list: seq<string>): (r: seq<string>)
    decreases |list|
  {
    if |list| == 0 then []
    else
      var keys := FirstSeen(list[..|list| - 1]);
      if list[|list| - 1] in keys then keys else keys + [list[|list| - 1]]
  }

  /** The `(name, count)` pairs of `Counter(list)`. */
  function Counter(list: seq<string>): (r: seq<(string, nat)>)
    ensures |r| == |FirstSeen(list)|
  {
    var keys := FirstSeen(list);
    seq(|keys|, i requires 0 <= i < |keys| => (keys[i], multiset(list)[keys[i]]))
  }

  /** One loop iteration: add `count` to the slot of `name`, or append it. */
  function Add(t: Tally, name: string, count: nat): Tally
    requires |t.names| == |t.counts|
  {
    match Position(t.names, name)
    case Some(k) => t.(counts := t.counts[k := t.counts[k] + count])
    case None => Tally(t.names + [name], t.counts + [count])
  }

  function AddAll(t: Tally, pairs: seq<(string, nat)>): (r: Tally)
    requires |t.names| == |t.counts|
    ensures |r.names| == |r.counts|
    decreases |pairs|
  {
    if |pairs| == 0 then t else AddAll(Add(t, pairs[0].0, pairs[0].1), pairs[1..])
  }

  /** `register_errors(list)` */
  function Register(t: Tally, list: seq<string>): (r: Tally)
    requires |t.names| == |t.counts|
    ensures |r.names| == |r.counts|
  {
    AddAll(t, Counter(list))
  }

  /** `get_unique_errors()`: the names zipped with their counts. */
  function Snapshot(t: Tally): (r: seq<(string, nat)>)
    requires |t.names| == |t.counts|
    ensures |r| == |t.names|
    ensures forall i :: 0 <= i < |r| ==> r[i] == (t.names[i], t.counts[i])
  {
    seq(|t.names|, i requires 0 <= i < |t.names| => (t.names[i], t.counts[i]))
  }

  // ---------------------------------------------------------------------
  // Reference definitions

  /** The count stored for `x`, zero when it is not listed. */
  function CountOf(t: Tally, x: string): nat
    requires |t.names| == |t.counts|
  {
    match Position(t.names, x)
    case Some(k) => t.counts[k]
    case None => 0
  }

  function Sum(s: seq<nat>): nat {
    if |s| == 0 then 0 else Sum(s[..|s| - 1]) + s[|s| - 1]
  }

  /** The names of `keys` not in `known`, in order. */
  function Fresh(keys: seq<string>, known: seq<string>): (r: seq<string>) {
    if |keys| == 0 then []
    else if keys[0] in known then Fresh(keys[1..], known)
    else [keys[0]] + Fresh(keys[1..], known)
  }

  predicate Distinct(s: seq<string>) {
    forall i, j :: 0 <= i < j < |s| ==> s[i] != s[j]
  }

  function Keys(pairs: seq<(string, nat)>): (r: seq<string>)
    ensures |r| == |pairs|
  {
    seq(|pairs|, i requires 0 <= i < |pairs| => pairs[i].0)
  }

  /** The total count the pairs give `x`. */
  function CountIn(pairs: seq<(string, nat)>, x: string): nat {
    if |pairs| == 0 then 0
    else (if pairs[0].0 == x then pairs[0].1 else 0) + CountIn(pairs[1..], x)
  }

  function Total(pairs: seq<(string, nat)>): nat {
    if |pairs| == 0 then 0 else pairs[0].1 + Total(pairs[1..])
  }

  // ---------------------------------------------------------------------
  // Counter

  /** The keys of `Counter(list)` are the names in the list, each once. */
  lemma {:induction false} FirstSeenMeaning(list: seq<string>)
    ensures Distinct(FirstSeen(list))
    ensures forall x :: x in FirstSeen(list) <==> x in list
    decreases |list|
  {
    if |list| > 0 {
      var init := list[..|list| - 1];
      FirstSeenMeaning(init);
      assert list == init + [list[|list| - 1]];
    }
  }

  /** `count` for every key of a distinct key list. */
  function KeyCounts(keys: seq<string>, m: multiset<string>): (r: seq<(string, nat)>)
    ensures |r| == |keys|
  {
    seq(|keys|, i requires 0 <= i < |keys| => (keys[i], m[keys[i]]))
  }

  lemma {:induction false} TotalAppend(a: seq<(string, nat)>, b: seq<(string, nat)>)
    ensures Total(a + b) == Total(a) + Total(b)
    decreases |a|
  {
    if |a| > 0 {
      TotalAppend(a[1..], b);
      assert (a + b)[1..] == a[1..] + b;
    } else {
      assert a + b == b;
    }
  }

  /** One more occurrence of `x` raises the total of distinct keys by one
      exactly when `x` is a key. */
  lemma {:induction false} TotalBump(keys: seq<string>, m: multiset<string>, x: string)
    requires Distinct(keys)
    ensures Total(KeyCounts(keys, m + multiset{x})) == Total(KeyCounts(keys, m)) + (if x in keys then 1 else 0)
    decreases |keys|
  {
    if |keys| > 0 {
      var rest := keys[1..];
      assert Distinct(rest) by {
        forall i, j | 0 <= i < j < |rest| ensures rest[i] != rest[j] {
          assert rest[i] == keys[i + 1] && rest[j] == keys[j + 1];
        }
      }
      TotalBump(rest, m, x);
      assert KeyCounts(keys, m)[1..] == KeyCounts(rest, m);
      assert KeyCounts(keys, m + multiset{x})[1..] == KeyCounts(rest, m + multiset{x});
      if x == keys[0] {
        assert x !in rest by {
          forall j | 0 <= j < |rest| ensures rest[j] != x {
            assert rest[j] == keys[j + 1];
          }
        }
      } else {
        assert x in keys <==> x in rest;
      }
    }
  }

  lemma {:induction false} CounterTotalBy(list: seq<string>)
    ensures Total(KeyCounts(FirstSeen(list), multiset(list))) == |list|
    decreases |list|
  {
    if |list| > 0 {
      var init := list[..|list| - 1];
      var x := list[|list| - 1];
      var keys := FirstSeen(init);
      CounterTotalBy(init);
      FirstSeenMeaning(init);
      assert list == init + [x];
      assert multiset(list) == multiset(init) + multiset{x};
      TotalBump(keys, multiset(init), x);
      if x !in keys {
        assert KeyCounts(keys + [x], multiset(list)) == KeyCounts(keys, multiset(list)) + [(x, multiset(list)[x])];
        TotalAppend(KeyCounts(keys, multiset(list)), [(x, multiset(list)[x])]);
        assert multiset(init)[x] == 0;
      }
    }
  }

  /** The distinct-key pairs give each key its own count and any other
      name nothing. */
  lemma {:induction false} CountInDistinct(pairs: seq<(string, nat)>, x: string)
    requires Distinct(Keys(pairs))
    ensures x !in Keys(pairs) ==> CountIn(pairs, x) == 0
    ensures forall i :: 0 <= i < |pairs| && pairs[i].0 == x ==> CountIn(pairs, x) == pairs[i].1
    decreases |pairs|
  {
    if |pairs| > 0 {
      var rest := pairs[1..];
      assert Keys(rest) == Keys(pairs)[1..];
      assert Distinct(Keys(rest)) by {
        forall i, j | 0 <= i < j < |rest| ensures Keys(rest)[i] != Keys(rest)[j] {
          assert Keys(rest)[i] == Keys(pairs)[i + 1] && Keys(rest)[j] == Keys(pairs)[j + 1];
        }
      }
      CountInDistinct(rest, x);
      if pairs[0].0 == x {
        assert x !in Keys(rest) by {
          forall j | 0 <= j < |rest| ensures Keys(rest)[j] != x {
            assert Keys(rest)[j] == Keys(pairs)[j + 1];
            assert Keys(pairs)[0] == x;
          }
        }
      }
      forall i | 0 <= i < |pairs| && pairs[i].0 == x ensures CountIn(pairs, x) == pairs[i].1 {
        if i > 0 {
          assert rest[i - 1] == pairs[i];
          assert Keys(pairs)[i] == x && Keys(pairs)[0] != x;
        }
      }
      if x !in Keys(pairs) {
        assert Keys(pairs)[0] != x;
        assert x !in Keys(rest);
      }
    }
  }

  /** `Counter(list)` lists each name of the list once, in first-occurrence
      order, with its number of occurrences, and the counts add up to the
      length of the list. */
  lemma CounterMeaning(list: seq<string>, x: string)
    ensures Keys(Counter(list)) == FirstSeen(list)
    ensures Distinct(Keys(Counter(list)))
    ensures CountIn(Counter(list), x) == multiset(list)[x]
    ensures Total(Counter(list)) == |list|
  {
    var pairs := Counter(list);
    var keys := FirstSeen(list);
    FirstSeenMeaning(list);
    assert Keys(pairs) == keys;
    CountInDistinct(pairs, x);
    if x in keys {
      var i :| 0 <= i < |keys| && keys[i] == x;
      assert pairs[i] == (x, multiset(list)[x]);
    }
    assert pairs == KeyCounts(keys, multiset(list));
    CounterTotalBy(list);
  }

  // ---------------------------------------------------------------------
  // One step

  /** The first occurrence is the position `index` reports. */
  lemma PositionAt(s: seq<string>, x: string, i: nat)
    requires i < |s| && s[i] == x && x !in s[..i]
    ensures Position(s, x) == Some(i)
  {
  }

  lemma PositionAppend(s: seq<string>, y: string, x: string)
    ensures Position(s + [y], x) ==
      if x in s then Position(s, x) else if x == y then Some(|s|) else None
  {
    var t := s + [y];
    if x in s {
      var i := Position(s, x).value;
      assert t[..i] == s[..i];
      PositionAt(t, x, i);
    } else if x == y {
      assert t[..|s|] == s;
      PositionAt(t, x, |s|);
    }
  }

  lemma {:induction false} SumUpdate(s: seq<nat>, k: nat, v: nat)
    requires k < |s|
    ensures Sum(s[k := v]) + s[k] == Sum(s) + v
    decreases |s|
  {
    var last := |s| - 1;
    if k < last {
      SumUpdate(s[..last], k, v);
      assert s[k := v][..last] == s[..last][k := v];
    } else {
      assert s[k := v][..last] == s[..last];
    }
  }

  /** One iteration keeps the lists parallel and duplicate-free, appends the
      name only when it is new, adds the count to its slot alone and raises
      the total by the count. */
  lemma AddMeaning(t: Tally, name: string, count: nat)
    requires Valid(t)
    ensures Valid(Add(t, name, count))
    ensures Add(t, name, count).names == if name in t.names then t.names else t.names + [name]
    ensures forall x :: CountOf(Add(t, name, count), x) == CountOf(t, x) + (if x == name then count else 0)
    ensures Sum(Add(t, name, count).counts) == Sum(t.counts) + count
  {
    var r := Add(t, name, count);
    match Position(t.names, name)
    case Some(k) =>
      SumUpdate(t.counts, k, t.counts[k] + count);
      forall x ensures CountOf(r, x) == CountOf(t, x) + (if x == name then count else 0) {
        if x != name && x in t.names {
          assert Position(t.names, x).value != k;
        }
      }
    case None =>
      assert r.counts[..|t.counts|] == t.counts;
      forall x ensures CountOf(r, x) == CountOf(t, x) + (if x == name then count else 0) {
        PositionAppend(t.names, name, x);
      }
      forall i, j | 0 <= i < j < |r.names| ensures r.names[i] != r.names[j] {
        if j == |t.names| {
          assert r.names[i] == t.names[i];
        }
      }
  }

  // ---------------------------------------------------------------------
  // The loop over the pairs

  /** A name that is no key does not change which keys are new. */
  lemma {:induction false} FreshSkip(keys: seq<string>, known: seq<string>, y: string)
    requires y !in keys
    ensures Fresh(keys, known + [y]) == Fresh(keys, known)
    decreases |keys|
  {
    if |keys| > 0 {
      assert keys[0] != y;
      assert keys[0] in known + [y] <==> keys[0] in known;
      FreshSkip(keys[1..], known, y);
    }
  }

  lemma KeysTail(pairs: seq<(string, nat)>)
    requires |pairs| > 0 && Distinct(Keys(pairs))
    ensures Keys(pairs[1..]) == Keys(pairs)[1..]
    ensures Distinct(Keys(pairs[1..]))
    ensures pairs[0].0 !in Keys(pairs[1..])
  {
    var keys := Keys(pairs);
    var rest := Keys(pairs[1..]);
    assert rest == keys[1..];
    forall j | 0 <= j < |rest| ensures rest[j] != pairs[0].0 {
      assert rest[j] == keys[j + 1] && keys[0] == pairs[0].0;
    }
    forall i, j | 0 <= i < j < |rest| ensures rest[i] != rest[j] {
      assert rest[i] == keys[i + 1] && rest[j] == keys[j + 1];
    }
  }

  /** Adding a list of pairs keeps the tally valid, adds to each name what
      the pairs give it and raises the total by their total. */
  lemma {:induction false} AddAllCounts(t: Tally, pairs: seq<(string, nat)>)
    requires Valid(t)
    ensures Valid(AddAll(t, pairs))
    ensures forall x :: CountOf(AddAll(t, pairs), x) == CountOf(t, x) + CountIn(pairs, x)
    ensures Sum(AddAll(t, pairs).counts) == Sum(t.counts) + Total(pairs)
    decreases |pairs|
  {
    if |pairs| > 0 {
      var next := Add(t, pairs[0].0, pairs[0].1);
      AddMeaning(t, pairs[0].0, pairs[0].1);
      AddAllCounts(next, pairs[1..]);
    }
  }

  /** With distinct keys, the names after the loop are the old names in
      their old places followed by the new keys in key order. */
  lemma {:induction false} AddAllNames(t: Tally, pairs: seq<(string, nat)>)
    requires Valid(t) && Distinct(Keys(pairs))
    ensures AddAll(t, pairs).names == t.names + Fresh(Keys(pairs), t.names)
    decreases |pairs|
  {
    if |pairs| > 0 {
      var name := pairs[0].0;
      var next := Add(t, name, pairs[0].1);
      AddMeaning(t, name, pairs[0].1);
      KeysTail(pairs);
      AddAllNames(next, pairs[1..]);
      var rest := Keys(pairs[1..]);
      assert Keys(pairs) == [name] + rest;
      if name !in t.names {
        FreshSkip(rest, t.names, name);
      }
    }
  }

  // ---------------------------------------------------------------------
  // register_errors and get_unique_errors

  /** After `register_errors(list)` each name's count has grown by exactly
      the number of times it occurs in the list, and the lists stay
      parallel and duplicate-free. */
  lemma RegisterCounts(t: Tally, list: seq<string>, x: string)
    requires Valid(t)
    ensures Valid(Register(t, list))
    ensures CountOf(Register(t, list), x) == CountOf(t, x) + multiset(list)[x]
  {
    CounterMeaning(list, x);
    AddAllCounts(t, Counter(list));
  }

  /** Names already listed keep their places; the new ones are appended in
      the order of their first occurrence in the list. */
  lemma RegisterNames(t: Tally, list: seq<string>)
    requires Valid(t)
    ensures Register(t, list).names == t.names + Fresh(FirstSeen(list), t.names)
  {
    CounterMeaning(list, "");
    AddAllNames(t, Counter(list));
  }

  /** Registering only accumulates: the counts add up to the old total plus
      the length of the list. */
  lemma RegisterTotal(t: Tally, list: seq<string>)
    requires Valid(t)
    ensures Sum(Register(t, list).counts) == Sum(t.counts) + |list|
  {
    CounterMeaning(list, "");
    AddAllCounts(t, Counter(list));
  }

  /** `register_errors([])` changes nothing. */
  lemma RegisterNothing(t: Tally)
    requires |t.names| == |t.counts|
    ensures Register(t, []) == t
  {
    assert Counter([]) == [];
  }

  /** Registering two lists one after the other counts the same as
      registering them together. */
  lemma RegisterTwice(t: Tally, a: seq<string>, b: seq<string>, x: string)
    requires Valid(t)
    ensures Valid(Register(Register(t, a), b))
    ensures CountOf(Register(Register(t, a), b), x) == CountOf(Register(t, a + b), x)
  {
    RegisterCounts(t, a, x);
    RegisterCounts(Register(t, a), b, x);
    RegisterCounts(t, a + b, x);
  }

  /** The snapshot after registering lists the old names at their old
      positions, with counts that have not decreased, then the new names. */
  lemma SnapshotAfterRegister(t: Tally, list: seq<string>, i: nat)
    requires Valid(t) && i < |t.names|
    ensures var after := Snapshot(Register(t, list));
      && |after| >= |Snapshot(t)|
      && after[i].0 == Snapshot(t)[i].0
      && after[i].1 >= Snapshot(t)[i].1
  {
    var r := Register(t, list);
    var name := t.names[i];
    RegisterNames(t, list);
    RegisterCounts(t, list, name);
    assert r.names[..|t.names|] == t.names;
    assert r.names[i] == name;
    assert t.names[..i] == r.names[..i];
    PositionAt(t.names, name, i);
    PositionAt(r.names, name, i);
  }
}

=== FILE: events.dfy ===
/** The CodeMirror event lines both interaction scanners read:
    `timestamp#event#message`, split at the first two `#`
    (extractors.py:407-408, extractor.py:440-445). */
module Events {
  import opened Text

  datatype Event = Event(stamp: string, name: string, message: string)

  /** `date, _, rest = line.partition('#'); name, _, msg = rest.partition('#')` */
  function Parts(line: string): (e: Event)
    ensures '#' !in e.stamp && '#' !in e.name
    ensures '#' !in line ==> e == Event(line, "", "")
  {
    var (stamp, rest) := Partition(line, '#');
    var (name, message) := Partition(rest, '#');
    Event(stamp, name, message)
  }

  /** The line an event is written as. */
  function Format(e: Event): string {
    e.stamp + "#" + e.name + "#" + e.message
  }

  /** Splitting a written event gives it back, whatever its message holds. */
  lemma PartsOfFormat(e: Event)
    requires '#' !in e.stamp && '#' !in e.name
    ensures Parts(Format(e)) == e
  {
    var line := Format(e);
    var rest := e.name + "#" + e.message;
    assert line == e.stamp + ['#'] + rest;
    PartitionAt(e.stamp, rest);
    assert rest == e.name + ['#'] + e.message;
    PartitionAt(e.name, e.message);
  }

  /** A line with two `#` is the event its parts write. */
  lemma FormatOfParts(line: string)
    requires '#' in line && '#' in Partition(line, '#').1
    ensures Format(Parts(line)) == line
  {
    var (stamp, rest) := Partition(line, '#');
    var (name, message) := Partition(rest, '#');
    assert Parts(line) == Event(stamp, name, message);
    assert rest == name + ['#'] + message;
    assert line == stamp + ['#'] + rest;
    Regroup(stamp, name, message);
  }

  lemma Regroup(a: string, b: string, c: string)
    ensures a + "#" + b + "#" + c == a + ['#'] + (b + ['#'] + c)
  {
    assert "#" == ['#'];
  }

  /** `partition` splits at the first occurrence. */
  lemma PartitionAt(a: string, b: string)
    requires '#' !in a
    ensures Partition(a + ['#'] + b, '#') == (a, b)
  {
    var s := a + ['#'] + b;
    assert s[|a|] == '#';
    var (x, y) := Partition(s, '#');
    assert '#' !in x && x + ['#'] + y == s;
    assert x == s[..|x|] == a;
    assert y == s[|a| + 1..] == b;
  }
}

=== FILE: exec_block_walk.dfy ===
/** `CodebenchExtractor.__extract_executions_count` and its helpers
    (extractor.py:447-536): an indexed walk over the blocks of an execution
    log.

    A `== S` line opens a submission block: the submission is counted, the
    pass flag and execution time reset, and the block's lines up to `*-*`
    are read: `-- CODE` is followed by the code up to the next `-- ` line,
    `-- EXEC` and `-- GRAD` by a value line, and `-- ERROR` by two lines and
    then the error text. After the block a grade above 99.99 sets the pass
    flag and ends the walk. A `== T` line opens a test block, which counts a
    test and reads its errors the same way. Reading past the last line
    raises `IndexError`, which nothing catches; neither does the
    `TypeError` of joining the code of a passing submission that had no
    `-- CODE` section. Both are `None` here. */
module ExecutionBlockWalk {
  import opened Wrappers
  import opened Text
  import opened ErrorNames

  datatype Walk = Walk(
    submissions: nat, tests: nat, errors: nat,
    grade: real, passed: Option<bool>, execTime: Option<real>,
    code: Option<seq<string>>,
    names: seq<Option<string>>)

  /** The counters zeroed and `nota_final` 0.0 (extractor.py:487-490); the
      pass flag is still the constructor's `None`. */
  const Start: Walk := Walk(0, 0, 0, 0.0, None, None, None, [])

  /** Every counted error has its name recorded (possibly `None`), and the
      pass flag agrees with the grade once a submission was read. */
  predicate Consistent(w: Walk) {
    && |w.names| == w.errors
    && (w.submissions == 0 ==> w.passed.None?)
    && (w.submissions > 0 ==> w.passed == Some(w.grade > 99.99))
  }

  /** The state as a `== S` line leaves it (extractor.py:498-501): no code,
      no execution time, not passed, one more submission. */
  function Opened(w: Walk): (o: Walk)
    ensures o.submissions == w.submissions + 1 && o.passed == Some(false)
    ensures o.code.None? && o.execTime.None?
    ensures o.tests == w.tests && o.errors == w.errors && o.names == w.names && o.grade == w.grade
  {
    w.(code := None, execTime := None, passed := Some(false), submissions := w.submissions + 1)
  }

  /** `__get_float_value` (extractor.py:448-454): 0.0 when `float` raises. */
  function FloatOrZero(s: string, toFloat: string -> Option<real>): (r: real)
    ensures toFloat(s).None? ==> r == 0.0
    ensures toFloat(s).Some? ==> r == toFloat(s).value
  {
    toFloat(s).GetOr(0.0)
  }

  /** `__extract_code` (extractor.py:457-462): the lines from `i` up to the
      first one starting with `-- `, or `None` when there is none. */
  function ExtractCode(lines: seq<string>, i: nat): (r: Option<seq<string>>)
    decreases |lines| - i
  {
    if i >= |lines| then None
    else if StartsWith(lines[i], "-- ") then Some([])
    else
      match ExtractCode(lines, i + 1)
      case None => None
      case Some(rest) => Some([lines[i]] + rest)
  }

  /** `__get_error_name` (extractor.py:465-471): the first error name that
      starts a line from `i` on, before the first `*-*` line; `Some(None)`
      when there is none before it and `None` when no `*-*` line follows. */
  function ErrorNameFrom(lines: seq<string>, i: nat): Option<Option<string>> {
    FirstMatch(lines, i, ErrorName)
  }

  /** The search `__get_error_name` makes, for any matcher `name`. */
  function FirstMatch(lines: seq<string>, i: nat, name: string -> Option<string>): Option<Option<string>>
    decreases |lines| - i
  {
    if i >= |lines| then None
    else if StartsWith(lines[i], "*-*") then Some(None)
    else if name(lines[i]).Some? then Some(name(lines[i]))
    else FirstMatch(lines, i + 1, name)
  }

  /** One `-- ERROR` entry at `i`: skip it and the two lines after it, count
      the error and record its name; `None` when the name search runs past
      the last line. */
  function ReadError(lines: seq<string>, i: nat, w: Walk): (r: Option<(nat, Walk)>)
    ensures r.Some? <==> ErrorNameFrom(lines, i + 3).Some?
    ensures r.Some? ==> r.value.0 == i + 3
    ensures r.Some? ==>
      r.value.1 == w.(errors := w.errors + 1, names := w.names + [ErrorNameFrom(lines, i + 3).value])
  {
    match ErrorNameFrom(lines, i + 3)
    case None => None
    case Some(name) => Some((i + 3, w.(errors := w.errors + 1, names := w.names + [name])))
  }

  /** The names of the `-- ERROR` entries a test block's walk steps on from
      line `i` up to line `j`: it looks at every line except the two after
      each entry. */
  function TestErrors(lines: seq<string>, i: nat, j: nat): seq<Option<string>>
    decreases j - i
  {
    if i >= j || i >= |lines| then []
    else if StartsWith(lines[i], "-- ERROR") then [ErrorNameFrom(lines, i + 3).GetOr(None)] + TestErrors(lines, i + 3, j)
    else TestErrors(lines, i + 1, j)
  }

  /** The same for a submission block, whose walk also steps over the code
      after `-- CODE` and the value line after `-- EXEC` and `-- GRAD`. */
  function SubmissionErrors(lines: seq<string>, i: nat, j: nat): seq<Option<string>>
    decreases j - i
  {
    if i >= j || i >= |lines| then []
    else if StartsWith(lines[i], "-- CODE") then
      match ExtractCode(lines, i + 1)
      case None => []
      case Some(code) => SubmissionErrors(lines, i + |code| + 1, j)
    else if StartsWith(lines[i], "-- EXEC") || StartsWith(lines[i], "-- GRAD") then SubmissionErrors(lines, i + 2, j)
    else if StartsWith(lines[i], "-- ERROR") then [ErrorNameFrom(lines, i + 3).GetOr(None)] + SubmissionErrors(lines, i + 3, j)
    else SubmissionErrors(lines, i + 1, j)
  }

  /** The inner loop of a submission block (extractor.py:503-518), from `i`
      to its `*-*` line, whose index it returns. */
  function SubmissionBody(lines: seq<string>, i: nat, w: Walk, toFloat: string -> Option<real>): (r: Option<(nat, Walk)>)
    ensures r.Some? ==> i <= r.value.0 < |lines| && StartsWith(lines[r.value.0], "*-*")
    ensures r.Some? ==>
      && r.value.1.submissions == w.submissions && r.value.1.tests == w.tests && r.value.1.passed == w.passed
      && r.value.1.errors >= w.errors && |r.value.1.names| - |w.names| == r.value.1.errors - w.errors
    decreases |lines| - i
  {
    if i >= |lines| then None
    else if StartsWith(lines[i], "*-*") then Some((i, w))
    else if StartsWith(lines[i], "-- CODE") then
      match ExtractCode(lines, i + 1)
      case None => None
      case Some(code) => SubmissionBody(lines, i + |code| + 1, w.(code := Some(code)), toFloat)
    else if StartsWith(lines[i], "-- EXEC") then
      if i + 1 >= |lines| then None
      else SubmissionBody(lines, i + 2, w.(execTime := Some(FloatOrZero(Strip(lines[i + 1]), toFloat))), toFloat)
    else if StartsWith(lines[i], "-- GRAD") then
      if i + 1 >= |lines| then None
      else SubmissionBody(lines, i + 2, w.(grade := FloatOrZero(DropLast(Strip(lines[i + 1]), 1), toFloat)), toFloat)
    else if StartsWith(lines[i], "-- ERROR") then
      match ReadError(lines, i, w)
      case None => None
      case Some((j, w2)) => SubmissionBody(lines, j, w2, toFloat)
    else SubmissionBody(lines, i + 1, w, toFloat)
  }

  /** Each `-- ERROR` entry a submission block's walk steps on adds one
      error and its name, and nothing else adds any. */
  lemma {:induction false} SubmissionBodyErrors(lines: seq<string>, i: nat, w: Walk, toFloat: string -> Option<real>)
    ensures var r := SubmissionBody(lines, i, w, toFloat);
      r.Some? ==>
        && r.value.1.names == w.names + SubmissionErrors(lines, i, r.value.0)
        && r.value.1.errors == w.errors + |SubmissionErrors(lines, i, r.value.0)|
    decreases |lines| - i
  {
    if i < |lines| && !StartsWith(lines[i], "*-*") {
      var next: nat, w2: Walk, added: seq<Option<string>> := i + 1, w, [];
      if StartsWith(lines[i], "-- CODE") {
        var code := ExtractCode(lines, i + 1);
        if code.None? { return; }
        next, w2 := i + |code.value| + 1, w.(code := code);
      } else if StartsWith(lines[i], "-- EXEC") {
        if i + 1 >= |lines| { return; }
        next, w2 := i + 2, w.(execTime := Some(FloatOrZero(Strip(lines[i + 1]), toFloat)));
      } else if StartsWith(lines[i], "-- GRAD") {
        if i + 1 >= |lines| { return; }
        next, w2 := i + 2, w.(grade := FloatOrZero(DropLast(Strip(lines[i + 1]), 1), toFloat));
      } else if StartsWith(lines[i], "-- ERROR") {
        var e := ReadError(lines, i, w);
        if e.None? { return; }
        next, w2, added := i + 3, e.value.1, [ErrorNameFrom(lines, i + 3).value];
      }
      assert w2.names == w.names + added && w2.errors == w.errors + |added|;
      assert SubmissionBody(lines, i, w, toFloat) == SubmissionBody(lines, next, w2, toFloat);
      SubmissionBodyErrors(lines, next, w2, toFloat);
      var r := SubmissionBody(lines, next, w2, toFloat);
      if r.Some? {
        assert SubmissionErrors(lines, i, r.value.0) == added + SubmissionErrors(lines, next, r.value.0);
      }
    }
  }

  /** The loop of a test block (extractor.py:525-531), from the `== T` line
      itself to its `*-*` line. Each `-- ERROR` entry it steps on adds one
      error and its name, and nothing else changes. */
  function TestBody(lines: seq<string>, i: nat, w: Walk): (r: Option<(nat, Walk)>)
    ensures r.Some? ==> i <= r.value.0 < |lines| && StartsWith(lines[r.value.0], "*-*")
    ensures r.Some? ==>
      && r.value.1 == w.(errors := r.value.1.errors, names := r.value.1.names)
      && r.value.1.names == w.names + TestErrors(lines, i, r.value.0)
      && r.value.1.errors == w.errors + |TestErrors(lines, i, r.value.0)|
    decreases |lines| - i
  {
    if i >= |lines| then None
    else if StartsWith(lines[i], "*-*") then Some((i, w))
    else if StartsWith(lines[i], "-- ERROR") then
      match ReadError(lines, i, w)
      case None => None
      case Some((j, w2)) => TestBody(lines, j, w2)
    else TestBody(lines, i + 1, w)
  }

  /** Where one pass of the outer loop leaves the walk: finished, with
      the result or the exception, or going on from line `at`. */
  datatype Next = Stop(result: Option<Walk>) | Continue(at: nat, walk: Walk)

  /** What one pass of the outer loop at line `i` keeps: a consistent
      state stays consistent, counters only grow, the walk moves forward,
      and a submission or a test is counted only for the marker line it
      passes over. */
  predicate Advances(lines: seq<string>, i: nat, w: Walk, n: Next)
    requires i < |lines|
  {
    && (n.Stop? && n.result.Some? && Consistent(w) ==>
          && Consistent(n.result.value)
          && n.result.value.submissions >= w.submissions && n.result.value.tests >= w.tests
          && n.result.value.errors >= w.errors)
    && (n.Stop? && n.result.Some? ==>
          && n.result.value.submissions <= w.submissions + CountPrefixed(lines[i..], "== S")
          && n.result.value.tests <= w.tests + CountPrefixed(lines[i..], "== T"))
    && (n.Continue? ==> i < n.at <= |lines|)
    && (n.Continue? && Consistent(w) ==>
          && Consistent(n.walk)
          && n.walk.submissions >= w.submissions && n.walk.tests >= w.tests && n.walk.errors >= w.errors)
    && (n.Continue? && n.at <= |lines| ==>
          && n.walk.submissions + CountPrefixed(lines[n.at..], "== S") <= w.submissions + CountPrefixed(lines[i..], "== S")
          && n.walk.tests + CountPrefixed(lines[n.at..], "== T") <= w.tests + CountPrefixed(lines[i..], "== T"))
  }

  /** A submission block opened at line `i` (extractor.py:497-521). */
  function SubmissionPass(lines: seq<string>, i: nat, w: Walk, toFloat: string -> Option<real>): (n: Next)
    requires i < |lines| && StartsWith(lines[i], "== S")
    ensures Advances(lines, i, w, n)
    ensures n.Continue? ==>
      && n.walk.submissions == w.submissions + 1 && n.walk.tests == w.tests
      && n.walk.grade <= 99.99 && n.walk.passed == Some(false)
      && n.walk.names == w.names + SubmissionErrors(lines, i + 1, n.at - 1)
      && n.walk.errors == w.errors + |SubmissionErrors(lines, i + 1, n.at - 1)|
    ensures n.Stop? && n.result.Some? ==>
      && n.result.value.submissions == w.submissions + 1 && n.result.value.tests == w.tests
      && n.result.value.grade > 99.99 && n.result.value.passed == Some(true) && n.result.value.code.Some?
  {
    SubmissionBodyErrors(lines, i + 1, Opened(w), toFloat);
    match SubmissionBody(lines, i + 1, Opened(w), toFloat)
    case None => Stop(None)
    case Some((j, b)) =>
      SkipCounts(lines, i, j + 1, "== S");
      SkipCounts(lines, i, j + 1, "== T");
      if b.grade > 99.99 then
        Stop(if b.code.None? then None else Some(b.(passed := Some(true))))
      else Continue(j + 1, b)
  }

  /** A test block opened at line `i` (extractor.py:522-531). */
  function TestPass(lines: seq<string>, i: nat, w: Walk): (n: Next)
    requires i < |lines| && StartsWith(lines[i], "== T") && !StartsWith(lines[i], "== S")
    ensures Advances(lines, i, w, n)
    ensures n.Stop? ==> n.result.None?
    ensures n.Continue? ==>
      && n.walk.tests == w.tests + 1 && n.walk.submissions == w.submissions
      && n.walk.grade == w.grade && n.walk.passed == w.passed && n.walk.code == w.code
      && n.walk.names == w.names + TestErrors(lines, i, n.at - 1)
      && n.walk.errors == w.errors + |TestErrors(lines, i, n.at - 1)|
  {
    match TestBody(lines, i, w.(tests := w.tests + 1))
    case None => Stop(None)
    case Some((j, b)) =>
      SkipCounts(lines, i, j + 1, "== S");
      SkipCounts(lines, i, j + 1, "== T");
      Continue(j + 1, b)
  }

  /** One pass of the outer loop at line `i`: a submission block, a test
      block, or a line skipped. */
  function Pass(lines: seq<string>, i: nat, w: Walk, toFloat: string -> Option<real>): (n: Next)
    requires i < |lines|
    ensures Advances(lines, i, w, n)
  {
    if StartsWith(lines[i], "== S") then SubmissionPass(lines, i, w, toFloat)
    else if StartsWith(lines[i], "== T") then TestPass(lines, i, w)
    else
      SkipCounts(lines, i, i + 1, "== S");
      SkipCounts(lines, i, i + 1, "== T");
      Continue(i + 1, w)
  }

  /** The outer loop (extractor.py:496-532) from line `i` to the end. */
  function Run(lines: seq<string>, i: nat, w: Walk, toFloat: string -> Option<real>): (r: Option<Walk>)
    ensures r.Some? && Consistent(w) ==>
      && Consistent(r.value)
      && r.value.submissions >= w.submissions && r.value.tests >= w.tests && r.value.errors >= w.errors
    ensures r.Some? && i <= |lines| ==>
      && r.value.submissions <= w.submissions + CountPrefixed(lines[i..], "== S")
      && r.value.tests <= w.tests + CountPrefixed(lines[i..], "== T")
    decreases |lines| - i
  {
    if i >= |lines| then Some(w)
    else
      match Pass(lines, i, w, toFloat)
      case Stop(result) => result
      case Continue(k, b) => Run(lines, k, b, toFloat)
  }

  /** The fields the walk of `__extract_executions_count` leaves on the
      `Execucao`, or `None` when the walk itself raises: one name per error,
      the pass flag agreeing with the grade, and at most one submission per
      `== S` line and one test per `== T` line. The call after the walk
      (extractor.py:534) names a `Util` method that util.py does not define,
      so the method as written raises even after a walk that completes. */
  function ExecutionsCount(lines: seq<string>, toFloat: string -> Option<real>): (r: Option<Walk>)
    ensures r.Some? ==>
      && Consistent(r.value)
      && r.value.submissions <= CountPrefixed(lines, "== S")
      && r.value.tests <= CountPrefixed(lines, "== T")
  {
    assert lines[0..] == lines;
    Run(lines, 0, Start, toFloat)
  }

  /** A submission block whose grade is above 99.99 ends the walk: with
      the execution when the block had code, raising otherwise. */
  lemma PassingSubmissionStops(lines: seq<string>, i: nat, w: Walk, toFloat: string -> Option<real>)
    requires i < |lines| && StartsWith(lines[i], "== S")
    requires var body := SubmissionBody(lines, i + 1, Opened(w), toFloat);
      body.Some? && body.value.1.grade > 99.99
    ensures var b := SubmissionBody(lines, i + 1, Opened(w), toFloat).value.1;
      Pass(lines, i, w, toFloat) == Stop(if b.code.None? then None else Some(b.(passed := Some(true))))
  {
  }

  /** Skipping from line `i` to line `k` passes over the marker at `i` and
      the ones between. */
  lemma SkipCounts(lines: seq<string>, i: nat, k: nat, p: string)
    requires i < k <= |lines|
    ensures CountPrefixed(lines[k..], p) + (if StartsWith(lines[i], p) then 1 else 0) <= CountPrefixed(lines[i..], p)
  {
    assert lines[i..][0] == lines[i] && lines[i..][1..] == lines[i + 1..];
    assert lines[i + 1..] == lines[i + 1..k] + lines[k..];
    CountPrefixedAppend(lines[i + 1..k], lines[k..], p);
  }

  /** No `-- ERROR` entry sits on either of the two lines after another
      one, and each entry's two lines lie before line `j`. */
  predicate EntriesSpaced(lines: seq<string>, i: nat, j: nat)
    requires j <= |lines|
  {
    forall k :: i <= k < j && StartsWith(lines[k], "-- ERROR") ==>
      k + 3 <= j && !StartsWith(lines[k + 1], "-- ERROR") && !StartsWith(lines[k + 2], "-- ERROR")
  }

  /** When the entries are spaced out, a test block's walk counts every
      `-- ERROR` line between `i` and `j`. */
  lemma {:induction false} TestErrorsCountEntries(lines: seq<string>, i: nat, j: nat)
    requires i <= j <= |lines|
    requires EntriesSpaced(lines, i, j)
    ensures |TestErrors(lines, i, j)| == CountPrefixed(lines[i..j], "-- ERROR")
    decreases j - i
  {
    if i < j {
      assert lines[i..j][0] == lines[i] && lines[i..j][1..] == lines[i + 1..j];
      if StartsWith(lines[i], "-- ERROR") {
        assert i + 3 <= j && !StartsWith(lines[i + 1], "-- ERROR") && !StartsWith(lines[i + 2], "-- ERROR");
        var c := CountPrefixed(lines[i + 3..j], "-- ERROR");
        assert lines[i + 2..j][0] == lines[i + 2] && lines[i + 2..j][1..] == lines[i + 3..j];
        assert CountPrefixed(lines[i + 2..j], "-- ERROR") == c;
        assert lines[i + 1..j][0] == lines[i + 1] && lines[i + 1..j][1..] == lines[i + 2..j];
        assert CountPrefixed(lines[i + 1..j], "-- ERROR") == c;
        TestErrorsCountEntries(lines, i + 3, j);
      } else {
        TestErrorsCountEntries(lines, i + 1, j);
      }
    }
  }

  /** Without code, execution-time or grade sections a submission block's
      walk steps on the same entries as a test block's. */
  lemma {:induction false} PlainSubmissionErrors(lines: seq<string>, i: nat, j: nat)
    requires forall k :: i <= k < j && k < |lines| ==>
      !StartsWith(lines[k], "-- CODE") && !StartsWith(lines[k], "-- EXEC") && !StartsWith(lines[k], "-- GRAD")
    ensures SubmissionErrors(lines, i, j) == TestErrors(lines, i, j)
    decreases j - i
  {
    if i < j && i < |lines| {
      if StartsWith(lines[i], "-- ERROR") {
        PlainSubmissionErrors(lines, i + 3, j);
      } else {
        PlainSubmissionErrors(lines, i + 1, j);
      }
    }
  }

  // ---------------------------------------------------------------------
  // A log of test blocks

  /** A log of test blocks only: no `== S` line; each `== T` line is
      followed by a `*-*` line, one of which comes before the next `== T`
      line; and no `-- ERROR` entry sits on either of the two lines before a
      `*-*` line. */
  predicate TestLog(lines: seq<string>) {
    && (forall k :: 0 <= k < |lines| ==> !StartsWith(lines[k], "== S"))
    && (forall k :: 0 <= k < |lines| && StartsWith(lines[k], "== T") ==>
          exists c :: k < c < |lines| && StartsWith(lines[c], "*-*"))
    && (forall k, m :: 0 <= k < m < |lines| && StartsWith(lines[k], "== T") && StartsWith(lines[m], "== T") ==>
          exists c :: k < c < m && StartsWith(lines[c], "*-*"))
    && (forall k, c :: 0 <= k < c < |lines| && StartsWith(lines[k], "-- ERROR") && StartsWith(lines[c], "*-*") ==>
          c >= k + 3)
  }

  /** On a log of test blocks the walk completes, with no submission and
      one test for every `== T` line. */
  lemma TestLogCountsEveryTest(lines: seq<string>, toFloat: string -> Option<real>)
    requires TestLog(lines)
    ensures var r := ExecutionsCount(lines, toFloat);
      && r.Some? && r.value.submissions == 0
      && r.value.tests == CountPrefixed(lines, "== T")
  {
    RunOverTestLog(lines, 0, Start, toFloat);
    assert lines[0..] == lines;
  }

  lemma {:induction false} RunOverTestLog(lines: seq<string>, i: nat, w: Walk, toFloat: string -> Option<real>)
    requires TestLog(lines) && i <= |lines|
    ensures var r := Run(lines, i, w, toFloat);
      && r.Some? && r.value.submissions == w.submissions
      && r.value.tests == w.tests + CountPrefixed(lines[i..], "== T")
    decreases |lines| - i
  {
    if i == |lines| {
      assert lines[i..] == [];
    } else {
      var k, b := OuterStepOfLog(lines, i, w, toFloat);
      RunOverTestLog(lines, k, b, toFloat);
    }
  }

  /** One pass of the outer loop over a test log: the walk goes on at a
      later line with one more test exactly when it passed a `== T` line. */
  lemma OuterStepOfLog(lines: seq<string>, i: nat, w: Walk, toFloat: string -> Option<real>) returns (k: nat, b: Walk)
    requires TestLog(lines) && i < |lines|
    ensures i < k <= |lines|
    ensures Run(lines, i, w, toFloat) == Run(lines, k, b, toFloat)
    ensures b.submissions == w.submissions
    ensures b.tests + CountPrefixed(lines[k..], "== T") == w.tests + CountPrefixed(lines[i..], "== T")
  {
    assert !StartsWith(lines[i], "== S");
    if StartsWith(lines[i], "== T") {
      k, b := TestLineOfLog(lines, i, w, toFloat);
    } else {
      k, b := i + 1, w;
      OtherLine(lines, i, w, toFloat);
    }
  }

  /** A line that opens no block is passed over. */
  lemma OtherLine(lines: seq<string>, i: nat, w: Walk, toFloat: string -> Option<real>)
    requires i < |lines| && !StartsWith(lines[i], "== S") && !StartsWith(lines[i], "== T")
    ensures Pass(lines, i, w, toFloat) == Continue(i + 1, w)
    ensures CountPrefixed(lines[i..], "== T") == CountPrefixed(lines[i + 1..], "== T")
  {
    assert lines[i..][0] == lines[i] && lines[i..][1..] == lines[i + 1..];
  }

  /** A `== T` line of a test log: the walk goes on after the block's
      `*-*` line, having passed over this one `== T` line. */
  lemma TestLineOfLog(lines: seq<string>, i: nat, w: Walk, toFloat: string -> Option<real>) returns (k: nat, b: Walk)
    requires TestLog(lines) && i < |lines| && StartsWith(lines[i], "== T") && !StartsWith(lines[i], "== S")
    ensures i < k <= |lines|
    ensures Pass(lines, i, w, toFloat) == Continue(k, b)
    ensures b.tests == w.tests + 1 && b.submissions == w.submissions
    ensures CountPrefixed(lines[i..], "== T") == 1 + CountPrefixed(lines[k..], "== T")
  {
    var c := FirstClose(lines, i);
    b := TestPassOfLog(lines, i, c, w);
    k := c + 1;
    NoTestInBlock(lines, i, c);
    BlockCount(lines, i, c);
  }

  /** The test block opened at line `i` of a test log reads up to its
      first `*-*` line `c` and counts one test. */
  lemma TestPassOfLog(lines: seq<string>, i: nat, c: nat, w: Walk) returns (b: Walk)
    requires TestLog(lines) && i < c < |lines| && StartsWith(lines[i], "== T") && !StartsWith(lines[i], "== S")
    requires StartsWith(lines[c], "*-*") && forall m :: i <= m < c ==> !StartsWith(lines[m], "*-*")
    ensures TestPass(lines, i, w) == Continue(c + 1, b)
    ensures b.tests == w.tests + 1 && b.submissions == w.submissions
  {
    var counted := w.(tests := w.tests + 1);
    TestBodyCloses(lines, i, c, counted);
    b := TestBody(lines, i, counted).value.1;
  }

  /** A block holding only its opening `== T` line passes over one. */
  lemma BlockCount(lines: seq<string>, i: nat, c: nat)
    requires i < c < |lines| && StartsWith(lines[i], "== T")
    requires CountPrefixed(lines[i + 1..c + 1], "== T") == 0
    ensures CountPrefixed(lines[i..], "== T") == 1 + CountPrefixed(lines[c + 1..], "== T")
  {
    assert lines[i..][0] == lines[i] && lines[i..][1..] == lines[i + 1..];
    assert lines[i + 1..] == lines[i + 1..c + 1] + lines[c + 1..];
    CountPrefixedAppend(lines[i + 1..c + 1], lines[c + 1..], "== T");
  }

  /** The `*-*` line that closes the block opened at line `i`. */
  lemma FirstClose(lines: seq<string>, i: nat) returns (c: nat)
    requires TestLog(lines) && i < |lines| && StartsWith(lines[i], "== T")
    ensures i < c < |lines| && StartsWith(lines[c], "*-*")
    ensures forall m :: i <= m < c ==> !StartsWith(lines[m], "*-*")
  {
    var last :| i < last < |lines| && StartsWith(lines[last], "*-*");
    assert lines[i][0] == '=';
    c := i + 1;
    while !StartsWith(lines[c], "*-*")
      invariant i < c <= last
      invariant forall m :: i <= m < c ==> !StartsWith(lines[m], "*-*")
      decreases last - c
    {
      c := c + 1;
    }
  }

  /** Inside a block of a test log there is no other `== T` line. */
  lemma NoTestInBlock(lines: seq<string>, i: nat, c: nat)
    requires TestLog(lines) && i < c < |lines| && StartsWith(lines[i], "== T") && StartsWith(lines[c], "*-*")
    requires forall m :: i <= m < c ==> !StartsWith(lines[m], "*-*")
    ensures CountPrefixed(lines[i + 1..c + 1], "== T") == 0
  {
    forall m | i < m <= c
      ensures !StartsWith(lines[m], "== T")
    {
      assert forall d :: i < d < m ==> !StartsWith(lines[d], "*-*");
      assert lines[c][0] == '*';
    }
    CountPrefixedNone(lines[i + 1..c + 1], "== T");
  }

  /** A test block whose first `*-*` line from `k` on is `c` reads up to
      exactly that line, when no error entry jumps over it. */
  lemma {:induction false} TestBodyCloses(lines: seq<string>, k: nat, c: nat, w: Walk)
    requires TestLog(lines)
    requires k <= c < |lines| && StartsWith(lines[c], "*-*")
    requires forall m :: k <= m < c ==> !StartsWith(lines[m], "*-*")
    ensures TestBody(lines, k, w).Some? && TestBody(lines, k, w).value.0 == c
    decreases c - k
  {
    if k < c {
      if StartsWith(lines[k], "-- ERROR") {
        assert c >= k + 3;
        FirstMatchReachesClose(lines, k + 3, c, ErrorName);
        var w2 := ReadError(lines, k, w).value.1;
        TestBodyCloses(lines, k + 3, c, w2);
      } else {
        TestBodyCloses(lines, k + 1, c, w);
      }
    }
  }

  /** The name search finds something no later than a `*-*` line. */
  lemma {:induction false} FirstMatchReachesClose(lines: seq<string>, i: nat, c: nat, name: string -> Option<string>)
    requires i <= c < |lines| && StartsWith(lines[c], "*-*")
    ensures FirstMatch(lines, i, name).Some?
    decreases c - i
  {
    if i < c && !StartsWith(lines[i], "*-*") && name(lines[i]).None? {
      FirstMatchReachesClose(lines, i + 1, c, name);
    }
  }

  lemma {:induction false} CountPrefixedNone(lines: seq<string>, p: string)
    requires forall k :: 0 <= k < |lines| ==> !StartsWith(lines[k], p)
    ensures CountPrefixed(lines, p) == 0
  {
    if |lines| > 0 {
      assert !StartsWith(lines[0], p);
      CountPrefixedNone(lines[1..], p);
    }
  }

  // ---------------------------------------------------------------------
  // Helpers

  /** The code section is the run of lines before the first `-- ` line. */
  lemma {:induction false} ExtractCodeMeaning(lines: seq<string>, i: nat)
    ensures var r := ExtractCode(lines, i);
      && (r.Some? <==> exists k :: i <= k < |lines| && StartsWith(lines[k], "-- "))
      && (r.Some? ==>
            && i + |r.value| < |lines| && StartsWith(lines[i + |r.value|], "-- ")
            && r.value == lines[i..i + |r.value|]
            && forall k :: i <= k < i + |r.value| ==> !StartsWith(lines[k], "-- "))
    decreases |lines| - i
  {
    if i < |lines| && !StartsWith(lines[i], "-- ") {
      ExtractCodeMeaning(lines, i + 1);
      var r := ExtractCode(lines, i + 1);
      if r.Some? {
        assert [lines[i]] + lines[i + 1..i + 1 + |r.value|] == lines[i..i + 1 + |r.value|];
      }
    }
  }

  /** The error name is the first one found before the block's end. */
  lemma {:induction false} FirstMatchMeaning(lines: seq<string>, i: nat, name: string -> Option<string>)
    ensures var r := FirstMatch(lines, i, name);
      && (r.Some? <==> exists k :: i <= k < |lines| && (StartsWith(lines[k], "*-*") || name(lines[k]).Some?))
      && (r.Some? && r.value.Some? ==>
            exists k :: (i <= k < |lines| && name(lines[k]) == r.value
              && forall m :: i <= m < k ==> !StartsWith(lines[m], "*-*") && name(lines[m]).None?))
      && (r.Some? && r.value.None? ==>
            exists k :: (i <= k < |lines| && StartsWith(lines[k], "*-*")
              && forall m :: i <= m < k ==> name(lines[m]).None?))
    decreases |lines| - i
  {
    if i < |lines| && !StartsWith(lines[i], "*-*") && name(lines[i]).None? {
      FirstMatchMeaning(lines, i + 1, name);
    }
  }

  // ---------------------------------------------------------------------
  // Reading past the block

  /** The walk ends at the first passing submission: whatever follows its
      block is not read. */
  lemma PassEndsWalk(block: seq<string>, after: seq<string>, w: Walk, toFloat: string -> Option<real>)
    requires |block| > 0 && StartsWith(block[0], "== S")
    requires
      var reset := Opened(w);
      var body := SubmissionBody(block, 1, reset, toFloat);
      body.Some? && body.value.1.grade > 99.99
    ensures Run(block + after, 0, w, toFloat) == Run(block, 0, w, toFloat)
  {
    var reset := Opened(w);
    SubmissionBodyPrefix(block, after, 1, reset, toFloat);
    assert (block + after)[0] == block[0];
  }

  /** A submission block that closes inside `block` reads the same with
      anything appended. */
  lemma {:induction false} SubmissionBodyPrefix(block: seq<string>, after: seq<string>, i: nat, w: Walk, toFloat: string -> Option<real>)
    requires SubmissionBody(block, i, w, toFloat).Some?
    ensures SubmissionBody(block + after, i, w, toFloat) == SubmissionBody(block, i, w, toFloat)
    decreases |block| - i
  {
    var all := block + after;
    assert forall k :: 0 <= k < |block| ==> all[k] == block[k];
    if StartsWith(block[i], "*-*") {
    } else if StartsWith(block[i], "-- CODE") {
      var code := ExtractCode(block, i + 1).value;
      ExtractCodePrefix(block, after, i + 1);
      SubmissionBodyPrefix(block, after, i + |code| + 1, w.(code := Some(code)), toFloat);
    } else if StartsWith(block[i], "-- EXEC") {
      SubmissionBodyPrefix(block, after, i + 2, w.(execTime := Some(FloatOrZero(Strip(block[i + 1]), toFloat))), toFloat);
    } else if StartsWith(block[i], "-- GRAD") {
      SubmissionBodyPrefix(block, after, i + 2, w.(grade := FloatOrZero(DropLast(Strip(block[i + 1]), 1), toFloat)), toFloat);
    } else if StartsWith(block[i], "-- ERROR") {
      FirstMatchPrefix(block, after, i + 3, ErrorName);
      var e := ReadError(block, i, w).value;
      SubmissionBodyPrefix(block, after, e.0, e.1, toFloat);
    } else {
      SubmissionBodyPrefix(block, after, i + 1, w, toFloat);
    }
  }

  lemma {:induction false} ExtractCodePrefix(block: seq<string>, after: seq<string>, i: nat)
    requires ExtractCode(block, i).Some?
    ensures ExtractCode(block + after, i) == ExtractCode(block, i)
    decreases |block| - i
  {
    assert (block + after)[i] == block[i];
    if !StartsWith(block[i], "-- ") {
      ExtractCodePrefix(block, after, i + 1);
    }
  }

  lemma {:induction false} FirstMatchPrefix(block: seq<string>, after: seq<string>, i: nat, name: string -> Option<string>)
    requires FirstMatch(block, i, name).Some?
    ensures FirstMatch(block + after, i, name) == FirstMatch(block, i, name)
    decreases |block| - i
  {
    assert (block + after)[i] == block[i];
    if !StartsWith(block[i], "*-*") && name(block[i]).None? {
      FirstMatchPrefix(block, after, i + 1, name);
    }
  }

  /** A block left open raises: the test block below never reaches its
      `*-*` line. */
  lemma UnclosedBlockRaises(toFloat: string -> Option<real>)
    ensures ExecutionsCount(["== TEST\n", "some output\n"], toFloat).None?
  {
    var lines := ["== TEST\n", "some output\n"];
    var w := Start.(tests := 1);
    assert TestBody(lines, 1, w) == None by {
      assert lines[1][..3][0] == 's' && lines[1][..8][0] == 's';
      assert TestBody(lines, 1, w) == TestBody(lines, 2, w);
    }
    assert TestBody(lines, 0, w) == None by {
      assert lines[0][..3][0] == '=' && lines[0][..8][0] == '=';
    }
    assert Pass(lines, 0, Start, toFloat) == Stop(None) by {
      assert StartsWith(lines[0], "== T") && !StartsWith(lines[0], "== S");
    }
  }

  /** A passing submission without a code section raises when its code is
      joined. */
  lemma PassWithoutCodeRaises(toFloat: string -> Option<real>)
    requires toFloat("100.0") == Some(100.0)
    ensures ExecutionsCount(["== SUBMISSION\n", "-- GRADE\n", "100.0%\n", "*-*\n"], toFloat).None?
  {
    var lines := ["== SUBMISSION\n", "-- GRADE\n", "100.0%\n", "*-*\n"];
    var reset := Opened(Start);
    var graded := reset.(grade := 100.0);
    assert DropLast(Strip(lines[2]), 1) == "100.0" by {
      StripMeaning(lines[2]);
    }
    assert SubmissionBody(lines, 3, graded, toFloat) == Some((3, graded)) by {
      assert StartsWith(lines[3], "*-*");
    }
    assert SubmissionBody(lines, 1, reset, toFloat) == Some((3, graded)) by {
      assert lines[1][..3][0] == '-' && lines[1][..7][3] == 'G';
      assert StartsWith(lines[1], "-- GRAD");
    }
    assert StartsWith(lines[0], "== S");
    PassingSubmissionStops(lines, 0, Start, toFloat);
  }
}

=== FILE: exec_flagged.dfy ===
/** `ControllerExecucao.__get_submissions` (controllers.py:419-456): a loop
    over the stripped lines with one flag. The counters are zeroed only when
    unset; `== S`, `== T` and `-- ER` lines count submissions, tests and
    errors; a `-- GRAD` line raises the flag, and the next line, minus its
    last character, is read as the grade, with `acertou` set to
    `grade > 99.99`. A grade that does not convert is logged and leaves both
    fields as they were. The error names found are registered in the
    tally. */
module ExecutionFlagged {
  import opened Wrappers
  import opened Text
  import opened ErrorNames
  import ErrorTally

  datatype Fields = Fields(
    submissions: Option<nat>, tests: Option<nat>, errors: Option<nat>,
    grade: Option<real>, passed: Option<bool>)

  datatype Scan = Scan(
    submissions: nat, tests: nat, errors: nat,
    grade: Option<real>, passed: Option<bool>,
    flag: bool, names: seq<string>)

  /** `if not x: x = 0` */
  function Zeroed(x: Option<nat>): nat {
    match x
    case None => 0
    case Some(n) => n
  }

  function Begin(e: Fields): Scan {
    Scan(Zeroed(e.submissions), Zeroed(e.tests), Zeroed(e.errors), e.grade, e.passed, false, [])
  }

  /** The grade read from a flagged line. */
  function ReadGrade(s: Scan, line: string, toFloat: string -> Option<real>): Scan {
    match toFloat(DropLast(line, 1))
    case None => s
    case Some(g) => s.(grade := Some(g), passed := Some(g > 99.99))
  }

  /** One stripped line: the flagged grade first, then the dispatch on the
      same line. */
  function Step(s: Scan, line: string, toFloat: string -> Option<real>): Scan {
    var s1 := if s.flag then ReadGrade(s, line, toFloat).(flag := false) else s;
    if StartsWith(line, "== S") then s1.(submissions := s1.submissions + 1)
    else if StartsWith(line, "== T") then s1.(tests := s1.tests + 1)
    else if StartsWith(line, "-- ER") then s1.(errors := s1.errors + 1)
    else if StartsWith(line, "-- GRAD") then s1.(flag := true)
    else
      match ErrorName(line)
      case Some(name) => s1.(names := s1.names + [name])
      case None => s1
  }

  function Run(s: Scan, lines: seq<string>, toFloat: string -> Option<real>): Scan
    decreases |lines|
  {
    if |lines| == 0 then s else Run(Step(s, Strip(lines[0]), toFloat), lines[1..], toFloat)
  }

  /** The fields after the call and the tally after it. When the file cannot
      be opened the `OSError` is caught at controllers.py:488-491 and
      nothing changes. */
  function Extract(e: Fields, content: Option<seq<string>>, t: ErrorTally.Tally, toFloat: string -> Option<real>): (Fields, ErrorTally.Tally)
    requires |t.names| == |t.counts|
  {
    match content
    case None => (e, t)
    case Some(lines) =>
      var s := Run(Begin(e), lines, toFloat);
      (Fields(Some(s.submissions), Some(s.tests), Some(s.errors), s.grade, s.passed),
       if |s.names| > 0 then ErrorTally.Register(t, s.names) else t)
  }

  // ---------------------------------------------------------------------
  // Reference definitions

  /** The number of stripped lines starting with `p`. */
  function Count(lines: seq<string>, p: string): nat {
    if |lines| == 0 then 0
    else Marks(Strip(lines[0]), p) + Count(lines[1..], p)
  }

  function Marks(line: string, p: string): nat {
    if StartsWith(line, p) then 1 else 0
  }

  /** The error name of a stripped line that starts with none of the four
      markers, if it has one. */
  function NameOf(line: string): seq<string> {
    if StartsWith(line, "== S") || StartsWith(line, "== T") || StartsWith(line, "-- ER") || StartsWith(line, "-- GRAD")
    then []
    else match ErrorName(line) case Some(n) => [n] case None => []
  }

  /** The error names of the stripped lines, in order. */
  function Names(lines: seq<string>): seq<string> {
    if |lines| == 0 then [] else NameOf(Strip(lines[0])) + Names(lines[1..])
  }

  /** One line adds one to the counter of its marker and its name, if any,
      to the names. */
  lemma StepCounts(s: Scan, line: string, toFloat: string -> Option<real>)
    ensures Step(s, line, toFloat).submissions == s.submissions + Marks(line, "== S")
    ensures Step(s, line, toFloat).tests == s.tests + Marks(line, "== T")
    ensures Step(s, line, toFloat).errors == s.errors + Marks(line, "-- ER")
    ensures Step(s, line, toFloat).names == s.names + NameOf(line)
  {
    if StartsWith(line, "== S") {
      assert !StartsWith(line, "-- ER") by { assert line[0] == '='; }
      assert !StartsWith(line, "== T") by { assert line[3] == 'S'; }
    } else if StartsWith(line, "== T") {
      assert !StartsWith(line, "-- ER") by { assert line[0] == '='; }
    }
  }

  /** Every counter is its start plus the number of its lines: no line is
      skipped, since the grade line goes through the dispatch as well. */
  lemma {:induction false} RunCounts(s: Scan, lines: seq<string>, toFloat: string -> Option<real>)
    ensures Run(s, lines, toFloat).submissions == s.submissions + Count(lines, "== S")
    ensures Run(s, lines, toFloat).tests == s.tests + Count(lines, "== T")
    ensures Run(s, lines, toFloat).errors == s.errors + Count(lines, "-- ER")
    decreases |lines|
  {
    if |lines| > 0 {
      var next := Step(s, Strip(lines[0]), toFloat);
      StepCounts(s, Strip(lines[0]), toFloat);
      RunCounts(next, lines[1..], toFloat);
    }
  }

  /** A scan over the lines with an arbitrary step, and the names an
      arbitrary per-line collector gathers. */
  function Fold(step: (Scan, string) -> Scan, s: Scan, lines: seq<string>): Scan
    decreases |lines|
  {
    if |lines| == 0 then s else Fold(step, step(s, lines[0]), lines[1..])
  }

  function Gather(name: string -> seq<string>, lines: seq<string>): seq<string>
    decreases |lines|
  {
    if |lines| == 0 then [] else name(lines[0]) + Gather(name, lines[1..])
  }

  /** A step that appends each line's names makes the scan append them all,
      in order. */
  lemma {:induction false} FoldGathers(step: (Scan, string) -> Scan, name: string -> seq<string>, s: Scan, lines: seq<string>)
    requires forall t: Scan, line: string :: step(t, line).names == t.names + name(line)
    ensures Fold(step, s, lines).names == s.names + Gather(name, lines)
    decreases |lines|
  {
    if |lines| > 0 {
      var next := step(s, lines[0]);
      FoldGathers(step, name, next, lines[1..]);
      assert s.names + (name(lines[0]) + Gather(name, lines[1..])) == next.names + Gather(name, lines[1..]);
    }
  }

  function Stepper(toFloat: string -> Option<real>): (Scan, string) -> Scan {
    (t: Scan, line: string) => Step(t, Strip(line), toFloat)
  }

  function StrippedName(line: string): seq<string> {
    NameOf(Strip(line))
  }

  lemma {:induction false} RunIsFold(s: Scan, lines: seq<string>, toFloat: string -> Option<real>)
    ensures Run(s, lines, toFloat) == Fold(Stepper(toFloat), s, lines)
    decreases |lines|
  {
    if |lines| > 0 {
      RunIsFold(Step(s, Strip(lines[0]), toFloat), lines[1..], toFloat);
      assert Stepper(toFloat)(s, lines[0]) == Step(s, Strip(lines[0]), toFloat);
    }
  }

  lemma {:induction false} NamesIsGather(lines: seq<string>)
    ensures Names(lines) == Gather(StrippedName, lines)
    decreases |lines|
  {
    if |lines| > 0 {
      NamesIsGather(lines[1..]);
    }
  }

  /** The names are collected from the unmarked lines in order. */
  lemma RunNames(s: Scan, lines: seq<string>, toFloat: string -> Option<real>)
    ensures Run(s, lines, toFloat).names == s.names + Names(lines)
  {
    var step := Stepper(toFloat);
    forall t: Scan, line: string ensures step(t, line).names == t.names + StrippedName(line) {
      StepCounts(t, Strip(line), toFloat);
    }
    FoldGathers(step, StrippedName, s, lines);
    RunIsFold(s, lines, toFloat);
    NamesIsGather(lines);
  }

  /** `acertou` agrees with the grade: true exactly above 99.99. */
  predicate GradeRule(s: Scan) {
    s.grade.Some? ==> s.passed == Some(s.grade.value > 99.99)
  }

  /** A grade that fails to convert changes neither field; one that
      converts sets both. */
  lemma ReadGradeMeaning(s: Scan, line: string, toFloat: string -> Option<real>)
    ensures toFloat(DropLast(line, 1)).None? ==>
      ReadGrade(s, line, toFloat).grade == s.grade && ReadGrade(s, line, toFloat).passed == s.passed
    ensures toFloat(DropLast(line, 1)).Some? ==>
      GradeRule(ReadGrade(s, line, toFloat)) && ReadGrade(s, line, toFloat).grade == toFloat(DropLast(line, 1))
  {
  }

  lemma {:induction false} RunKeepsGradeRule(s: Scan, lines: seq<string>, toFloat: string -> Option<real>)
    requires GradeRule(s)
    ensures GradeRule(Run(s, lines, toFloat))
    decreases |lines|
  {
    if |lines| > 0 {
      RunKeepsGradeRule(Step(s, Strip(lines[0]), toFloat), lines[1..], toFloat);
    }
  }

  /** The line after the last `-- GRAD` line decides the grade when it
      converts: no line after it touches the grade. */
  lemma {:induction false} NoMarkerKeepsGrade(s: Scan, lines: seq<string>, toFloat: string -> Option<real>)
    requires !s.flag
    requires forall i :: 0 <= i < |lines| ==> !StartsWith(Strip(lines[i]), "-- GRAD")
    ensures Run(s, lines, toFloat).grade == s.grade
    ensures Run(s, lines, toFloat).passed == s.passed
    decreases |lines|
  {
    if |lines| > 0 {
      NoMarkerKeepsGrade(Step(s, Strip(lines[0]), toFloat), lines[1..], toFloat);
    }
  }

  /** A fresh `Execucao` read from a log: zero-based counters equal to the
      numbers of marker lines, `acertou` consistent with the grade, and the
      names registered. */
  lemma ExtractMeaning(content: seq<string>, t: ErrorTally.Tally, toFloat: string -> Option<real>)
    requires |t.names| == |t.counts|
    ensures var (f, t2) := Extract(Fields(None, None, None, None, None), Some(content), t, toFloat);
      && f.submissions == Some(Count(content, "== S"))
      && f.tests == Some(Count(content, "== T"))
      && f.errors == Some(Count(content, "-- ER"))
      && (f.grade.Some? ==> f.passed == Some(f.grade.value > 99.99))
      && t2 == ErrorTally.Register(t, Names(content))
  {
    var e := Fields(None, None, None, None, None);
    var s0 := Begin(e);
    var s := Run(s0, content, toFloat);
    assert s0 == Scan(0, 0, 0, None, None, false, []);
    assert s.submissions == Count(content, "== S") && s.tests == Count(content, "== T")
      && s.errors == Count(content, "-- ER") by { RunCounts(s0, content, toFloat); }
    assert s.names == Names(content) by { RunNames(s0, content, toFloat); }
    assert GradeRule(s) by { RunKeepsGradeRule(s0, content, toFloat); }
    var r := Extract(e, Some(content), t, toFloat);
    assert r.0 == Fields(Some(s.submissions), Some(s.tests), Some(s.errors), s.grade, s.passed);
    if |s.names| == 0 {
      ErrorTally.RegisterNothing(t);
      assert r.1 == t;
    } else {
      assert r.1 == ErrorTally.Register(t, s.names);
    }
    assert r == (r.0, r.1);
  }
}

=== FILE: exec_prefix.dfy ===
/** `ControllerExecucao.__get_file_data` and `get_execucoes`
    (controller/execucao.py:12-116): the simplest generation of the
    execution-log reader.

    The lines are stripped; submissions, tests and errors are the numbers of
    lines starting with `== SU`, `== TE` and `== ER`; every line holding
    `Error` contributes its text before the first `:` to the tally; and a
    loop over the lines reads the line after each `-- GR` line, minus its
    last character, as the grade. A grade that does not convert raises: the
    handler at controller/execucao.py:56-58 catches it, so the loop stops
    there and what was read so far is kept. */
module ExecutionPrefix {
  import opened Wrappers
  import opened Text
  import opened ErrorNames
  import ErrorTally
  import FileNames
  import ExecutionFlagged

  /** The `data` dictionary: a key is `None` until it is set. */
  datatype FileData = FileData(
    submissions: Option<nat>, tests: Option<nat>, errors: Option<nat>,
    grade: Option<real>)

  const NoData: FileData := FileData(None, None, None, None)

  /** `Execucao(...)` as `get_execucoes` builds it. */
  datatype Execution = Execution(
    activity: int, exercise: int,
    submissions: nat, tests: nat, errors: nat,
    grade: real, passed: bool)

  // ---------------------------------------------------------------------
  // The grade loop (controller/execucao.py:45-51)

  /** The loop's state: whether the next line is a grade, the last grade
      read, and whether a conversion has raised (which ends the loop). */
  datatype GradeScan = GradeScan(find: bool, grade: Option<real>, failed: bool)

  const GradeStart: GradeScan := GradeScan(false, None, false)

  function GradeStep(st: GradeScan, line: string, toFloat: string -> Option<real>): GradeScan {
    if st.failed then st
    else if st.find then
      match toFloat(DropLast(line, 1))
      case None => st.(failed := true)
      case Some(g) => GradeScan(false, Some(g), false)
    else if StartsWith(line, "-- GR") then st.(find := true)
    else st
  }

  function GradeRun(st: GradeScan, lines: seq<string>, toFloat: string -> Option<real>): GradeScan
    decreases |lines|
  {
    if |lines| == 0 then st else GradeRun(GradeStep(st, lines[0], toFloat), lines[1..], toFloat)
  }

  /** The dictionary after `__get_file_data`: empty when the file cannot be
      opened, and the tally after the call. */
  function FileDataOf(content: Option<seq<string>>, t: ErrorTally.Tally, toFloat: string -> Option<real>): (r: (FileData, ErrorTally.Tally))
    requires |t.names| == |t.counts|
    ensures content.None? ==> r == (NoData, t)
    ensures content.Some? ==>
      && r.0.submissions == Some(CountPrefixed(StripAll(content.value), "== SU"))
      && r.0.tests == Some(CountPrefixed(StripAll(content.value), "== TE"))
      && r.0.errors == Some(CountPrefixed(StripAll(content.value), "== ER"))
      && r.0.grade == GradeRun(GradeStart, StripAll(content.value), toFloat).grade
      && r.1 == ErrorTally.Register(t, NamesBeforeColon(StripAll(content.value)))
  {
    match content
    case None => (NoData, t)
    case Some(raw) =>
      var lines := StripAll(raw);
      (FileData(
         Some(CountPrefixed(lines, "== SU")),
         Some(CountPrefixed(lines, "== TE")),
         Some(CountPrefixed(lines, "== ER")),
         GradeRun(GradeStart, lines, toFloat).grade),
       ErrorTally.Register(t, NamesBeforeColon(lines)))
  }

  /** `acertou`: a grade above 99.99, a missing grade counting as 0.0. */
  predicate Passes(grade: Option<real>) {
    grade.GetOr(0.0) > 99.99
  }

  /** One `.log` entry of `get_execucoes`: the execution, or `None` when an
      id does not convert (the `ValueError` or `IndexError` escapes, since
      only `OSError` is caught at controller/execucao.py:112), and the tally,
      which `__get_file_data` has updated before the ids are read. */
  function ExecutionOf(name: string, content: Option<seq<string>>, t: ErrorTally.Tally, toInt: string -> Option<int>, toFloat: string -> Option<real>): (r: (Option<Execution>, ErrorTally.Tally))
    requires |t.names| == |t.counts|
    ensures r.1 == FileDataOf(content, t, toFloat).1
    ensures r.0.Some? <==> FileNames.ExecutionIdsSlicing(name, toInt).Some?
    ensures r.0.Some? ==>
      var data := FileDataOf(content, t, toFloat).0;
      && (r.0.value.activity, r.0.value.exercise) == FileNames.ExecutionIdsSlicing(name, toInt).value
      && r.0.value.submissions == data.submissions.GetOr(0)
      && r.0.value.tests == data.tests.GetOr(0)
      && r.0.value.errors == data.errors.GetOr(0)
      && r.0.value.grade == data.grade.GetOr(0.0)
    ensures r.0.Some? ==> (r.0.value.passed <==> r.0.value.grade > 99.99)
    ensures r.0.Some? && content.None? ==>
      && r.0.value.submissions == 0 && r.0.value.tests == 0 && r.0.value.errors == 0
      && r.0.value.grade == 0.0 && !r.0.value.passed
  {
    var (data, t2) := FileDataOf(content, t, toFloat);
    match FileNames.ExecutionIdsSlicing(name, toInt)
    case None => (None, t2)
    case Some((activity, exercise)) =>
      (Some(Execution(activity, exercise,
         data.submissions.GetOr(0), data.tests.GetOr(0), data.errors.GetOr(0),
         data.grade.GetOr(0.0), Passes(data.grade))),
       t2)
  }

  // ---------------------------------------------------------------------

  /** A conversion failure ends the loop: nothing after it is read. */
  lemma {:induction false} FailedStays(st: GradeScan, lines: seq<string>, toFloat: string -> Option<real>)
    requires st.failed
    ensures GradeRun(st, lines, toFloat) == st
    decreases |lines|
  {
    if |lines| > 0 {
      FailedStays(GradeStep(st, lines[0], toFloat), lines[1..], toFloat);
    }
  }

  /** The loop over two pieces is the loop over the second from where the
      first left it. */
  lemma {:induction false} GradeRunAppend(st: GradeScan, a: seq<string>, b: seq<string>, toFloat: string -> Option<real>)
    ensures GradeRun(st, a + b, toFloat) == GradeRun(GradeRun(st, a, toFloat), b, toFloat)
    decreases |a|
  {
    if |a| == 0 {
      assert a + b == b;
    } else {
      assert (a + b)[1..] == a[1..] + b;
      GradeRunAppend(GradeStep(st, a[0], toFloat), a[1..], b, toFloat);
    }
  }

  /** Lines without a `-- GR` marker, read while no grade is awaited, change
      nothing. */
  lemma {:induction false} UnmarkedKeepsGrade(st: GradeScan, lines: seq<string>, toFloat: string -> Option<real>)
    requires !st.find
    requires forall i :: 0 <= i < |lines| ==> !StartsWith(lines[i], "-- GR")
    ensures GradeRun(st, lines, toFloat) == st
    decreases |lines|
  {
    if |lines| > 0 {
      UnmarkedKeepsGrade(GradeStep(st, lines[0], toFloat), lines[1..], toFloat);
    }
  }

  /** A later grade overwrites an earlier one: when the loop reaches a
      marker in its plain state, the grade line after it converts and no
      marker follows, that grade is the result, whatever came before. */
  lemma LastGradeWins(a: seq<string>, marker: string, g: string, b: seq<string>, x: real, toFloat: string -> Option<real>)
    requires StartsWith(marker, "-- GR")
    requires toFloat(DropLast(g, 1)) == Some(x)
    requires forall i :: 0 <= i < |b| ==> !StartsWith(b[i], "-- GR")
    requires !GradeRun(GradeStart, a, toFloat).find && !GradeRun(GradeStart, a, toFloat).failed
    ensures GradeRun(GradeStart, a + [marker, g] + b, toFloat).grade == Some(x)
  {
    var mid := GradeRun(GradeStart, a, toFloat);
    var found := GradeStep(mid, marker, toFloat);
    assert found == mid.(find := true);
    var after := GradeStep(found, g, toFloat);
    assert after == GradeScan(false, Some(x), false);
    RunPastPair(GradeStart, a, marker, g, b, toFloat);
    UnmarkedKeepsGrade(after, b, toFloat);
  }

  /** Reading `a`, then two lines, then `b`. */
  lemma RunPastPair(st: GradeScan, a: seq<string>, l1: string, l2: string, b: seq<string>, toFloat: string -> Option<real>)
    ensures GradeRun(st, a + [l1, l2] + b, toFloat)
      == GradeRun(GradeStep(GradeStep(GradeRun(st, a, toFloat), l1, toFloat), l2, toFloat), b, toFloat)
  {
    GradeRunAppend(st, a, [l1, l2] + b, toFloat);
    assert a + [l1, l2] + b == a + ([l1, l2] + b);
    var mid := GradeRun(st, a, toFloat);
    assert GradeRun(mid, [l1, l2] + b, toFloat) == GradeRun(GradeStep(mid, l1, toFloat), [l2] + b, toFloat) by {
      assert ([l1, l2] + b)[0] == l1;
      assert ([l1, l2] + b)[1..] == [l2] + b;
    }
    assert GradeRun(GradeStep(mid, l1, toFloat), [l2] + b, toFloat)
      == GradeRun(GradeStep(GradeStep(mid, l1, toFloat), l2, toFloat), b, toFloat) by {
      assert ([l2] + b)[0] == l2;
      assert ([l2] + b)[1..] == b;
    }
  }

  /** A grade that does not convert keeps the one read before it, and no
      later grade is read. */
  lemma BadGradeKeepsEarlier(a: seq<string>, marker: string, g: string, b: seq<string>, toFloat: string -> Option<real>)
    requires StartsWith(marker, "-- GR")
    requires toFloat(DropLast(g, 1)).None?
    requires !GradeRun(GradeStart, a, toFloat).find && !GradeRun(GradeStart, a, toFloat).failed
    ensures GradeRun(GradeStart, a + [marker, g] + b, toFloat).grade == GradeRun(GradeStart, a, toFloat).grade
  {
    var mid := GradeRun(GradeStart, a, toFloat);
    var found := GradeStep(mid, marker, toFloat);
    assert found == mid.(find := true);
    var after := GradeStep(found, g, toFloat);
    assert after.failed && after.grade == mid.grade;
    RunPastPair(GradeStart, a, marker, g, b, toFloat);
    FailedStays(after, b, toFloat);
  }

  /** A file the reader cannot open gives an execution with every count at
      zero and no pass, and leaves the tally alone. */
  lemma UnreadableFile(name: string, t: ErrorTally.Tally, toInt: string -> Option<int>, toFloat: string -> Option<real>)
    requires |t.names| == |t.counts|
    requires FileNames.ExecutionIdsSlicing(name, toInt).Some?
    ensures ExecutionOf(name, None, t, toInt, toFloat).1 == t
    ensures var e := ExecutionOf(name, None, t, toInt, toFloat).0.value;
      e.submissions == 0 && e.tests == 0 && e.errors == 0 && !e.passed
  {
  }

  /** The error names this generation collects: every stripped line that
      mentions `Error` contributes, so each count in the tally grows by the
      number of lines with that text before their first `:`. */
  lemma RegisteredNames(raw: seq<string>, t: ErrorTally.Tally, x: string, toFloat: string -> Option<real>)
    requires ErrorTally.Valid(t)
    ensures var t2 := FileDataOf(Some(raw), t, toFloat).1;
      && ErrorTally.Valid(t2)
      && ErrorTally.CountOf(t2, x) == ErrorTally.CountOf(t, x) + multiset(NamesBeforeColon(StripAll(raw)))[x]
  {
    ErrorTally.RegisterCounts(t, NamesBeforeColon(StripAll(raw)), x);
  }

  /** Compared with the flagged reader (controllers.py:419-456), which
      counts `== S` lines, this one counts only the `== SU` lines among
      them, so it never reports more submissions. */
  lemma {:induction false} FewerSubmissionsThanFlagged(raw: seq<string>)
    ensures CountPrefixed(StripAll(raw), "== SU") <= ExecutionFlagged.Count(raw, "== S")
    decreases |raw|
  {
    if |raw| > 0 {
      FewerSubmissionsThanFlagged(raw[1..]);
      assert StripAll(raw)[1..] == StripAll(raw[1..]);
      var line := Strip(raw[0]);
      if StartsWith(line, "== SU") {
        assert line[..4] == "== S";
      }
    }
  }

  /** An error line of the form the other readers count (`-- ER...`) is
      never counted here, where the marker looked for is `== ER`. */
  lemma DashErrorsNotCounted(raw: seq<string>)
    requires forall i :: 0 <= i < |raw| ==> StartsWith(Strip(raw[i]), "-- ER")
    ensures CountPrefixed(StripAll(raw), "== ER") == 0
  {
    var lines := StripAll(raw);
    forall i | 0 <= i < |lines| ensures !StartsWith(lines[i], "== ER") {
      assert lines[i][0] == '-';
    }
    NoneStartWith(lines, "== ER");
  }

  lemma {:induction false} NoneStartWith(lines: seq<string>, p: string)
    requires forall i :: 0 <= i < |lines| ==> !StartsWith(lines[i], p)
    ensures CountPrefixed(lines, p) == 0
    decreases |lines|
  {
    if |lines| > 0 {
      NoneStartWith(lines[1..], p);
    }
  }
}

=== FILE: exec_single_pass.dfy ===
/** `ExecucaoExtractor.__extract_submissions_count` (extractors.py:450-481):
    one pass over an execution log read with `readline()`.

    Every `== S` line counts a submission and, unless a passing grade is
    already known, starts a grade search: the lines up to the first
    `-- GRADE` or `*-*` line are read and dropped, the line after it is the
    grade with `%` removed, and scanning goes on after the grade line, so
    none of the lines the search read is counted. `== T` and `-- ER` lines
    count tests and errors; any other line whose start matches the error
    pattern contributes an error name. */
module ExecutionSinglePass {
  import opened Wrappers
  import opened Text
  import opened ErrorNames

  datatype Scan = Scan(
    submissions: nat, tests: nat, errors: nat,
    grade: Option<real>, passed: Option<bool>,
    names: seq<string>)

  /** The counters zeroed, the grade and pass flag as the fresh
      `Execucao` holds them (`None`). */
  const Start: Scan := Scan(0, 0, 0, None, None, [])

  /** `nota_final and acertou`: a non-zero grade and a pass. */
  predicate Settled(s: Scan) {
    s.grade.Some? && s.grade.value != 0.0 && s.passed == Some(true)
  }

  predicate IsGradeMarker(line: string) {
    line == "" || StartsWith(line, "-- GRADE") || StartsWith(line, "*-*")
  }

  /** The index of the line that ends the grade search started at `j`; past
      the end `readline()` yields `""`, which ends it. */
  function GradeMarker(lines: seq<string>, j: nat): (k: nat)
    ensures j <= k
    ensures k < |lines| ==> IsGradeMarker(lines[k])
    ensures forall m :: j <= m < k && m < |lines| ==> !IsGradeMarker(lines[m])
    decreases |lines| - j
  {
    if j >= |lines| || IsGradeMarker(lines[j]) then j else GradeMarker(lines, j + 1)
  }

  /** The grade read from the line after the marker, `%` removed;
      `acertou` is false exactly below 100. */
  function ReadGrade(s: Scan, text: string, toFloat: string -> Option<real>): Scan {
    match toFloat(RemoveChar(Strip(text), '%'))
    case None => s
    case Some(g) => s.(grade := Some(g), passed := Some(!(g < 100.0)))
  }

  /** One line of the scan: the next line to read and the new state. */
  function Step(lines: seq<string>, i: nat, s: Scan, toFloat: string -> Option<real>): (r: (nat, Scan))
    requires i < |lines|
    ensures r.0 > i
  {
    var line := lines[i];
    if StartsWith(line, "== S") then
      var counted := s.(submissions := s.submissions + 1);
      if Settled(s) then (i + 1, counted)
      else
        var k := GradeMarker(lines, i + 1);
        (k + 2, ReadGrade(counted, LineAt(lines, k + 1), toFloat))
    else if StartsWith(line, "== T") then (i + 1, s.(tests := s.tests + 1))
    else if StartsWith(line, "-- ER") then (i + 1, s.(errors := s.errors + 1))
    else
      match ErrorName(line)
      case Some(name) => (i + 1, s.(names := s.names + [name]))
      case None => (i + 1, s)
  }

  /** The scan from line `i` on; the first empty line (the end of the file)
      stops it. */
  function Run(lines: seq<string>, i: nat, s: Scan, toFloat: string -> Option<real>): Scan
    decreases |lines| - i
  {
    if i >= |lines| || lines[i] == "" then s
    else
      var (k, t) := Step(lines, i, s, toFloat);
      Run(lines, k, t, toFloat)
  }

  /** The fields of the `Execucao` after the call: `None` throughout when
      the file cannot be opened (the `OSError` is caught at
      extractors.py:513-516). The collected names never reach the tally:
      the `register_errors` call at extractors.py:481 passes two arguments
      to a one-argument method, and the `TypeError` is caught by the same
      handler. */
  function Extract(content: Option<seq<string>>, toFloat: string -> Option<real>): Option<Scan> {
    match content
    case None => None
    case Some(lines) => Some(Run(lines, 0, Start, toFloat))
  }

  // ---------------------------------------------------------------------

  /** The pass flag is set together with the grade and says whether it is
      at least 100. */
  predicate GradeRule(s: Scan) {
    && (s.passed.Some? <==> s.grade.Some?)
    && (s.grade.Some? ==> s.passed.value == (s.grade.value >= 100.0))
  }

  lemma StepKeepsGradeRule(lines: seq<string>, i: nat, s: Scan, toFloat: string -> Option<real>)
    requires i < |lines| && GradeRule(s)
    ensures var t := Step(lines, i, s, toFloat).1;
      && GradeRule(t)
      && t.submissions >= s.submissions && t.tests >= s.tests && t.errors >= s.errors
    ensures var t := Step(lines, i, s, toFloat).1;
      var isS := StartsWith(lines[i], "== S");
      var isT := !isS && StartsWith(lines[i], "== T");
      var isE := !isS && !isT && StartsWith(lines[i], "-- ER");
      && t.submissions == s.submissions + (if isS then 1 else 0)
      && t.tests == s.tests + (if isT then 1 else 0)
      && t.errors == s.errors + (if isE then 1 else 0)
  {
  }

  lemma {:induction false} RunKeepsGradeRule(lines: seq<string>, i: nat, s: Scan, toFloat: string -> Option<real>)
    requires GradeRule(s)
    ensures GradeRule(Run(lines, i, s, toFloat))
    ensures Run(lines, i, s, toFloat).submissions >= s.submissions
    ensures Run(lines, i, s, toFloat).tests >= s.tests
    ensures Run(lines, i, s, toFloat).errors >= s.errors
    decreases |lines| - i
  {
    if i < |lines| && lines[i] != "" {
      StepKeepsGradeRule(lines, i, s, toFloat);
      var (k, t) := Step(lines, i, s, toFloat);
      RunKeepsGradeRule(lines, k, t, toFloat);
    }
  }

  /** A readable log yields counters, and `acertou` is false exactly when
      the grade is below 100 (extractors.py:452-454, 466). */
  lemma ExtractGradeRule(lines: seq<string>, toFloat: string -> Option<real>)
    ensures Extract(Some(lines), toFloat).Some?
    ensures GradeRule(Extract(Some(lines), toFloat).value)
  {
    RunKeepsGradeRule(lines, 0, Start, toFloat);
  }

  /** Once a non-zero passing grade is known, no later line changes it:
      later submissions are counted but start no grade search. */
  lemma {:induction false} SettledGradeStays(lines: seq<string>, i: nat, s: Scan, toFloat: string -> Option<real>)
    requires Settled(s)
    ensures Settled(Run(lines, i, s, toFloat))
    ensures Run(lines, i, s, toFloat).grade == s.grade
    decreases |lines| - i
  {
    if i < |lines| && lines[i] != "" {
      var (k, t) := Step(lines, i, s, toFloat);
      SettledGradeStays(lines, k, t, toFloat);
    }
  }

  /** The number of lines from `i` on that start with `p`. */
  function CountFrom(lines: seq<string>, i: nat, p: string): nat
    decreases |lines| - i
  {
    if i >= |lines| then 0
    else (if StartsWith(lines[i], p) then 1 else 0) + CountFrom(lines, i + 1, p)
  }

  /** Skipping lines never adds to the count. */
  lemma {:induction false} CountFromSkip(lines: seq<string>, i: nat, k: nat, p: string)
    requires i <= k
    ensures CountFrom(lines, k, p) <= CountFrom(lines, i, p)
    decreases k - i
  {
    if i < k {
      CountFromSkip(lines, i + 1, k, p);
    }
  }

  /** Each counter grows by at most the number of lines of its kind: a line
      is counted once or, when a grade search read it, not at all. */
  lemma {:induction false} RunCountsBounded(lines: seq<string>, i: nat, s: Scan, toFloat: string -> Option<real>)
    ensures Run(lines, i, s, toFloat).submissions <= s.submissions + CountFrom(lines, i, "== S")
    ensures Run(lines, i, s, toFloat).tests <= s.tests + CountFrom(lines, i, "== T")
    ensures Run(lines, i, s, toFloat).errors <= s.errors + CountFrom(lines, i, "-- ER")
    decreases |lines| - i
  {
    if i < |lines| && lines[i] != "" {
      var (k, t) := Step(lines, i, s, toFloat);
      RunCountsBounded(lines, k, t, toFloat);
      CountFromSkip(lines, i + 1, k, "== S");
      CountFromSkip(lines, i + 1, k, "== T");
      CountFromSkip(lines, i + 1, k, "-- ER");
      var line := lines[i];
      if StartsWith(line, "== S") {
        assert !StartsWith(line, "-- ER") by { assert line[0] == '='; }
        assert !StartsWith(line, "== T") by { assert line[3] == 'S'; }
      } else if StartsWith(line, "== T") {
        assert !StartsWith(line, "-- ER") by { assert line[0] == '='; }
      }
    }
  }

  /** Without submissions nothing is skipped: the counters are the numbers
      of `== T` and `-- ER` lines. */
  lemma {:induction false} NoSubmissionsCountsAll(lines: seq<string>, i: nat, s: Scan, toFloat: string -> Option<real>)
    requires CountFrom(lines, i, "== S") == 0
    requires forall m :: i <= m < |lines| ==> lines[m] != ""
    ensures Run(lines, i, s, toFloat).submissions == s.submissions
    ensures Run(lines, i, s, toFloat).tests == s.tests + CountFrom(lines, i, "== T")
    ensures Run(lines, i, s, toFloat).errors == s.errors + CountFrom(lines, i, "-- ER")
    decreases |lines| - i
  {
    if i < |lines| && lines[i] != "" {
      var line := lines[i];
      assert !StartsWith(line, "== S");
      if StartsWith(line, "== T") {
        assert !StartsWith(line, "-- ER") by { assert line[0] == '='; }
      }
      var (k, t) := Step(lines, i, s, toFloat);
      NoSubmissionsCountsAll(lines, k, t, toFloat);
    }
  }

  /** A test marker read by a grade search is not counted. */
  lemma SearchedLinesNotCounted(toFloat: string -> Option<real>)
    ensures var lines := ["== SUBMISSION\n", "== TEST\n", "-- GRADE\n", "50%\n"];
      var r := Run(lines, 0, Start, toFloat);
      r.submissions == 1 && r.tests == 0
  {
    var lines := ["== SUBMISSION\n", "== TEST\n", "-- GRADE\n", "50%\n"];
    assert StartsWith(lines[0], "== S");
    assert lines[1][0] == '=';
    assert !IsGradeMarker(lines[1]);
    assert IsGradeMarker(lines[2]);
    assert GradeMarker(lines, 2) == 2;
    assert GradeMarker(lines, 1) == 2;
  }
}

=== FILE: file_names.dfy ===
/** The ids the parsers read from file names, and the class description
    read from an activity file.

    An activity file is `<dir>/<id>.data`; its id is the last path
    component minus the extension, which the generations drop either by
    slicing off five characters (controllers.py:185,
    controller/controller_atividade.py:29, controller/atividade.py:28,
    model/atividades.py:40) or by removing every `.data` (extractors.py:190).
    An execution log is `<activity>_<exercise>[_...].log`; the two ids are
    the first two `_`-separated parts once the extension is gone, removed by
    `replace` (extractors.py:504, extractor.py:571-572) or by slicing
    (controllers.py:479, controller/execucao.py:97-98). */
module FileNames {
  import opened Wrappers
  import opened Text

  const DataExtension: string := ".data"
  const LogExtension: string := ".log"

  /** `path.split('/')[-1][:-5]` */
  function ActivityIdText(path: string): string {
    DropLast(AfterLast(path, '/'), 5)
  }

  /** `path.split('/')[-1].replace('.data', '')` */
  function ActivityIdTextReplacing(path: string): string {
    RemoveAll(AfterLast(path, '/'), DataExtension)
  }

  /** The two ids of an execution log name: `None` when there are fewer
      than two parts (the unpacking raises) or one is not an int. */
  function IdsFromParts(parts: seq<string>, toInt: string -> Option<int>): Option<(int, int)> {
    if |parts| < 2 then None
    else
      match (toInt(parts[0]), toInt(parts[1]))
      case (Some(activity), Some(exercise)) => Some((activity, exercise))
      case _ => None
  }

  /** `name.replace('.log', '').split('_')` */
  function ExecutionIdsReplacing(name: string, toInt: string -> Option<int>): Option<(int, int)> {
    IdsFromParts(Split(RemoveAll(name, LogExtension), "_"), toInt)
  }

  /** `name[:-4].split('_')` */
  function ExecutionIdsSlicing(name: string, toInt: string -> Option<int>): Option<(int, int)> {
    IdsFromParts(Split(DropLast(name, 4), "_"), toInt)
  }

  // ---------------------------------------------------------------------

  /** A text without `c` is its own `split(c)[-1]`. */
  lemma {:induction false} AfterLastWithout(s: string, c: char)
    requires c !in s
    ensures AfterLast(s, c) == s
    decreases |s|
  {
    if |s| > 0 {
      AfterLastWithout(s[..|s| - 1], c);
      assert s == s[..|s| - 1] + [s[|s| - 1]];
    }
  }

  /** A separator whose first character `a` does not hold first occurs
      right after `a`. */
  lemma FindAfter(a: string, sep: string, b: string)
    requires |sep| > 0 && sep[0] !in a
    ensures FindFrom(a + sep + b, sep, 0) == Some(|a|)
  {
    var s := a + sep + b;
    assert s[|a|..|a| + |sep|] == sep;
    assert OccursAt(s, sep, |a|);
    var r := FindFrom(s, sep, 0);
    assert OccursAt(s, sep, r.value);
    assert s[r.value] == sep[0];
  }

  /** A text without the separator's first character has no occurrence. */
  lemma FindNone(s: string, sep: string)
    requires |sep| > 0 && sep[0] !in s
    ensures FindFrom(s, sep, 0) == None
  {
  }

  /** `(a + sep + b).split(sep)` when `a` holds no separator character. */
  lemma SplitAfter(a: string, sep: string, b: string)
    requires |sep| > 0 && sep[0] !in a
    ensures Split(a + sep + b, sep) == [a] + Split(b, sep)
  {
    var s := a + sep + b;
    FindAfter(a, sep, b);
    assert s[..|a|] == a;
    assert s[|a| + |sep|..] == b;
  }

  /** The file of id text `n` (no `/`, no `.`): both ways of dropping the
      extension give `n` back, whatever directory the file is in. */
  lemma ActivityIdOfDataFile(dir: string, n: string)
    requires '/' !in n && '.' !in n
    ensures ActivityIdText(dir + "/" + n + DataExtension) == n
    ensures ActivityIdTextReplacing(dir + "/" + n + DataExtension) == n
  {
    var file := n + DataExtension;
    assert '/' !in file;
    assert dir + "/" + n + DataExtension == dir + ['/'] + file;
    AfterLastOfAppend(dir, '/', file);
    assert file[..|n|] == n;
    assert file == n + DataExtension + "";
    SplitAfter(n, DataExtension, "");
    FindNone("", DataExtension);
    assert Split(file, DataExtension) == [n, ""];
    assert Join([n, ""], "") == n + "" + "";
  }

  /** The file `<n>.data` on its own: its id text is `n`. */
  lemma ActivityIdOfFileName(n: string)
    requires '/' !in n
    ensures ActivityIdText(n + DataExtension) == n
  {
    assert '/' !in n + DataExtension;
    AfterLastWithout(n + DataExtension, '/');
    assert (n + DataExtension)[..|n|] == n;
  }

  /** Both ways of dropping `.log` give the stem when it holds no `.`. */
  lemma StemOfLogName(stem: string)
    requires '.' !in stem
    ensures DropLast(stem + LogExtension, 4) == stem
    ensures RemoveAll(stem + LogExtension, LogExtension) == stem
  {
    var name := stem + LogExtension;
    assert name[..|stem|] == stem;
    assert name == stem + LogExtension + "";
    SplitAfter(stem, LogExtension, "");
    FindNone("", LogExtension);
    assert Split("", LogExtension) == [""];
    assert Split(name, LogExtension) == [stem, ""];
    assert Join([stem, ""], "") == stem + "" + "";
  }

  /** `<a>_<e><tail>` with `tail` empty or starting a third part splits
      into `a`, `e` and whatever `tail` holds. */
  lemma PartsOfStem(a: string, e: string, tail: string)
    requires '_' !in a && '_' !in e
    requires tail == "" || tail[0] == '_'
    ensures var parts := Split(a + "_" + e + tail, "_");
      |parts| >= 2 && parts[0] == a && parts[1] == e
  {
    assert a + "_" + e + tail == a + "_" + (e + tail);
    SplitAfter(a, "_", e + tail);
    if tail == "" {
      assert e + tail == e;
      FindNone(e, "_");
      assert Split(e, "_") == [e];
    } else {
      assert e + tail == e + "_" + tail[1..];
      SplitAfter(e, "_", tail[1..]);
    }
  }

  /** `<a>_<e><tail>.log` with `tail` empty or starting a third part: the
      ids are `int(a)` and `int(e)`, by either way of dropping the
      extension when no part holds a `.`. */
  lemma ExecutionIdsOfLogName(a: string, e: string, tail: string, toInt: string -> Option<int>)
    requires '_' !in a && '_' !in e
    requires tail == "" || tail[0] == '_'
    requires '.' !in a && '.' !in e && '.' !in tail
    ensures var name := a + "_" + e + tail + LogExtension;
      && ExecutionIdsSlicing(name, toInt) == IdsFromParts([a, e], toInt)
      && ExecutionIdsReplacing(name, toInt) == IdsFromParts([a, e], toInt)
  {
    var stem := a + "_" + e + tail;
    assert '.' !in stem;
    StemOfLogName(stem);
    PartsOfStem(a, e, tail);
  }

  // ---------------------------------------------------------------------
  // The class description

  /** The label of the class-name line, 17 characters long. */
  const ClassNameLabel: string := "---- class name: "

  /** controllers.py:78: `readlines()[2][17:-1]`; `None` when the file has
      fewer than three lines (the `IndexError` is caught at
      controllers.py:102 and the class is dropped). */
  function DescriptionByLine(lines: seq<string>): Option<string> {
    if |lines| < 3 then None else Some(SliceToLast(lines[2], 17))
  }

  /** extractor.py:80-86 (and the same loop at extractors.py:78-84, which
      is only reached for files ending in `.date`): the first line read
      before the end of the file that starts with `---- class name:`,
      stripped, from column 17; `None` (the description untouched) when
      there is none. */
  function DescriptionByPrefix(lines: seq<string>): Option<string> {
    if |lines| == 0 || lines[0] == "" then None
    else if IsClassNameLine(lines[0]) then Some(Drop(Strip(lines[0]), 17))
    else DescriptionByPrefix(lines[1..])
  }

  predicate IsClassNameLine(line: string) {
    StartsWith(line, "---- class name:")
  }

  /** Line `i` is the first class-name line, and no end of file comes
      before it. */
  predicate FirstClassNameAt(lines: seq<string>, i: int) {
    && 0 <= i < |lines|
    && IsClassNameLine(lines[i])
    && forall j :: 0 <= j < i ==> lines[j] != "" && !IsClassNameLine(lines[j])
  }

  /** The prefix scan finds a description exactly when some class-name line
      comes before the end of the file, and takes the first one. */
  lemma {:induction false} DescriptionByPrefixMeaning(lines: seq<string>)
    ensures DescriptionByPrefix(lines).Some? <==> exists i :: FirstClassNameAt(lines, i)
    ensures forall i :: FirstClassNameAt(lines, i) ==>
      DescriptionByPrefix(lines) == Some(Drop(Strip(lines[i]), 17))
  {
    if |lines| > 0 {
      DescriptionByPrefixMeaning(lines[1..]);
      if IsClassNameLine(lines[0]) {
        assert FirstClassNameAt(lines, 0);
        forall i | FirstClassNameAt(lines, i) ensures i == 0 { }
      } else if lines[0] != "" {
        forall i | FirstClassNameAt(lines, i)
          ensures FirstClassNameAt(lines[1..], i - 1)
        {
          assert i > 0;
          forall j | 0 <= j < i - 1 ensures lines[1..][j] == lines[j + 1] { }
        }
        if DescriptionByPrefix(lines).Some? {
          var i :| FirstClassNameAt(lines[1..], i);
          forall j | 0 <= j < i + 1 ensures lines[j] != "" && !IsClassNameLine(lines[j]) {
            if j > 0 { assert lines[j] == lines[1..][j - 1]; }
          }
          assert FirstClassNameAt(lines, i + 1);
        }
      }
    }
  }

  /** `strip()[17:]` of the class-name line of `v` is `v` when `v` does
      not end in whitespace. */
  lemma ClassNameLineStripped(v: string)
    requires |v| > 0 ==> !IsSpace(v[|v| - 1])
    ensures Drop(Strip(ClassNameLabel + v + "\n"), 17) == v
  {
    var line := ClassNameLabel + v + "\n";
    var body := ClassNameLabel + v;
    assert !IsSpace(line[0]);
    assert TrimLeft(line) == line;
    assert IsSpace(line[|line| - 1]);
    assert line[..|line| - 1] == body;
    assert TrimRight(line) == TrimRight(body);
    if |v| > 0 {
      assert body[|body| - 1] == v[|v| - 1];
      assert TrimRight(body) == body;
      assert body[17..] == v;
    } else {
      assert body == ClassNameLabel;
      assert IsSpace(body[16]);
      assert body[..16] == "---- class name:";
      assert TrimRight(body) == TrimRight("---- class name:");
      assert !IsSpace("---- class name:"[15]);
      assert TrimRight("---- class name:") == "---- class name:";
    }
  }

  /** A file whose third line is the class-name line of `v` and whose
      first two lines are not: both readers give `v`. */
  lemma DescriptionsAgree(lines: seq<string>, v: string)
    requires |lines| >= 3
    requires lines[2] == ClassNameLabel + v + "\n"
    requires |v| > 0 ==> !IsSpace(v[|v| - 1])
    requires lines[0] != "" && !IsClassNameLine(lines[0])
    requires lines[1] != "" && !IsClassNameLine(lines[1])
    ensures DescriptionByLine(lines) == Some(v)
    ensures DescriptionByPrefix(lines) == Some(v)
  {
    var line := lines[2];
    assert line[..|line| - 1] == ClassNameLabel + v;
    assert (ClassNameLabel + v)[17..] == v;
    assert line[..16] == "---- class name:";
    ClassNameLineStripped(v);
    var rest := lines[1..][1..];
    assert rest[0] == line && rest[0] != "";
    assert DescriptionByPrefix(rest) == Some(v);
    assert DescriptionByPrefix(lines[1..]) == DescriptionByPrefix(rest);
  }
}

=== FILE: interaction_chained.dfy ===
/** `ExecucaoExtractor.__extract_solution_interval` (extractors.py:387-436):
    solution and interaction time from a CodeMirror log by chained deltas.

    Each line is `timestamp#event#message`; its time is the timestamp minus
    its last four characters (the milliseconds), parsed to seconds. Lines
    whose time does not parse or lies outside the activity's window are
    skipped. `blur` drops the reference time and `focus` sets it; any other
    event with a reference adds the gap since the reference to the
    interaction time, and to the solution time when the gap is below the
    inactivity threshold, and becomes the new reference. A `submit` whose
    message starts with `Congrat` ends the scan, as does the end of the
    file. */
module InteractionChained {
  import opened Wrappers
  import opened Text
  import opened Events

  /** `__inactivity_threshold__`, in seconds (extractors.py:328). */
  const Threshold: int := 300

  datatype Times = Times(solution: int, interaction: int, reference: Option<int>)

  /** Both times zero, no reference (extractors.py:401-403). */
  const Start: Times := Times(0, 0, None)

  /** `datetime.strptime(dt[:-4], '%Y-%m-%d %H:%M:%S')`, in seconds. */
  function TimeOf(line: string, toTime: string -> Option<int>): Option<int> {
    toTime(DropLast(Parts(line).stamp, 4))
  }

  /** A correct submission: the scan stops after it. */
  predicate IsStop(e: Event) {
    e.name == "submit" && StartsWith(e.message, "Congrat")
  }

  /** One line: the new times, and whether the scan stops. */
  function Step(st: Times, line: string, lo: int, hi: int, toTime: string -> Option<int>): (r: (Times, bool))
    ensures r.0.interaction - r.0.solution >= st.interaction - st.solution
    ensures st.reference.None? ==> r.0.solution == st.solution && r.0.interaction == st.interaction
    ensures r.1 ==> IsStop(Parts(line))
    ensures TimeOf(line, toTime).None? ==> r == (st, false)
    ensures TimeOf(line, toTime).Some? && !(lo <= TimeOf(line, toTime).value <= hi) ==> r == (st, false)
    ensures TimeOf(line, toTime).Some? && lo <= TimeOf(line, toTime).value <= hi ==>
      var t := TimeOf(line, toTime).value;
      var name := Parts(line).name;
      && (name == "blur" ==> r == (st.(reference := None), false))
      && (name == "focus" ==> r == (st.(reference := Some(t)), false))
      && (name != "blur" && name != "focus" ==>
            && r.1 == IsStop(Parts(line))
            && (st.reference.None? ==> r.0 == st)
            && (st.reference.Some? ==>
                  var gap := t - st.reference.value;
                  r.0 == Times(st.solution + (if gap < Threshold then gap else 0), st.interaction + gap, Some(t))))
  {
    var e := Parts(line);
    match TimeOf(line, toTime)
    case None => (st, false)
    case Some(t) =>
      if t < lo || t > hi then (st, false)
      else if e.name == "blur" then (st.(reference := None), false)
      else if e.name == "focus" then (st.(reference := Some(t)), false)
      else
        var next :=
          match st.reference
          case None => st
          case Some(r) =>
            var gap := t - r;
            Times(if gap < Threshold then st.solution + gap else st.solution, st.interaction + gap, Some(t));
        (next, IsStop(e))
  }

  /** A scan from the first line on with any step that may stop it; `""`
      is the end of the file. */
  function Scan(step: (Times, string) -> (Times, bool), st: Times, lines: seq<string>): Times
    decreases |lines|
  {
    if |lines| == 0 || lines[0] == "" then st
    else
      var (next, stop) := step(st, lines[0]);
      if stop then next else Scan(step, next, lines[1..])
  }

  function Stepper(lo: int, hi: int, toTime: string -> Option<int>): (Times, string) -> (Times, bool) {
    (st: Times, line: string) => Step(st, line, lo, hi, toTime)
  }

  /** The scan of extractors.py:405-436. */
  function Run(st: Times, lines: seq<string>, lo: int, hi: int, toTime: string -> Option<int>): Times {
    Scan(Stepper(lo, hi, toTime), st, lines)
  }

  /** `(tempo_solucao, tempo_interacao)`, or `None` when they are never set:
      the file cannot be opened, there is no activity, or a window bound does
      not parse with `'%Y-%m-%d %H:%M'` (the exception is caught at
      extractors.py:518-522). */
  function SolutionTimes(
    content: Option<seq<string>>, window: Option<(string, string)>,
    toMinute: string -> Option<int>, toTime: string -> Option<int>): (r: Option<(int, int)>)
    ensures r.Some? ==> content.Some? && window.Some?
    ensures r.Some? ==> r.value.0 <= r.value.1
  {
    if content.None? || window.None? then None
    else
      match (toMinute(window.value.0), toMinute(window.value.1))
      case (Some(lo), Some(hi)) =>
        var times := Run(Start, content.value, lo, hi, toTime);
        RunWidensGap(Start, content.value, lo, hi, toTime);
        Some((times.solution, times.interaction))
      case _ => None
  }

  // ---------------------------------------------------------------------

  /** Interaction time grows at least as much as solution time, so solution
      time never exceeds interaction time. */
  lemma {:induction false} RunWidensGap(st: Times, lines: seq<string>, lo: int, hi: int, toTime: string -> Option<int>)
    ensures Run(st, lines, lo, hi, toTime).interaction - Run(st, lines, lo, hi, toTime).solution
      >= st.interaction - st.solution
    decreases |lines|
  {
    if |lines| > 0 && lines[0] != "" {
      var (next, stop) := Step(st, lines[0], lo, hi, toTime);
      assert Stepper(lo, hi, toTime)(st, lines[0]) == (next, stop);
      if !stop {
        RunWidensGap(next, lines[1..], lo, hi, toTime);
      }
    }
  }

  /** A line the step ignores makes no difference wherever it stands. */
  lemma {:induction false} ScanSkips(step: (Times, string) -> (Times, bool), st: Times, a: seq<string>, x: string, b: seq<string>)
    requires x != ""
    requires forall s: Times :: step(s, x) == (s, false)
    ensures Scan(step, st, a + [x] + b) == Scan(step, st, a + b)
    decreases |a|
  {
    if |a| == 0 {
      assert a + [x] + b == [x] + b;
      assert ([x] + b)[1..] == b;
      assert a + b == b;
    } else {
      assert (a + [x] + b)[0] == a[0] && (a + b)[0] == a[0];
      assert (a + [x] + b)[1..] == a[1..] + [x] + b;
      assert (a + b)[1..] == a[1..] + b;
      var (next, stop) := step(st, a[0]);
      if a[0] != "" && !stop {
        ScanSkips(step, next, a[1..], x, b);
      }
    }
  }

  /** Nothing after a line on which the step always stops is read. */
  lemma {:induction false} ScanStops(step: (Times, string) -> (Times, bool), st: Times, a: seq<string>, c: string, b: seq<string>)
    requires c != ""
    requires forall s: Times :: step(s, c).1
    ensures Scan(step, st, a + [c] + b) == Scan(step, st, a + [c])
    decreases |a|
  {
    if |a| == 0 {
      assert a + [c] + b == [c] + b;
      assert a + [c] == [c];
    } else {
      assert (a + [c] + b)[0] == a[0] && (a + [c])[0] == a[0];
      assert (a + [c] + b)[1..] == a[1..] + [c] + b;
      assert (a + [c])[1..] == a[1..] + [c];
      var (next, stop) := step(st, a[0]);
      if a[0] != "" && !stop {
        ScanStops(step, next, a[1..], c, b);
      }
    }
  }

  /** A line whose time does not parse or falls outside the window makes no
      difference wherever it stands, the reference time included. */
  lemma SkipsOutside(st: Times, a: seq<string>, x: string, b: seq<string>, lo: int, hi: int, toTime: string -> Option<int>)
    requires x != ""
    requires TimeOf(x, toTime).None? || TimeOf(x, toTime).value < lo || TimeOf(x, toTime).value > hi
    ensures Run(st, a + [x] + b, lo, hi, toTime) == Run(st, a + b, lo, hi, toTime)
  {
    var step := Stepper(lo, hi, toTime);
    forall s: Times ensures step(s, x) == (s, false) {
      assert step(s, x) == Step(s, x, lo, hi, toTime);
    }
    ScanSkips(step, st, a, x, b);
  }

  /** Nothing after a correct submission inside the window is read. */
  lemma StopsAtCongrat(st: Times, a: seq<string>, c: string, b: seq<string>, lo: int, hi: int, toTime: string -> Option<int>)
    requires IsStop(Parts(c))
    requires TimeOf(c, toTime).Some? && lo <= TimeOf(c, toTime).value <= hi
    ensures Run(st, a + [c] + b, lo, hi, toTime) == Run(st, a + [c], lo, hi, toTime)
  {
    assert |Parts(c).name| == 6;
    assert c != "";
    var step := Stepper(lo, hi, toTime);
    forall s: Times ensures step(s, c).1 {
      assert step(s, c) == Step(s, c, lo, hi, toTime);
      StepStopsOn(s, c, lo, hi, toTime);
    }
    ScanStops(step, st, a, c, b);
  }

  lemma StepStopsOn(st: Times, c: string, lo: int, hi: int, toTime: string -> Option<int>)
    requires IsStop(Parts(c))
    requires TimeOf(c, toTime).Some? && lo <= TimeOf(c, toTime).value <= hi
    ensures Step(st, c, lo, hi, toTime).1
  {
    var name := Parts(c).name;
    assert name == "submit";
    assert |name| == 6;
    assert name != "blur" && name != "focus";
  }

  // ---------------------------------------------------------------------
  // On a chronological log the times fit in the window

  /** The parsed times never go backwards. */
  predicate Chronological(lines: seq<string>, toTime: string -> Option<int>) {
    forall i, j :: 0 <= i < j < |lines| && TimeOf(lines[i], toTime).Some? && TimeOf(lines[j], toTime).Some? ==>
      TimeOf(lines[i], toTime).value <= TimeOf(lines[j], toTime).value
  }

  /** What the scan keeps while the log is chronological, `last` being the
      latest time read inside the window (or the window's start): the times
      so far fit between the start of the window and `last`, and so does the
      reference. */
  predicate Fits(st: Times, last: int, lo: int, hi: int) {
    && lo <= last && (last == lo || last <= hi)
    && 0 <= st.solution <= st.interaction <= last - lo
    && (st.reference.Some? ==> lo <= st.reference.value <= last && st.interaction <= st.reference.value - lo)
  }

  lemma StepFits(st: Times, line: string, last: int, lo: int, hi: int, toTime: string -> Option<int>)
    requires Fits(st, last, lo, hi)
    requires TimeOf(line, toTime).Some? && lo <= TimeOf(line, toTime).value <= hi ==> TimeOf(line, toTime).value >= last
    ensures var t := TimeOf(line, toTime);
      Fits(Step(st, line, lo, hi, toTime).0, if t.Some? && lo <= t.value <= hi then t.value else last, lo, hi)
  {
  }

  lemma {:induction false} RunFits(st: Times, lines: seq<string>, last: int, lo: int, hi: int, toTime: string -> Option<int>)
    requires Fits(st, last, lo, hi)
    requires Chronological(lines, toTime)
    requires forall i :: 0 <= i < |lines| && TimeOf(lines[i], toTime).Some? && lo <= TimeOf(lines[i], toTime).value <= hi ==>
      TimeOf(lines[i], toTime).value >= last
    ensures exists last' :: Fits(Run(st, lines, lo, hi, toTime), last', lo, hi)
    decreases |lines|
  {
    if |lines| == 0 || lines[0] == "" {
      assert Run(st, lines, lo, hi, toTime) == st;
      assert Fits(Run(st, lines, lo, hi, toTime), last, lo, hi);
    } else {
      var line := lines[0];
      var t := TimeOf(line, toTime);
      var last' := if t.Some? && lo <= t.value <= hi then t.value else last;
      assert TimeOf(lines[0], toTime).Some? && lo <= TimeOf(lines[0], toTime).value <= hi ==> TimeOf(lines[0], toTime).value >= last;
      StepFits(st, line, last, lo, hi, toTime);
      var (next, stop) := Step(st, line, lo, hi, toTime);
      assert Stepper(lo, hi, toTime)(st, line) == (next, stop);
      if stop {
        assert Run(st, lines, lo, hi, toTime) == next;
        assert Fits(Run(st, lines, lo, hi, toTime), last', lo, hi);
      } else {
        var rest := lines[1..];
        forall i | 0 <= i < |rest| && TimeOf(rest[i], toTime).Some? && lo <= TimeOf(rest[i], toTime).value <= hi
          ensures TimeOf(rest[i], toTime).value >= last'
        {
          assert rest[i] == lines[i + 1];
        }
        forall i, j | 0 <= i < j < |rest| && TimeOf(rest[i], toTime).Some? && TimeOf(rest[j], toTime).Some?
          ensures TimeOf(rest[i], toTime).value <= TimeOf(rest[j], toTime).value
        {
          assert rest[i] == lines[i + 1] && rest[j] == lines[j + 1];
        }
        RunFits(next, rest, last', lo, hi, toTime);
        assert Run(st, lines, lo, hi, toTime) == Run(next, rest, lo, hi, toTime);
      }
    }
  }

  /** On a chronological log both times are non-negative and the interaction
      time is at most the length of the activity's window. */
  lemma WithinWindow(lines: seq<string>, lo: int, hi: int, toTime: string -> Option<int>)
    requires Chronological(lines, toTime)
    ensures var r := Run(Start, lines, lo, hi, toTime);
      && 0 <= r.solution <= r.interaction
      && r.interaction <= if hi >= lo then hi - lo else 0
  {
    RunFits(Start, lines, lo, lo, hi, toTime);
  }
}

=== FILE: interaction_intervals.dfy ===
/** `CodebenchExtractor.__extract_solution_interval` (extractor.py:362-437):
    implementation and interaction time from a CodeMirror log by
    focus-to-blur intervals.

    The scan first skips to the first event at or after the activity's
    start. Then, repeatedly, it searches forward for a `focus` event (its
    own line is never looked at: the search increments the index first),
    then forward for a `blur` event. Every event parsed on the way updates
    the start or the end time. When no end time was read, or the end lies
    past the activity's end, the scan stops; otherwise an interval whose
    start is not after its end is added to the interaction time, and also
    to the implementation time when it is shorter than five minutes.

    The focus search also stops the whole scan at a `submit` event whose
    message starts with `Congr`, but the message it tests is the one the
    previous blur search read last (extractor.py:411 uses a variable that
    loop never assigns): before any blur search has parsed an event the
    test raises a `NameError`, which the loop's handler swallows. Both
    behaviours are modelled as written. Times are integers in whatever
    unit the parse functions return; the threshold is in microseconds,
    since the timestamps carry them (`'%Y-%m-%d %H:%M:%S.%f'`). */
module InteractionIntervals {
  import opened Wrappers
  import opened Text
  import opened Events

  /** `__inactivity_threshold`: five minutes, in microseconds
      (extractor.py:30). */
  const Threshold: int := 300_000_000

  datatype Times = Times(implementation: int, interaction: int)

  /** `__get_event_info` (extractor.py:440-445): the parsed date, the event
      name and the message, or `None` when the date does not parse. */
  function EventInfo(line: string, toTime: string -> Option<int>): (r: Option<(int, string, string)>)
    ensures r.Some? <==> toTime(Parts(line).stamp).Some?
    ensures r.Some? ==> r.value == (toTime(Parts(line).stamp).value, Parts(line).name, Parts(line).message)
  {
    var e := Parts(line);
    match toTime(e.stamp)
    case None => None
    case Some(t) => Some((t, e.name, e.message))
  }

  /** Every line's event info, in order: each loop parses the line it is
      at, and parsing has no side effects. */
  function Infos(lines: seq<string>, toTime: string -> Option<int>): (ev: seq<Option<(int, string, string)>>)
    ensures |ev| == |lines|
    ensures forall i :: 0 <= i < |lines| ==> ev[i] == EventInfo(lines[i], toTime)
  {
    seq(|lines|, i requires 0 <= i < |lines| => EventInfo(lines[i], toTime))
  }

  /** `__get_event_info(lines[i])` inside the loops' `try`: past the end the
      `IndexError` is swallowed like a parse failure. */
  function At(ev: seq<Option<(int, string, string)>>, i: nat): Option<(int, string, string)> {
    if i < |ev| then ev[i] else None
  }

  predicate Parsed(ev: seq<Option<(int, string, string)>>, i: nat) {
    i < |ev| && ev[i].Some?
  }

  function TimeAt(ev: seq<Option<(int, string, string)>>, i: nat): int
    requires Parsed(ev, i)
  {
    ev[i].value.0
  }

  function NameAt(ev: seq<Option<(int, string, string)>>, i: nat): string
    requires Parsed(ev, i)
  {
    ev[i].value.1
  }

  /** The first loop (extractor.py:388-397): the first parsed event at or
      after `lo`, or the end of the lines. */
  function FirstInWindow(ev: seq<Option<(int, string, string)>>, i: nat, lo: int): (k: nat)
    requires i <= |ev|
    ensures i <= k <= |ev|
    ensures k < |ev| ==> Parsed(ev, k) && TimeAt(ev, k) >= lo
    ensures forall m :: i <= m < k ==> !(Parsed(ev, m) && TimeAt(ev, m) >= lo)
    decreases |ev| - i
  {
    if i == |ev| then i
    else if Parsed(ev, i) && TimeAt(ev, i) >= lo then i
    else FirstInWindow(ev, i + 1, lo)
  }

  /** The focus search (extractor.py:403-415) from index `i`. The start time
      is kept as the index of the line it was read from; `None` is
      `start_datetime = None`. `msg` is the message the last blur search
      read, if any. The result is the index the search stops at and the
      start. */
  function FocusSearch(ev: seq<Option<(int, string, string)>>, i: nat, start: nat, msg: Option<string>): (r: (nat, Option<nat>))
    requires i <= |ev|
    requires start <= i && Parsed(ev, start)
    ensures i <= r.0 <= |ev|
    ensures i < |ev| ==> i < r.0
    ensures r.1.None? ==> r.0 == |ev|
    ensures r.1.Some? ==> Parsed(ev, r.1.value) && r.1.value <= r.0
    ensures r.1.Some? && r.0 < |ev| ==> i < r.1.value == r.0 && NameAt(ev, r.0) == "focus"
    decreases |ev| - i
  {
    if i == |ev| then (i, Some(start))
    else
      var j := i + 1;
      match At(ev, j)
      case None => FocusSearch(ev, j, start, msg)
      case Some((_, name, _)) =>
        if name == "focus" then (j, Some(j))
        else if name == "submit" && msg.Some? && StartsWith(msg.value, "Congr") then (|ev|, None)
        else FocusSearch(ev, j, j, msg)
  }

  /** The blur search (extractor.py:418-426) from index `i`: the index it
      stops at, the line the end time was last read from, and the last
      message read. */
  function BlurSearch(ev: seq<Option<(int, string, string)>>, i: nat, end: Option<nat>, msg: Option<string>): (r: (nat, Option<nat>, Option<string>))
    requires i <= |ev|
    requires end.Some? ==> end.value <= i && Parsed(ev, end.value)
    ensures i <= r.0 <= |ev|
    ensures r.1.Some? ==> r.1.value <= r.0 && Parsed(ev, r.1.value)
    ensures r.1 != end ==> r.1.Some? && i < r.1.value
    ensures r.0 < |ev| ==> r.1 == Some(r.0) && NameAt(ev, r.0) == "blur"
    decreases |ev| - i
  {
    if i == |ev| then (i, end, msg)
    else
      var j := i + 1;
      match At(ev, j)
      case None => BlurSearch(ev, j, end, msg)
      case Some((_, name, m)) =>
        if name == "blur" then (j, Some(j), Some(m))
        else BlurSearch(ev, j, Some(j), Some(m))
  }

  /** One interval added to the times: always to the interaction time, and
      to the implementation time only when shorter than the threshold. */
  function Add(acc: Times, gap: int): (r: Times)
    ensures r.interaction == acc.interaction + gap
    ensures r.implementation == acc.implementation + (if gap < Threshold then gap else 0)
  {
    Times(if gap < Threshold then acc.implementation + gap else acc.implementation, acc.interaction + gap)
  }

  /** The second loop (extractor.py:399-437) from index `i`, with the start
      read from line `start`. */
  function Loop(ev: seq<Option<(int, string, string)>>, i: nat, start: nat, msg: Option<string>, acc: Times, hi: int): Times
    requires i <= |ev|
    requires start <= i && Parsed(ev, start)
    decreases |ev| - i
  {
    if i == |ev| then acc
    else
      var (i1, s) := FocusSearch(ev, i, start, msg);
      var (i2, e, msg2) := BlurSearch(ev, i1, None, msg);
      if e.None? then acc
      else
        var end := TimeAt(ev, e.value);
        if end > hi then acc
        else
          var begin := TimeAt(ev, s.value);
          var next := if begin <= end then Add(acc, end - begin) else acc;
          Loop(ev, i2, s.value, msg2, next, hi)
  }

  /** `(t_implementacao, t_interacao)` for a CodeMirror log, or `None` when
      the call raises: the activity is missing or a window bound does not
      parse with `'%Y-%m-%d %H:%M'`; nothing in extractor.py:576-580
      catches it. */
  function SolutionInterval(lines: seq<string>, window: Option<(string, string)>,
    toMinute: string -> Option<int>, toTime: string -> Option<int>): (r: Option<Times>)
    ensures r.Some? <==> window.Some? && toMinute(window.value.0).Some? && toMinute(window.value.1).Some?
  {
    if window.None? then None
    else
      match (toMinute(window.value.0), toMinute(window.value.1))
      case (Some(lo), Some(hi)) =>
        var ev := Infos(lines, toTime);
        var k := FirstInWindow(ev, 0, lo);
        if k == |ev| then Some(Times(0, 0))
        else Some(Loop(ev, k, k, None, Times(0, 0), hi))
      case _ => None
  }

  // ---------------------------------------------------------------------

  /** Only non-negative intervals are added, and each one that counts as
      implementation counts as interaction too. */
  lemma {:induction false} LoopKeepsOrder(ev: seq<Option<(int, string, string)>>, i: nat, start: nat, msg: Option<string>, acc: Times, hi: int)
    requires i <= |ev|
    requires start <= i && Parsed(ev, start)
    requires 0 <= acc.implementation <= acc.interaction
    ensures var r := Loop(ev, i, start, msg, acc, hi);
      && acc.implementation <= r.implementation <= r.interaction && acc.interaction <= r.interaction
      && r.implementation - acc.implementation <= r.interaction - acc.interaction
    decreases |ev| - i
  {
    if i < |ev| {
      var (i1, s) := FocusSearch(ev, i, start, msg);
      var (i2, e, msg2) := BlurSearch(ev, i1, None, msg);
      if e.Some? {
        var end := TimeAt(ev, e.value);
        if end <= hi {
          var begin := TimeAt(ev, s.value);
          var next := if begin <= end then Add(acc, end - begin) else acc;
          LoopKeepsOrder(ev, i2, s.value, msg2, next, hi);
        }
      }
    }
  }

  /** A `focus` event right after line `i` followed at once by a `blur`
      event inside the window adds the interval between them, and the scan
      goes on from the blur with the blur's message. */
  lemma FocusBlurPair(ev: seq<Option<(int, string, string)>>, i: nat, start: nat, msg: Option<string>, acc: Times, hi: int)
    requires i + 2 < |ev|
    requires start <= i && Parsed(ev, start)
    requires Parsed(ev, i + 1) && NameAt(ev, i + 1) == "focus"
    requires Parsed(ev, i + 2) && NameAt(ev, i + 2) == "blur"
    requires TimeAt(ev, i + 1) <= TimeAt(ev, i + 2) <= hi
    ensures Loop(ev, i, start, msg, acc, hi)
      == Loop(ev, i + 2, i + 1, Some(ev[i + 2].value.2), Add(acc, TimeAt(ev, i + 2) - TimeAt(ev, i + 1)), hi)
  {
    assert FocusSearch(ev, i, start, msg) == (i + 1, Some(i + 1));
    assert BlurSearch(ev, i + 1, None, msg) == (i + 2, Some(i + 2), Some(ev[i + 2].value.2));
  }

  /** Implementation time never exceeds interaction time, and neither is
      negative. */
  lemma ImplementationWithinInteraction(lines: seq<string>, window: Option<(string, string)>,
    toMinute: string -> Option<int>, toTime: string -> Option<int>)
    ensures var r := SolutionInterval(lines, window, toMinute, toTime);
      r.Some? ==> 0 <= r.value.implementation <= r.value.interaction
  {
    if window.Some? && toMinute(window.value.0).Some? && toMinute(window.value.1).Some? {
      var ev := Infos(lines, toTime);
      var k := FirstInWindow(ev, 0, toMinute(window.value.0).value);
      if k < |ev| {
        LoopKeepsOrder(ev, k, k, None, Times(0, 0), toMinute(window.value.1).value);
      }
    }
  }

  // ---------------------------------------------------------------------
  // On a chronological log the intervals fit in the window

  predicate Chronological(ev: seq<Option<(int, string, string)>>) {
    forall i, j {:trigger TimeAt(ev, i), TimeAt(ev, j)} :: 0 <= i < j < |ev| && Parsed(ev, i) && Parsed(ev, j) ==> TimeAt(ev, i) <= TimeAt(ev, j)
  }

  function Span(lo: int, hi: int): int {
    if hi >= lo then hi - lo else 0
  }

  /** On a chronological log the intervals do not overlap: the interaction
      time so far is at most the time from the window's start to the event
      at `i`, where the previous interval ended. */
  lemma {:induction false} LoopFits(ev: seq<Option<(int, string, string)>>, i: nat, start: nat, msg: Option<string>, acc: Times, lo: int, hi: int)
    requires i <= |ev|
    requires start <= i && Parsed(ev, start)
    requires Chronological(ev)
    requires i < |ev| ==>
      && Parsed(ev, i) && lo <= TimeAt(ev, i)
      && acc.interaction <= TimeAt(ev, i) - lo
      && (acc.interaction == 0 || TimeAt(ev, i) <= hi)
    requires i == |ev| ==> acc.interaction <= Span(lo, hi)
    ensures Loop(ev, i, start, msg, acc, hi).interaction <= Span(lo, hi)
    decreases |ev| - i
  {
    if i < |ev| {
      var (i1, s) := FocusSearch(ev, i, start, msg);
      var (i2, e, msg2) := BlurSearch(ev, i1, None, msg);
      if e.None? || TimeAt(ev, e.value) > hi {
        assert Loop(ev, i, start, msg, acc, hi) == acc;
      } else {
        var end := TimeAt(ev, e.value);
        var begin := TimeAt(ev, s.value);
        assert i < s.value < e.value;
        ChronologicalPair(ev, i, s.value);
        ChronologicalPair(ev, s.value, e.value);
        var next := Add(acc, end - begin);
        assert Loop(ev, i, start, msg, acc, hi) == Loop(ev, i2, s.value, msg2, next, hi);
        LoopFits(ev, i2, s.value, msg2, next, lo, hi);
      }
    }
  }

  lemma ChronologicalPair(ev: seq<Option<(int, string, string)>>, a: nat, b: nat)
    requires Chronological(ev) && a < b && Parsed(ev, a) && Parsed(ev, b)
    ensures TimeAt(ev, a) <= TimeAt(ev, b)
  {
  }

  /** On a chronological log the interaction time is at most the length of
      the activity's window. */
  lemma WithinWindow(lines: seq<string>, window: Option<(string, string)>,
    toMinute: string -> Option<int>, toTime: string -> Option<int>)
    requires Chronological(Infos(lines, toTime))
    ensures var r := SolutionInterval(lines, window, toMinute, toTime);
      r.Some? ==> r.value.interaction <= Span(toMinute(window.value.0).value, toMinute(window.value.1).value)
  {
    if window.Some? && toMinute(window.value.0).Some? && toMinute(window.value.1).Some? {
      var ev := Infos(lines, toTime);
      var lo := toMinute(window.value.0).value;
      var k := FirstInWindow(ev, 0, lo);
      if k < |ev| {
        LoopFits(ev, k, k, None, Times(0, 0), lo, toMinute(window.value.1).value);
      }
    }
  }
}

=== FILE: solution_split.dfy ===
/** The script extract_solutions.py (lines 12-24): it splits the file of
    the professors' solutions into one `.code` file per exercise.

    A line whose stripped text ends with ` == SOLUCAO DO PROFESSOR ==>`
    opens the file named by its text before the first ` == `; every other
    line is written, unchanged, to the file opened last. Marker lines are
    never written. A line before the first marker is written to `None`,
    which raises, and the script stops. Opening a file for writing empties
    it, so when two markers name the same exercise only the later group
    survives. */
module SolutionSplit {
  import opened Wrappers
  import opened Text

  const MarkerEnd: string := " == SOLUCAO DO PROFESSOR ==>"

  /** A line of the file as the loop sees it. */
  datatype Line = Marker(code: string) | Body(text: string)

  /** The test at extract_solutions.py:15 and the name at line 16. */
  function Classify(line: string): (l: Line)
    ensures l.Marker? <==> EndsWith(Strip(line), MarkerEnd)
    ensures l.Marker? ==> !Contains(l.code, " == ")
    ensures l.Marker? && FindFrom(line, " == ", 0).Some? ==>
      |l.code| == FindFrom(line, " == ", 0).value && l.code == line[..|l.code|]
    ensures l.Body? ==> l.text == line
  {
    if EndsWith(Strip(line), MarkerEnd) then Marker(Split(line, " == ")[0]) else Body(line)
  }

  function Classified(lines: seq<string>): (ls: seq<Line>)
    ensures |ls| == |lines|
    ensures forall i :: 0 <= i < |lines| ==> ls[i] == Classify(lines[i])
  {
    seq(|lines|, i requires 0 <= i < |lines| => Classify(lines[i]))
  }

  /** One output file's worth: the exercise code and the lines written. */
  datatype Group = Group(code: string, lines: seq<string>)

  /** `output.write(line)`: the line goes to the group opened last. */
  function WriteLast(groups: seq<Group>, text: seq<string>): (r: seq<Group>)
    requires |groups| > 0
    ensures |r| == |groups| && r[..|r| - 1] == groups[..|groups| - 1]
    ensures r[|r| - 1] == Group(groups[|groups| - 1].code, groups[|groups| - 1].lines + text)
  {
    var last := groups[|groups| - 1];
    groups[..|groups| - 1] + [last.(lines := last.lines + text)]
  }

  /** One iteration of the loop; `None` once a write has raised. */
  function Step(groups: Option<seq<Group>>, line: Line): Option<seq<Group>> {
    match groups
    case None => None
    case Some(gs) =>
      match line
      case Marker(code) => Some(gs + [Group(code, [])])
      case Body(text) => if |gs| == 0 then None else Some(WriteLast(gs, [text]))
  }

  /** The loop over the rest of the file. */
  function Run(groups: Option<seq<Group>>, lines: seq<Line>): Option<seq<Group>>
    decreases |lines|
  {
    if |lines| == 0 then groups else Run(Step(groups, lines[0]), lines[1..])
  }

  /** The groups in the order their markers appear, or `None` when the
      script raises. */
  function SplitSolutions(lines: seq<string>): Option<seq<Group>> {
    Run(Some([]), Classified(lines))
  }

  // ---------------------------------------------------------------------
  // A reference reading, from the end of the file

  /** The body lines before the first marker, and the groups after it:
      each marker takes the body lines up to the next marker. */
  function Parse(lines: seq<Line>): (seq<string>, seq<Group>)
    decreases |lines|
  {
    if |lines| == 0 then ([], [])
    else
      var (lead, groups) := Parse(lines[1..]);
      match lines[0]
      case Marker(code) => ([], [Group(code, lead)] + groups)
      case Body(text) => ([text] + lead, groups)
  }

  lemma {:induction false} NoneStays(lines: seq<Line>)
    ensures Run(None, lines) == None
    decreases |lines|
  {
    if |lines| > 0 {
      NoneStays(lines[1..]);
    }
  }

  lemma WriteLastNothing(gs: seq<Group>)
    requires |gs| > 0
    ensures WriteLast(gs, []) == gs
  {
    var last := gs[|gs| - 1];
    assert last.lines + [] == last.lines;
    assert gs[..|gs| - 1] + [last] == gs;
  }

  lemma WriteLastOpened(gs: seq<Group>, code: string, text: seq<string>)
    ensures WriteLast(gs + [Group(code, [])], text) == gs + [Group(code, text)]
  {
    assert (gs + [Group(code, [])])[..|gs|] == gs;
    assert [] + text == text;
  }

  lemma WriteLastTwice(gs: seq<Group>, a: seq<string>, b: seq<string>)
    requires |gs| > 0
    ensures WriteLast(WriteLast(gs, a), b) == WriteLast(gs, a + b)
  {
    var once := WriteLast(gs, a);
    assert once[..|once| - 1] == gs[..|gs| - 1];
    assert gs[|gs| - 1].lines + a + b == gs[|gs| - 1].lines + (a + b);
  }

  /** From an opened group on, the loop appends the leading body lines to it
      and then the parsed groups. */
  lemma {:induction false} RunFromGroup(gs: seq<Group>, lines: seq<Line>)
    requires |gs| > 0
    ensures Run(Some(gs), lines) == Some(WriteLast(gs, Parse(lines).0) + Parse(lines).1)
    decreases |lines|
  {
    if |lines| == 0 {
      WriteLastNothing(gs);
      assert gs + [] == gs;
    } else {
      var (lead, groups) := Parse(lines[1..]);
      assert Run(Some(gs), lines) == Run(Step(Some(gs), lines[0]), lines[1..]);
      match lines[0]
      case Marker(code) =>
        var withNew := gs + [Group(code, [])];
        assert Step(Some(gs), lines[0]) == Some(withNew);
        assert Parse(lines) == ([], [Group(code, lead)] + groups);
        RunFromGroup(withNew, lines[1..]);
        WriteLastOpened(gs, code, lead);
        WriteLastNothing(gs);
        assert gs + [Group(code, lead)] + groups == gs + ([Group(code, lead)] + groups);
      case Body(text) =>
        var written := WriteLast(gs, [text]);
        assert Step(Some(gs), lines[0]) == Some(written);
        assert Parse(lines) == ([text] + lead, groups);
        RunFromGroup(written, lines[1..]);
        WriteLastTwice(gs, [text], lead);
    }
  }

  /** The loop agrees with the reference reading: it raises exactly when a
      body line comes before the first marker, and otherwise yields the
      parsed groups. */
  lemma SplitMeaning(lines: seq<string>)
    ensures var (lead, groups) := Parse(Classified(lines));
      SplitSolutions(lines) == if |lead| == 0 then Some(groups) else None
  {
    var ls := Classified(lines);
    if |ls| > 0 {
      var (lead2, groups2) := Parse(ls[1..]);
      match ls[0]
      case Marker(code) =>
        assert Step(Some([]), ls[0]) == Some([] + [Group(code, [])]);
        assert [] + [Group(code, [])] == [Group(code, [])];
        assert SplitSolutions(lines) == Run(Step(Some([]), ls[0]), ls[1..]);
        RunFromGroup([Group(code, [])], ls[1..]);
        WriteLastOpened([], code, lead2);
        assert [] + [Group(code, lead2)] == [Group(code, lead2)];
      case Body(text) =>
        NoneStays(ls[1..]);
    }
  }

  /** The script raises exactly when the file does not start with a marker. */
  lemma RaisesIff(lines: seq<string>)
    ensures SplitSolutions(lines).None? <==> |lines| > 0 && Classify(lines[0]).Body?
  {
    SplitMeaning(lines);
  }

  // ---------------------------------------------------------------------
  // What the reference reading keeps

  /** The codes of the markers, in file order. */
  function MarkerCodes(lines: seq<Line>): seq<string>
    decreases |lines|
  {
    if |lines| == 0 then []
    else (if lines[0].Marker? then [lines[0].code] else []) + MarkerCodes(lines[1..])
  }

  /** The body lines, in file order. */
  function BodyTexts(lines: seq<Line>): seq<string>
    decreases |lines|
  {
    if |lines| == 0 then []
    else (if lines[0].Body? then [lines[0].text] else []) + BodyTexts(lines[1..])
  }

  function Codes(groups: seq<Group>): seq<string>
    decreases |groups|
  {
    if |groups| == 0 then [] else [groups[0].code] + Codes(groups[1..])
  }

  function Written(groups: seq<Group>): seq<string>
    decreases |groups|
  {
    if |groups| == 0 then [] else groups[0].lines + Written(groups[1..])
  }

  /** One group per marker, in order, and every body line written once, in
      order, after the lines before the first marker. */
  lemma {:induction false} ParseKeeps(lines: seq<Line>)
    ensures Codes(Parse(lines).1) == MarkerCodes(lines)
    ensures Parse(lines).0 + Written(Parse(lines).1) == BodyTexts(lines)
    decreases |lines|
  {
    if |lines| > 0 {
      ParseKeeps(lines[1..]);
      var (lead, groups) := Parse(lines[1..]);
      match lines[0]
      case Marker(code) =>
        assert Codes([Group(code, lead)] + groups) == [code] + Codes(groups);
        assert Written([Group(code, lead)] + groups) == lead + Written(groups);
      case Body(text) =>
        assert [text] + lead + Written(groups) == [text] + (lead + Written(groups));
    }
  }

  /** When the script completes, it writes one group per marker line, named
      by that marker, holding together every other line of the file in
      order. */
  lemma SplitKeepsLines(lines: seq<string>)
    requires SplitSolutions(lines).Some?
    ensures Codes(SplitSolutions(lines).value) == MarkerCodes(Classified(lines))
    ensures Written(SplitSolutions(lines).value) == BodyTexts(Classified(lines))
  {
    SplitMeaning(lines);
    ParseKeeps(Classified(lines));
  }

  /** No marker line is ever written. */
  lemma {:induction false} ParseWritesNoMarker(lines: seq<Line>)
    ensures forall g :: g in Parse(lines).1 ==> forall t :: t in g.lines ==> Body(t) in lines
    ensures forall t :: t in Parse(lines).0 ==> Body(t) in lines
    decreases |lines|
  {
    if |lines| > 0 {
      ParseWritesNoMarker(lines[1..]);
    }
  }

  // ---------------------------------------------------------------------
  // The files left on disk

  /** The content of each `.code` file after the run: opening a file again
      empties it, so a later group replaces an earlier one. */
  function Files(groups: seq<Group>): map<string, seq<string>>
    decreases |groups|
  {
    if |groups| == 0 then map[]
    else Files(groups[..|groups| - 1])[groups[|groups| - 1].code := groups[|groups| - 1].lines]
  }

  /** A file exists for every code, holding the lines of the last group
      with that code. */
  lemma FilesMeaning(groups: seq<Group>, code: string)
    ensures code in Files(groups) <==> exists k :: 0 <= k < |groups| && groups[k].code == code
    ensures code in Files(groups) ==>
      exists k :: (0 <= k < |groups| && groups[k].code == code && Files(groups)[code] == groups[k].lines
        && forall j :: k < j < |groups| ==> groups[j].code != code)
  {
    FilesDomain(groups, code);
    if code in Files(groups) {
      var k := FilesLastGroup(groups, code);
    }
  }

  lemma {:induction false} FilesDomain(groups: seq<Group>, code: string)
    ensures code in Files(groups) <==> exists k :: 0 <= k < |groups| && groups[k].code == code
    decreases |groups|
  {
    if |groups| > 0 {
      var init := groups[..|groups| - 1];
      var last := |groups| - 1;
      FilesDomain(init, code);
      assert Files(groups) == Files(init)[groups[last].code := groups[last].lines];
      if groups[last].code != code {
        assert code in Files(groups) <==> code in Files(init);
        if code in Files(init) {
          var k :| 0 <= k < |init| && init[k].code == code;
          assert groups[k] == init[k];
        }
        if exists k :: 0 <= k < |groups| && groups[k].code == code {
          var k :| 0 <= k < |groups| && groups[k].code == code;
          assert init[k] == groups[k];
        }
      }
    }
  }

  /** The index of the last group with the code; its lines are the file's. */
  lemma {:induction false} FilesLastGroup(groups: seq<Group>, code: string) returns (k: nat)
    requires code in Files(groups)
    ensures k < |groups| && groups[k].code == code && Files(groups)[code] == groups[k].lines
    ensures forall j :: k < j < |groups| ==> groups[j].code != code
    decreases |groups|
  {
    var init := groups[..|groups| - 1];
    var last := |groups| - 1;
    assert Files(groups) == Files(init)[groups[last].code := groups[last].lines];
    if groups[last].code == code {
      k := last;
    } else {
      k := FilesLastGroup(init, code);
      assert groups[k] == init[k];
      forall j | k < j < |groups|
        ensures groups[j].code != code
      {
        if j < last {
          assert groups[j] == init[j];
        }
      }
    }
  }
}

=== FILE: solution_stamps.dfy ===
/** `ControllerExecucao.__get_solution_interval` (controllers.py:370-405):
    the first and last moments of a student's work on an exercise, read off
    the CodeMirror log.

    `data_inicio` is the timestamp that starts the first line beginning
    with one; `data_termino` is read from the last line that begins with a
    timestamp followed by `#submit#Congratulations, your code is correct!`.
    Both searches index past the end of the list when nothing matches; the
    caller catches that (controllers.py:493-496), so whatever was set
    before stays. The source stores the whole match of the second pattern,
    message included, as `data_termino`; `Interval` stores the timestamp,
    and `IntervalAsWritten` keeps the source's behaviour. */
module SolutionStamps {
  import opened Wrappers
  import opened Text

  /** `\d`, read as ASCII digits. */
  predicate IsDigit(c: char) {
    '0' <= c <= '9'
  }

  /** `(\d{2}):(\d{2}):(\d{2}).(\d{3})` at position `b`: twelve characters,
      the `.` being any character but a newline. */
  predicate ClockAt(s: string, b: nat) {
    && b + 12 <= |s|
    && IsDigit(s[b]) && IsDigit(s[b + 1]) && s[b + 2] == ':'
    && IsDigit(s[b + 3]) && IsDigit(s[b + 4]) && s[b + 5] == ':'
    && IsDigit(s[b + 6]) && IsDigit(s[b + 7]) && s[b + 8] != '\n'
    && IsDigit(s[b + 9]) && IsDigit(s[b + 10]) && IsDigit(s[b + 11])
  }

  /** A whole timestamp of the pattern
      `(\d{4})-(\d{1,2})-(\d{1,2}) (\d{2}):(\d{2}):(\d{2}).(\d{3})`, with
      an `m`-digit month and a `d`-digit day. */
  predicate StampShape(s: string, m: nat, d: nat) {
    && 1 <= m <= 2 && 1 <= d <= 2
    && |s| == 19 + m + d
    && IsDigit(s[0]) && IsDigit(s[1]) && IsDigit(s[2]) && IsDigit(s[3]) && s[4] == '-'
    && (forall k :: 5 <= k < 5 + m ==> IsDigit(s[k]))
    && s[5 + m] == '-'
    && (forall k :: 6 + m <= k < 6 + m + d ==> IsDigit(s[k]))
    && s[6 + m + d] == ' '
    && ClockAt(s, 7 + m + d)
  }

  /** `s` is a timestamp the pattern matches entirely. */
  predicate IsStamp(s: string) {
    exists m: nat, d: nat | 1 <= m <= 2 && 1 <= d <= 2 :: StampShape(s, m, d)
  }

  /** `\d{1,2}` followed by `sep`, from position `at`: the position after
      `sep`. The quantifier is greedy, and backing off to one digit cannot
      help when a second digit stands where `sep` would have to be. */
  function DigitsThen(s: string, at: nat, sep: char): Option<nat> {
    if at + 2 < |s| && IsDigit(s[at]) && IsDigit(s[at + 1]) then
      if s[at + 2] == sep then Some(at + 3) else None
    else if at + 1 < |s| && IsDigit(s[at]) && s[at + 1] == sep then Some(at + 2)
    else None
  }

  /** The length of the timestamp `re.search` finds at the start of `line`
      (the pattern is anchored with `^`), or `None`. */
  function StampLength(line: string): Option<nat> {
    if |line| >= 5 && IsDigit(line[0]) && IsDigit(line[1]) && IsDigit(line[2]) && IsDigit(line[3]) && line[4] == '-' then
      match DigitsThen(line, 5, '-')
      case None => None
      case Some(a) =>
        match DigitsThen(line, a, ' ')
        case None => None
        case Some(b) => if ClockAt(line, b) then Some(b + 12) else None
    else None
  }

  /** The message of the second pattern. */
  const Congrats: string := "#submit#Congratulations, your code is correct!"

  /** `m.group(0)` of the first pattern (controllers.py:385-391). */
  function StartOf(line: string): Option<string> {
    match StampLength(line)
    case None => None
    case Some(n) => Some(line[..n])
  }

  /** `m.group(0)` of the second pattern (controllers.py:396-402): the
      timestamp and the message. */
  function EndOfAsWritten(line: string): Option<string> {
    match StampLength(line)
    case None => None
    case Some(n) => if StartsWith(line[n..], Congrats) then Some(line[..n + |Congrats|]) else None
  }

  /** `m.group(1)` of the second pattern: the timestamp alone. */
  function EndOf(line: string): Option<string> {
    match StampLength(line)
    case None => None
    case Some(n) => if StartsWith(line[n..], Congrats) then Some(line[..n]) else None
  }

  /** The first loop (controllers.py:383-392): the index of the first line
      `found` accepts. */
  function FirstFound(lines: seq<string>, i: nat, found: string -> Option<string>): (r: Option<nat>)
    ensures r.Some? ==> i <= r.value < |lines| && found(lines[r.value]).Some?
    ensures r.Some? ==> forall k :: i <= k < r.value ==> found(lines[k]).None?
    ensures r.None? ==> forall k :: i <= k < |lines| ==> found(lines[k]).None?
    decreases |lines| - i
  {
    if i >= |lines| then None
    else if found(lines[i]).Some? then Some(i)
    else FirstFound(lines, i + 1, found)
  }

  /** The second loop (controllers.py:394-403), indexing from `-1` down:
      the index of the last line `found` accepts. */
  function LastFound(lines: seq<string>, found: string -> Option<string>): (r: Option<nat>)
    ensures r.Some? ==> r.value < |lines| && found(lines[r.value]).Some?
    ensures r.Some? ==> forall k :: r.value < k < |lines| ==> found(lines[k]).None?
    ensures r.None? ==> forall k :: 0 <= k < |lines| ==> found(lines[k]).None?
    decreases |lines|
  {
    if |lines| == 0 then None
    else if found(lines[|lines| - 1]).Some? then Some(|lines| - 1)
    else
      var r := LastFound(lines[..|lines| - 1], found);
      assert forall k :: 0 <= k < |lines| - 1 ==> lines[..|lines| - 1][k] == lines[k];
      r
  }

  /** `data_inicio` and `data_termino` after the call, both `None` before
      it. */
  datatype Stamps = Stamps(start: Option<string>, end: Option<string>)

  /** The two searches, the second reading its value with `endOf`. A failed
      first search raises before anything is stored; a failed second one
      after `data_inicio` is. */
  function IntervalWith(lines: seq<string>, endOf: string -> Option<string>): Stamps {
    match FirstFound(lines, 0, StartOf)
    case None => Stamps(None, None)
    case Some(i) =>
      match LastFound(lines, endOf)
      case None => Stamps(StartOf(lines[i]), None)
      case Some(j) => Stamps(StartOf(lines[i]), endOf(lines[j]))
  }

  /** The fields as the source sets them. */
  function IntervalAsWritten(lines: seq<string>): Stamps {
    IntervalWith(lines, EndOfAsWritten)
  }

  /** The fields with `data_termino` a timestamp like `data_inicio`. */
  function Interval(lines: seq<string>): Stamps {
    IntervalWith(lines, EndOf)
  }

  // ---------------------------------------------------------------------
  // The timestamp pattern

  lemma DigitsThenMeaning(s: string, at: nat, sep: char, n: nat)
    requires !IsDigit(sep)
    ensures DigitsThen(s, at, sep) == Some(n) <==>
      && at + 2 <= n <= at + 3 && n <= |s|
      && (forall k :: at <= k < n - 1 ==> IsDigit(s[k]))
      && s[n - 1] == sep
  {
  }

  /** The search finds a timestamp of length `n` exactly when the first `n`
      characters of the line are one; so there is at most one. */
  lemma StampLengthMeaning(line: string, n: nat)
    requires n <= |line|
    ensures StampLength(line) == Some(n) <==> IsStamp(line[..n])
  {
    if StampLength(line) == Some(n) {
      FoundIsStamp(line);
    }
    if IsStamp(line[..n]) {
      StampIsFound(line, n);
    }
  }

  lemma FoundIsStamp(line: string)
    requires StampLength(line).Some?
    ensures IsStamp(line[..StampLength(line).value])
  {
    var n := StampLength(line).value;
    var s := line[..n];
    var a := DigitsThen(line, 5, '-').value;
    var b := DigitsThen(line, a, ' ').value;
    DigitsThenMeaning(line, 5, '-', a);
    DigitsThenMeaning(line, a, ' ', b);
    assert forall k :: 0 <= k < n ==> s[k] == line[k];
    assert StampShape(s, a - 6, b - a - 1);
  }

  lemma StampIsFound(line: string, n: nat)
    requires n <= |line| && IsStamp(line[..n])
    ensures StampLength(line) == Some(n)
  {
    var s := line[..n];
    var m: nat, d: nat :| 1 <= m <= 2 && 1 <= d <= 2 && StampShape(s, m, d);
    assert n == 19 + m + d;
    assert forall k :: 0 <= k < n ==> s[k] == line[k];
    assert forall k :: 5 <= k < 5 + m ==> IsDigit(line[k]);
    DigitsThenMeaning(line, 5, '-', 6 + m);
    assert forall k :: 6 + m <= k < 6 + m + d ==> IsDigit(line[k]);
    DigitsThenMeaning(line, 6 + m, ' ', 7 + m + d);
    assert ClockAt(line, 7 + m + d);
  }

  /** What the first search stores is a timestamp, and it starts the line. */
  lemma StartIsStamp(line: string)
    ensures StartOf(line).Some? <==> exists n: nat :: n <= |line| && IsStamp(line[..n])
    ensures StartOf(line).Some? ==> IsStamp(StartOf(line).value) && StartsWith(line, StartOf(line).value)
  {
    if StartOf(line).Some? {
      FoundIsStamp(line);
    }
    if exists n: nat :: n <= |line| && IsStamp(line[..n]) {
      var n: nat :| n <= |line| && IsStamp(line[..n]);
      StampIsFound(line, n);
    }
  }

  /** A line the second pattern matches is matched by the first one too,
      and the corrected reading stores the same text from it. */
  lemma EndLineIsStartLine(line: string)
    ensures EndOf(line).Some? ==> StartOf(line) == EndOf(line)
    ensures EndOfAsWritten(line).Some? <==> EndOf(line).Some?
  {
  }

  // ---------------------------------------------------------------------
  // The interval

  /** `data_inicio` is found exactly when some line starts with a
      timestamp, and `data_termino` exactly when some line is a
      congratulated submission; the first is then never later in the log
      than the second. */
  lemma IntervalMeaning(lines: seq<string>)
    ensures Interval(lines).start.Some? <==> exists k :: 0 <= k < |lines| && StartOf(lines[k]).Some?
    ensures Interval(lines).end.Some? <==> exists k :: 0 <= k < |lines| && EndOf(lines[k]).Some?
    ensures Interval(lines).end.Some? ==>
      FirstFound(lines, 0, StartOf).value <= LastFound(lines, EndOf).value
  {
    var first := FirstFound(lines, 0, StartOf);
    var last := LastFound(lines, EndOf);
    if last.Some? {
      EndLineIsStartLine(lines[last.value]);
      assert first.Some? && first.value <= last.value;
    }
  }

  /** Both stored values are timestamps. */
  lemma IntervalStoresStamps(lines: seq<string>)
    ensures Interval(lines).start.Some? ==> IsStamp(Interval(lines).start.value)
    ensures Interval(lines).end.Some? ==> IsStamp(Interval(lines).end.value)
  {
    var first := FirstFound(lines, 0, StartOf);
    var last := LastFound(lines, EndOf);
    if first.Some? {
      StartIsStamp(lines[first.value]);
      if last.Some? {
        EndLineIsStartLine(lines[last.value]);
        StartIsStamp(lines[last.value]);
      }
    }
  }

  /** The source finds the same lines; only what it stores as
      `data_termino` differs: the timestamp with the message after it, which
      is not a timestamp. */
  lemma AsWrittenEndCarriesMessage(lines: seq<string>)
    ensures IntervalAsWritten(lines).start == Interval(lines).start
    ensures IntervalAsWritten(lines).end.Some? <==> Interval(lines).end.Some?
    ensures IntervalAsWritten(lines).end.Some? ==>
      && IntervalAsWritten(lines).end.value == Interval(lines).end.value + Congrats
      && !IsStamp(IntervalAsWritten(lines).end.value)
  {
    var last := LastFound(lines, EndOf);
    var lastAsWritten := LastFound(lines, EndOfAsWritten);
    forall k | 0 <= k < |lines| ensures EndOfAsWritten(lines[k]).Some? <==> EndOf(lines[k]).Some? {
      EndLineIsStartLine(lines[k]);
    }
    SameLastFound(lines, EndOfAsWritten, EndOf);
    if last.Some? {
      var line := lines[last.value];
      var n := StampLength(line).value;
      assert line[..n + |Congrats|] == line[..n] + Congrats by {
        assert line[n..][..|Congrats|] == Congrats;
      }
      assert |line[..n + |Congrats|]| > 23;
    }
  }

  /** Two matchers that accept the same lines find the same last one. */
  lemma SameLastFound(lines: seq<string>, f: string -> Option<string>, g: string -> Option<string>)
    requires forall k :: 0 <= k < |lines| ==> (f(lines[k]).Some? <==> g(lines[k]).Some?)
    ensures LastFound(lines, f) == LastFound(lines, g)
  {
    var a := LastFound(lines, f);
    var b := LastFound(lines, g);
    if a.Some? && b.Some? {
      assert !(a.value < b.value) && !(b.value < a.value);
    }
  }

  /** The log line of a correct submission, as the source stores it. */
  lemma CongratulatedLine()
    ensures IntervalAsWritten([SampleStamp + Congrats + "\n"]).end == Some(SampleStamp + Congrats)
    ensures Interval([SampleStamp + Congrats + "\n"]).end == Some(SampleStamp)
  {
    var line := SampleStamp + Congrats + "\n";
    SampleLineStamp();
    assert line[23..][..|Congrats|] == Congrats by {
      Halves(SampleStamp + Congrats, "\n");
      Halves(SampleStamp, Congrats);
    }
  }

  const SampleStamp: string := "2020-03-01 10:00:00.000"

  lemma SampleLineStamp()
    ensures var line := SampleStamp + Congrats + "\n";
      StampLength(line) == Some(23) && line[..23] == SampleStamp && line[..23 + |Congrats|] == SampleStamp + Congrats
  {
    var line := SampleStamp + Congrats + "\n";
    Halves(SampleStamp + Congrats, "\n");
    Halves(SampleStamp, Congrats);
    SampleIsStamp();
    assert |SampleStamp| == 23 && line[..23] == (SampleStamp + Congrats)[..23] == SampleStamp;
    StampIsFound(line, 23);
  }

  lemma SampleIsStamp()
    ensures IsStamp(SampleStamp)
  {
    assert StampShape(SampleStamp, 2, 2);
  }

  lemma Halves(a: string, b: string)
    ensures (a + b)[..|a|] == a && (a + b)[|a|..] == b
  {
  }
}

=== FILE: sorting.dfy ===
/** `list.sort()` on a list of ints: the result is ascending and holds the
    same ids with the same multiplicities. */
module Sorting {

  predicate Sorted(s: seq<int>) {
    forall i, j :: 0 <= i < j < |s| ==> s[i] <= s[j]
  }

  /** Insert `x` into an ascending list, keeping it ascending. */
  function Insert(x: int, s: seq<int>): (r: seq<int>)
    requires Sorted(s)
    ensures Sorted(r)
    ensures multiset(r) == multiset(s) + multiset{x}
    ensures |r| == |s| + 1
    ensures r[0] == if |s| == 0 || x <= s[0] then x else s[0]
  {
    if |s| == 0 then [x]
    else if x <= s[0] then [x] + s
    else
      var rest := Insert(x, s[1..]);
      assert s == [s[0]] + s[1..];
      assert s[0] <= rest[0];
      [s[0]] + rest
  }

  /** The ascending rearrangement of `s`. */
  function Sort(s: seq<int>): (r: seq<int>)
    ensures Sorted(r)
    ensures multiset(r) == multiset(s)
    ensures |r| == |s|
  {
    if |s| == 0 then []
    else
      assert s == [s[0]] + s[1..];
      Insert(s[0], Sort(s[1..]))
  }

  /** Sorting an already ascending list leaves it as it is. */
  lemma {:induction false} SortOfSorted(s: seq<int>)
    requires Sorted(s)
    ensures Sort(s) == s
  {
    if |s| > 0 {
      SortOfSorted(s[1..]);
      assert Sort(s[1..]) == s[1..];
      if |s| > 1 {
        assert s[0] <= s[1];
      }
    }
  }
}

=== FILE: students.dfy ===
/** The student-profile parsers of `user.data`, in both generations.

    The first generation (`EstudanteExtractor.__get_data_from_file`,
    extractors.py:224-260; `__extract_estudante_info_from_file`,
    extractor.py:209-236; `ControllerEstudante.__get_data_from_file`,
    controllers.py:218-254) strips each line and walks an `if/elif` chain
    of short prefixes; course and institution lines count only at 0-based
    indices 1 to 4. The value is the text from two characters after the
    first `:`.

    The second generation (`ControllerEstudante.__get_file_data`,
    controller/estudante.py:64-107) lower-cases and strips each line and
    takes a field only at its own 1-based line number with its full prefix;
    the value is the trimmed text after the last `:`.

    Every line is visited once and a later assignment overwrites an
    earlier one, so both are one loop over the lines, parameterised by the
    generation. */
module Students {
  import opened Wrappers
  import opened Text

  datatype Generation =
    | /** extractors.py, extractor.py, controllers.py */ PrefixFirst
    | /** controller/estudante.py */ SlotKeyed

  /** The attributes of an `Estudante`; `None` is Python's `None` (first
      generation) or a key missing from the dictionary (second). */
  datatype Profile = Profile(
    courseId: Option<int>,
    courseName: Option<string>,
    institutionId: Option<int>,
    institutionName: Option<string>,
    schoolName: Option<string>,
    schoolType: Option<string>,
    shift: Option<string>,
    graduationYear: Option<int>,
    sex: Option<string>,
    birthYear: Option<int>,
    civilStatus: Option<string>,
    hasKids: Option<bool>
  )

  const Empty: Profile := Profile(None, None, None, None, None, None, None, None, None, None, None, None)

  datatype Field =
    | CourseId | CourseName | InstitutionId | InstitutionName
    | SchoolName | SchoolType | Shift | GraduationYear
    | Sex | BirthYear | CivilStatus | HasKids
    | Ignored

  /** What one line assigns to a field. */
  datatype Val = IntVal(i: Option<int>) | TextVal(t: Option<string>) | FlagVal(b: Option<bool>)

  predicate IsIntField(f: Field) {
    f == CourseId || f == InstitutionId || f == GraduationYear || f == BirthYear
  }

  /** The value of a field, as a `Val`. */
  function Get(s: Profile, f: Field): Val
    requires f != Ignored
  {
    match f
    case CourseId => IntVal(s.courseId)
    case CourseName => TextVal(s.courseName)
    case InstitutionId => IntVal(s.institutionId)
    case InstitutionName => TextVal(s.institutionName)
    case SchoolName => TextVal(s.schoolName)
    case SchoolType => TextVal(s.schoolType)
    case Shift => TextVal(s.shift)
    case GraduationYear => IntVal(s.graduationYear)
    case Sex => TextVal(s.sex)
    case BirthYear => IntVal(s.birthYear)
    case CivilStatus => TextVal(s.civilStatus)
    case HasKids => FlagVal(s.hasKids)
  }

  /** The value kind each field holds. */
  predicate Fits(f: Field, v: Val) {
    f != Ignored &&
    if IsIntField(f) then v.IntVal? else if f == HasKids then v.FlagVal? else v.TextVal?
  }

  /** The assignment `estudante.<field> = v`. */
  function Set(s: Profile, f: Field, v: Val): (r: Profile)
    requires Fits(f, v)
  {
    match f
    case CourseId => s.(courseId := v.i)
    case CourseName => s.(courseName := v.t)
    case InstitutionId => s.(institutionId := v.i)
    case InstitutionName => s.(institutionName := v.t)
    case SchoolName => s.(schoolName := v.t)
    case SchoolType => s.(schoolType := v.t)
    case Shift => s.(shift := v.t)
    case GraduationYear => s.(graduationYear := v.i)
    case Sex => s.(sex := v.t)
    case BirthYear => s.(birthYear := v.i)
    case CivilStatus => s.(civilStatus := v.t)
    case HasKids => s.(hasKids := v.b)
  }

  /** An assignment sets its own field and no other. */
  lemma GetSet(s: Profile, f: Field, v: Val, g: Field)
    requires Fits(f, v) && g != Ignored
    ensures Get(Set(s, f, v), g) == if g == f then v else Get(s, g)
  {
  }

  // ---------------------------------------------------------------------
  // The line rules of each generation

  /** The first line index `enumerate` gives. */
  function Start(gen: Generation): nat {
    if gen == PrefixFirst then 0 else 1
  }

  /** `line.strip()`, or `line.lower().strip()` */
  function Clean(gen: Generation, raw: string): string {
    if gen == PrefixFirst then Strip(raw) else Normalize(raw)
  }

  /** The first generation's `if/elif` chain. */
  function PrefixField(line: string, index: nat): Field {
    if StartsWith(line, "---- cou") && index == 1 then CourseId
    else if StartsWith(line, "---- cou") && index == 2 then CourseName
    else if StartsWith(line, "---- in") && index == 3 then InstitutionId
    else if StartsWith(line, "---- in") && index == 4 then InstitutionName
    else if StartsWith(line, "---- hi") then SchoolName
    else if StartsWith(line, "---- sch") then SchoolType
    else if StartsWith(line, "---- shi") then Shift
    else if StartsWith(line, "---- gr") then GraduationYear
    else if StartsWith(line, "---- sex") then Sex
    else if StartsWith(line, "---- year o") then BirthYear
    else if StartsWith(line, "---- civ") then CivilStatus
    else if StartsWith(line, "---- hav") then HasKids
    else Ignored
  }

  /** The 1-based line number of each field in the second generation. */
  function Slot(f: Field): nat
    requires f != Ignored
  {
    match f
    case CourseId => 2
    case CourseName => 3
    case InstitutionId => 4
    case InstitutionName => 5
    case SchoolName => 7
    case SchoolType => 8
    case Shift => 9
    case GraduationYear => 10
    case Sex => 28
    case BirthYear => 29
    case CivilStatus => 30
    case HasKids => 31
  }

  /** The full prefix of each field in the second generation. */
  function FullPrefix(f: Field): string
    requires f != Ignored
  {
    match f
    case CourseId => "---- course id:"
    case CourseName => "---- course name:"
    case InstitutionId => "---- institution id:"
    case InstitutionName => "---- institution name:"
    case SchoolName => "---- high school name:"
    case SchoolType => "---- school type:"
    case Shift => "---- shift:"
    case GraduationYear => "---- graduation year:"
    case Sex => "---- sex:"
    case BirthYear => "---- year of birth:"
    case CivilStatus => "---- civil status:"
    case HasKids => "---- have kids:"
  }

  /** The field at each line number, if any. */
  function SlotField(index: nat): Field {
    match index
    case 2 => CourseId
    case 3 => CourseName
    case 4 => InstitutionId
    case 5 => InstitutionName
    case 7 => SchoolName
    case 8 => SchoolType
    case 9 => Shift
    case 10 => GraduationYear
    case 28 => Sex
    case 29 => BirthYear
    case 30 => CivilStatus
    case 31 => HasKids
    case _ => Ignored
  }

  /** The second generation's `if/elif` chain: the line number and the full
      prefix must both match. */
  function KeyedField(line: string, index: nat): Field {
    var f := SlotField(index);
    if f != Ignored && StartsWith(line, FullPrefix(f)) then f else Ignored
  }

  function FieldOf(gen: Generation, line: string, index: nat): Field {
    if gen == PrefixFirst then PrefixField(line, index) else KeyedField(line, index)
  }

  /** The first generation's `__get_property_value` (extractors.py:272-275):
      `None` without a `:`, otherwise the stripped text from two characters
      after the first `:`. */
  function PropertyValue(text: string): (r: Option<string>)
    ensures r.None? <==> ':' !in text
  {
    match IndexOf(text, ':')
    case None => None
    case Some(k) => Some(Drop(Strip(text), k + 2))
  }

  /** What a line assigns to its field: `None` when the conversion raises
      (`int()` of a text that is not an int, or of `None`). */
  function Reading(gen: Generation, f: Field, line: string, toInt: string -> Option<int>): (r: Option<Val>)
    requires f != Ignored
    ensures r.Some? ==> Fits(f, r.value)
  {
    if gen == PrefixFirst then
      var v := PropertyValue(line);
      if IsIntField(f) then
        if v.None? then None
        else match toInt(v.value)
          case None => None
          case Some(n) => Some(IntVal(Some(n)))
      else if f == HasKids then Some(FlagVal(Some(v == Some("yes"))))
      else Some(TextVal(v))
    else
      var v := ColonValue(line);
      if IsIntField(f) then
        match toInt(v)
        case None => None
        case Some(n) => Some(IntVal(Some(n)))
      else if f == HasKids then Some(FlagVal(Some(v == "yes")))
      else Some(TextVal(Some(v)))
  }

  /** One iteration: `None` when the line's conversion raises. */
  function Step(gen: Generation, s: Profile, index: nat, raw: string, toInt: string -> Option<int>): Option<Profile> {
    var line := Clean(gen, raw);
    var f := FieldOf(gen, line, index);
    if f == Ignored then Some(s)
    else
      match Reading(gen, f, line, toInt)
      case None => None
      case Some(v) => Some(Set(s, f, v))
  }

  /** The loop over `enumerate(lines, start)`; `None` when a conversion
      raises, which escapes the parser in both generations. */
  function Loop(gen: Generation, s: Profile, lines: seq<string>, index: nat, toInt: string -> Option<int>): Option<Profile>
    decreases |lines|
  {
    if |lines| == 0 then Some(s)
    else
      match Step(gen, s, index, lines[0], toInt)
      case None => None
      case Some(next) => Loop(gen, next, lines[1..], index + 1, toInt)
  }

  /** The profile read from `user.data`; `content` is `None` when the file
      cannot be opened. The first generation lets the `OSError` escape to
      `get_estudantes`, which drops the student (extractors.py:303-305,
      controllers.py:296-298); the second catches it and keeps an empty
      dictionary (controller/estudante.py:100-107). */
  function ReadProfile(gen: Generation, content: Option<seq<string>>, toInt: string -> Option<int>): Option<Profile> {
    match content
    case None => if gen == SlotKeyed then Some(Empty) else None
    case Some(lines) => Loop(gen, Empty, lines, Start(gen), toInt)
  }

  /** The `Estudante` that controller/estudante.py:36-49 builds, every
      missing key replaced by `0`, `''` or `False`. */
  datatype Student = Student(
    courseId: int, courseName: string, institutionId: int, institutionName: string,
    schoolName: string, schoolType: string, shift: string, graduationYear: int,
    sex: string, birthYear: int, civilStatus: string, hasKids: bool)

  function WithDefaults(s: Profile): (r: Student)
    ensures s.courseId.None? ==> r.courseId == 0
    ensures s.courseId.Some? ==> r.courseId == s.courseId.value
    ensures s.sex.None? ==> r.sex == ""
    ensures s.sex.Some? ==> r.sex == s.sex.value
    ensures s.hasKids.None? ==> !r.hasKids
    ensures s.hasKids.Some? ==> r.hasKids == s.hasKids.value
  {
    Student(
      s.courseId.GetOr(0), s.courseName.GetOr(""), s.institutionId.GetOr(0),
      s.institutionName.GetOr(""), s.schoolName.GetOr(""), s.schoolType.GetOr(""),
      s.shift.GetOr(""), s.graduationYear.GetOr(0), s.sex.GetOr(""),
      s.birthYear.GetOr(0), s.civilStatus.GetOr(""), s.hasKids.GetOr(false))
  }

  // ---------------------------------------------------------------------
  // Properties

  /** The first generation's value of a `key: value` line is `value` when
      the key has no colon and the line has no surrounding whitespace. */
  lemma PropertyValueOfKeyLine(key: string, v: string)
    requires ':' !in key
    requires |key| > 0 && !IsSpace(key[0])
    requires |v| > 0 ==> !IsSpace(v[|v| - 1])
    ensures PropertyValue(key + ": " + v) == Some(v)
  {
    var line := key + ": " + v;
    assert line == key + [':'] + (" " + v);
    assert line[|key|] == ':';
    assert IndexOf(line, ':') == Some(|key|) by {
      var k := IndexOf(line, ':').value;
      assert ':' !in line[..k];
    }
    if |v| > 0 {
      StripOfStripped(line);
      assert line[|key| + 2..] == v;
    } else {
      assert line == key + ": ";
      assert TrimLeft(line) == line;
      assert IsSpace(line[|line| - 1]);
      assert line[..|line| - 1] == key + ":";
      assert TrimRight(line) == TrimRight(key + ":");
      assert TrimRight(key + ":") == key + ":";
    }
  }

  /** The first generation takes course and institution fields only from
      the 0-based lines 1 to 4; every other field on any line its prefix
      starts. */
  lemma PrefixFieldPlaces(line: string, index: nat)
    ensures PrefixField(line, index) == CourseId <==> index == 1 && StartsWith(line, "---- cou")
    ensures PrefixField(line, index) == CourseName <==> index == 2 && StartsWith(line, "---- cou")
    ensures PrefixField(line, index) == InstitutionId <==> index == 3 && StartsWith(line, "---- in")
    ensures PrefixField(line, index) == InstitutionName <==> index == 4 && StartsWith(line, "---- in")
    ensures PrefixField(line, index) == HasKids <==> StartsWith(line, "---- hav")
  {
    if StartsWith(line, "---- hav") {
      assert line[5] == 'h' && line[6] == 'a';
    }
    if StartsWith(line, "---- cou") || StartsWith(line, "---- in") {
      assert line[5] == 'c' || line[5] == 'i';
    }
  }

  /** The second generation takes a field exactly at its line number with
      its full prefix. */
  lemma KeyedFieldPlaces(line: string, index: nat, f: Field)
    requires f != Ignored
    ensures KeyedField(line, index) == f <==> index == Slot(f) && StartsWith(line, FullPrefix(f))
  {
  }

  /** Has-children is true exactly when the value is `yes`. */
  lemma HasKidsIffYes(gen: Generation, line: string, toInt: string -> Option<int>)
    ensures Reading(gen, HasKids, line, toInt).Some?
    ensures Reading(gen, HasKids, line, toInt).value.b == Some(
      if gen == PrefixFirst then PropertyValue(line) == Some("yes") else ColonValue(line) == "yes")
  {
  }

  /** Whether line `k` of the loop raises. */
  predicate Raises(gen: Generation, raw: string, index: nat, toInt: string -> Option<int>) {
    var line := Clean(gen, raw);
    var f := FieldOf(gen, line, index);
    f != Ignored && Reading(gen, f, line, toInt).None?
  }

  lemma StepRaises(gen: Generation, s: Profile, index: nat, raw: string, toInt: string -> Option<int>)
    ensures Step(gen, s, index, raw, toInt).None? <==> Raises(gen, raw, index, toInt)
  {
  }

  /** No line from `index` on is `bad`. */
  predicate NoneWhere(bad: (string, nat) -> bool, lines: seq<string>, index: nat)
    decreases |lines|
  {
    |lines| == 0 || (!bad(lines[0], index) && NoneWhere(bad, lines[1..], index + 1))
  }

  lemma {:induction false} NoneWhereMeaning(bad: (string, nat) -> bool, lines: seq<string>, index: nat)
    ensures NoneWhere(bad, lines, index) <==> forall k :: 0 <= k < |lines| ==> !bad(lines[k], index + k)
    decreases |lines|
  {
    if |lines| > 0 {
      var tail := lines[1..];
      NoneWhereMeaning(bad, tail, index + 1);
      if NoneWhere(bad, lines, index) {
        forall k | 0 <= k < |lines| ensures !bad(lines[k], index + k) {
          if k > 0 {
            assert lines[k] == tail[k - 1];
          }
        }
      } else if !bad(lines[0], index + 0) {
        var k :| 0 <= k < |tail| && bad(tail[k], index + 1 + k);
        assert tail[k] == lines[k + 1];
      }
    }
  }

  function Raiser(gen: Generation, toInt: string -> Option<int>): (string, nat) -> bool {
    (raw: string, index: nat) => Raises(gen, raw, index, toInt)
  }

  /** No line from `index` on raises; `NoneWhereMeaning` spells it out. */
  predicate NoneRaises(gen: Generation, lines: seq<string>, index: nat, toInt: string -> Option<int>) {
    NoneWhere(Raiser(gen, toInt), lines, index)
  }

  /** The parse fails exactly when some line's conversion raises. */
  lemma {:induction false} LoopFailsIffSomeLineRaises(gen: Generation, s: Profile, lines: seq<string>, index: nat, toInt: string -> Option<int>)
    ensures Loop(gen, s, lines, index, toInt).Some? <==> NoneRaises(gen, lines, index, toInt)
    decreases |lines|
  {
    if |lines| > 0 {
      StepRaises(gen, s, index, lines[0], toInt);
      if Step(gen, s, index, lines[0], toInt).Some? {
        LoopFailsIffSomeLineRaises(gen, Step(gen, s, index, lines[0], toInt).value, lines[1..], index + 1, toInt);
      }
    }
  }

  /** The field a line assigns, given its number. */
  function Finder(gen: Generation): (string, nat) -> Field {
    (line: string, index: nat) => FieldOf(gen, Clean(gen, line), index)
  }

  /** The offset of the last line `find` maps to `f`, if any. */
  function LastWhere(find: (string, nat) -> Field, f: Field, lines: seq<string>, index: nat): (r: Option<nat>)
    ensures r.Some? ==> r.value < |lines| && find(lines[r.value], index + r.value) == f
    decreases |lines|
  {
    if |lines| == 0 then None
    else
      match LastWhere(find, f, lines[1..], index + 1)
      case Some(k) => Some(k + 1)
      case None => if find(lines[0], index) == f then Some(0) else None
  }

  /** The offset of the last line that assigns `f`, if any. */
  function LastFor(gen: Generation, f: Field, lines: seq<string>, index: nat): (r: Option<nat>)
    ensures r.Some? ==> r.value < |lines|
    decreases |lines|
  {
    if |lines| == 0 then None
    else
      match LastFor(gen, f, lines[1..], index + 1)
      case Some(k) => Some(k + 1)
      case None =>
        if FieldOf(gen, Clean(gen, lines[0]), index) == f then Some(0) else None
  }

  lemma {:induction false} LastForIsLastWhere(gen: Generation, f: Field, lines: seq<string>, index: nat)
    ensures LastFor(gen, f, lines, index) == LastWhere(Finder(gen), f, lines, index)
    decreases |lines|
  {
    if |lines| > 0 {
      LastForIsLastWhere(gen, f, lines[1..], index + 1);
      assert Finder(gen)(lines[0], index) == FieldOf(gen, Clean(gen, lines[0]), index);
    }
  }

  /** Later lines overwrite earlier ones: each field ends up with what the
      last line assigning it read, or keeps its value when no line does. */
  lemma {:induction false} LastLineWins(gen: Generation, s: Profile, lines: seq<string>, index: nat, f: Field, toInt: string -> Option<int>)
    requires f != Ignored
    requires Loop(gen, s, lines, index, toInt).Some?
    ensures var r := Loop(gen, s, lines, index, toInt).value;
      match LastFor(gen, f, lines, index)
      case None => Get(r, f) == Get(s, f)
      case Some(k) =>
        var line := Clean(gen, lines[k]);
        Reading(gen, f, line, toInt).Some? && Get(r, f) == Reading(gen, f, line, toInt).value
    decreases |lines|
  {
    if |lines| > 0 {
      var next := Step(gen, s, index, lines[0], toInt).value;
      LastLineWins(gen, next, lines[1..], index + 1, f, toInt);
      var line0 := Clean(gen, lines[0]);
      var g := FieldOf(gen, line0, index);
      if g != Ignored {
        GetSet(s, g, Reading(gen, g, line0, toInt).value, f);
      }
      match LastFor(gen, f, lines[1..], index + 1)
      case Some(k) =>
        assert lines[1..][k] == lines[k + 1];
      case None =>
    }
  }

  /** The hypothesis of `LastWhereOnlyAt` carries over to the tail. */
  lemma OffSlotTail(find: (string, nat) -> Field, f: Field, lines: seq<string>, index: nat, slot: nat)
    requires |lines| > 0
    requires forall j :: 0 <= j < |lines| && index + j != slot ==> find(lines[j], index + j) != f
    ensures forall j :: 0 <= j < |lines| - 1 && index + 1 + j != slot ==> find(lines[1..][j], index + 1 + j) != f
  {
    forall j | 0 <= j < |lines| - 1 && index + 1 + j != slot ensures find(lines[1..][j], index + 1 + j) != f {
      assert lines[1..][j] == lines[j + 1];
    }
  }

  /** When no line but the one numbered `slot` maps to `f`, the last one
      that does is that one or none. */
  lemma {:induction false} LastWhereOnlyAt(find: (string, nat) -> Field, f: Field, lines: seq<string>, index: nat, slot: nat)
    requires forall j :: 0 <= j < |lines| && index + j != slot ==> find(lines[j], index + j) != f
    ensures LastWhere(find, f, lines, index) ==
      if index <= slot < index + |lines| && find(lines[slot - index], slot) == f
      then Some(slot - index) else None
    decreases |lines|
  {
    if |lines| > 0 {
      OffSlotTail(find, f, lines, index, slot);
      LastWhereOnlyAt(find, f, lines[1..], index + 1, slot);
      if index != slot {
        assert find(lines[0], index + 0) != f;
      }
      LastWhereOnlyAtStep(find, f, lines, index, slot);
    }
  }

  /** The step of `LastWhereOnlyAt`: from the tail's answer to the whole. */
  lemma LastWhereOnlyAtStep(find: (string, nat) -> Field, f: Field, lines: seq<string>, index: nat, slot: nat)
    requires |lines| > 0
    requires index != slot ==> find(lines[0], index) != f
    requires LastWhere(find, f, lines[1..], index + 1) ==
      if index + 1 <= slot < index + |lines| && find(lines[1..][slot - (index + 1)], slot) == f
      then Some(slot - (index + 1)) else None
    ensures LastWhere(find, f, lines, index) ==
      if index <= slot < index + |lines| && find(lines[slot - index], slot) == f
      then Some(slot - index) else None
  {
    var rest := LastWhere(find, f, lines[1..], index + 1);
    if index < slot < index + |lines| {
      assert lines[1..][slot - (index + 1)] == lines[slot - index];
      if rest.Some? {
        assert LastWhere(find, f, lines, index) == Some(rest.value + 1);
      }
    } else {
      assert rest.None?;
    }
  }

  /** The second generation's router maps no line off `f`'s slot to `f`. */
  lemma KeyedFinderOffSlot(lines: seq<string>, index: nat, f: Field)
    requires f != Ignored
    ensures forall j :: 0 <= j < |lines| && index + j != Slot(f) ==> Finder(SlotKeyed)(lines[j], index + j) != f
  {
    forall j | 0 <= j < |lines| && index + j != Slot(f) ensures Finder(SlotKeyed)(lines[j], index + j) != f {
      KeyedFieldPlaces(Normalize(lines[j]), index + j, f);
    }
  }

  /** On its slot, the router maps a line to `f` exactly when it has `f`'s prefix. */
  lemma KeyedFinderOnSlot(line: string, f: Field)
    requires f != Ignored
    ensures Finder(SlotKeyed)(line, Slot(f)) == f <==> StartsWith(Normalize(line), FullPrefix(f))
  {
    KeyedFieldPlaces(Normalize(line), Slot(f), f);
  }

  /** In the second generation each field comes from its own line alone:
      the one at its line number, when that line carries its full prefix. */
  lemma KeyedLastFor(f: Field, lines: seq<string>, index: nat)
    requires f != Ignored
    ensures LastFor(SlotKeyed, f, lines, index) ==
      if index <= Slot(f) < index + |lines| && StartsWith(Normalize(lines[Slot(f) - index]), FullPrefix(f))
      then Some(Slot(f) - index) else None
  {
    var find := Finder(SlotKeyed);
    KeyedFinderOffSlot(lines, index, f);
    LastWhereOnlyAt(find, f, lines, index, Slot(f));
    LastForIsLastWhere(SlotKeyed, f, lines, index);
    if index <= Slot(f) < index + |lines| {
      var line := lines[Slot(f) - index];
      KeyedFinderOnSlot(line, f);
      if StartsWith(Normalize(line), FullPrefix(f)) {
        assert LastWhere(find, f, lines, index) == Some(Slot(f) - index);
      } else {
        assert LastWhere(find, f, lines, index).None?;
      }
    } else {
      assert LastWhere(find, f, lines, index).None?;
    }
  }

  /** controller/estudante.py: a parsed profile holds, for each field, the
      value read from the line at its number when that line has its full
      prefix, and nothing otherwise. */
  lemma KeyedProfile(lines: seq<string>, f: Field, toInt: string -> Option<int>)
    requires f != Ignored
    requires ReadProfile(SlotKeyed, Some(lines), toInt).Some?
    ensures var r := ReadProfile(SlotKeyed, Some(lines), toInt).value;
      if Slot(f) <= |lines| && StartsWith(Normalize(lines[Slot(f) - 1]), FullPrefix(f))
      then Reading(SlotKeyed, f, Normalize(lines[Slot(f) - 1]), toInt).Some?
        && Get(r, f) == Reading(SlotKeyed, f, Normalize(lines[Slot(f) - 1]), toInt).value
      else Get(r, f) == Get(Empty, f)
  {
    KeyedLastFor(f, lines, 1);
    LastLineWins(SlotKeyed, Empty, lines, 1, f, toInt);
    if Slot(f) <= |lines| && StartsWith(Normalize(lines[Slot(f) - 1]), FullPrefix(f)) {
      assert LastFor(SlotKeyed, f, lines, 1) == Some(Slot(f) - 1);
    } else {
      assert LastFor(SlotKeyed, f, lines, 1).None?;
    }
  }

  /** The first generation's course id comes from 0-based line 1 or from
      nowhere. */
  lemma {:induction false} PrefixCourseIdLine(lines: seq<string>, index: nat)
    requires index <= 1
    ensures LastFor(PrefixFirst, CourseId, lines, index) ==
      if index + |lines| > 1 && StartsWith(Strip(lines[1 - index]), "---- cou") then Some(1 - index) else None
    decreases |lines|
  {
    if |lines| > 0 {
      PrefixFieldPlaces(Strip(lines[0]), index);
      if index == 0 {
        PrefixCourseIdLine(lines[1..], 1);
        if |lines| > 1 {
          assert lines[1..][0] == lines[1];
        }
      } else {
        NoCourseIdAfter(lines[1..], 2);
      }
    }
  }

  lemma {:induction false} NoCourseIdAfter(lines: seq<string>, index: nat)
    requires index >= 2
    ensures LastFor(PrefixFirst, CourseId, lines, index) == None
    decreases |lines|
  {
    if |lines| > 0 {
      PrefixFieldPlaces(Strip(lines[0]), index);
      NoCourseIdAfter(lines[1..], index + 1);
    }
  }

  /** extractors.py:236-237: the course id is `int()` of the value on line
      1 when that line starts with `---- cou`, and stays `None` otherwise. */
  lemma PrefixCourseId(lines: seq<string>, toInt: string -> Option<int>)
    requires ReadProfile(PrefixFirst, Some(lines), toInt).Some?
    ensures var r := ReadProfile(PrefixFirst, Some(lines), toInt).value;
      if |lines| > 1 && StartsWith(Strip(lines[1]), "---- cou")
      then PropertyValue(Strip(lines[1])).Some?
        && r.courseId == toInt(PropertyValue(Strip(lines[1])).value)
        && r.courseId.Some?
      else r.courseId.None?
  {
    PrefixCourseIdLine(lines, 0);
    LastLineWins(PrefixFirst, Empty, lines, 0, CourseId, toInt);
  }

  /** A missing `user.data` drops the student in the first generation and
      gives a student of defaults in the second. */
  lemma UnreadableFile(toInt: string -> Option<int>)
    ensures ReadProfile(PrefixFirst, None, toInt).None?
    ensures ReadProfile(SlotKeyed, None, toInt) == Some(Empty)
    ensures WithDefaults(Empty) == Student(0, "", 0, "", "", "", "", 0, "", 0, "", false)
  {
  }
}

=== FILE: text.dfy ===
/** The handful of Python `str` operations the parsers rely on, with their
    Python semantics written out: prefix tests, `in`, `find`, `partition`,
    `split`, `strip`, `lower`, `replace` and clamped slicing. */
module Text {
  import opened Wrappers

  // ---------------------------------------------------------------------
  // Prefixes, suffixes and occurrences

  /** `s.startswith(p)` */
  predicate StartsWith(s: string, p: string) {
    |p| <= |s| && s[..|p|] == p
  }

  /** `s.endswith(p)` */
  predicate EndsWith(s: string, p: string) {
    |p| <= |s| && s[|s| - |p|..] == p
  }

  /** `p` occurs in `s` starting at index `k` */
  predicate OccursAt(s: string, p: string, k: int) {
    0 <= k && k + |p| <= |s| && s[k..k + |p|] == p
  }

  /** `p in s` */
  predicate Contains(s: string, p: string) {
    FindFrom(s, p, 0).Some?
  }

  /** The first occurrence of `p` in `s` at or after `from` (`s.find(p, from)`). */
  function FindFrom(s: string, p: string, from: nat): (r: Option<nat>)
    ensures r.Some? ==> from <= r.value && OccursAt(s, p, r.value)
    ensures forall k :: from <= k && OccursAt(s, p, k) ==> r.Some? && r.value <= k
    decreases |s| - from
  {
    if from + |p| > |s| then None
    else if s[from..from + |p|] == p then Some(from)
    else FindFrom(s, p, from + 1)
  }

  /** Occurrences inside a prefix are occurrences in the whole string. */
  lemma OccursInPrefix(s: string, p: string, k: nat, j: int)
    requires k <= |s|
    ensures OccursAt(s[..k], p, j) ==> OccursAt(s, p, j) && j + |p| <= k
  {
    if OccursAt(s[..k], p, j) {
      assert s[..k][j..j + |p|] == s[j..j + |p|];
    }
  }

  /** A one-character pattern occurs exactly where that character stands. */
  lemma OccursSingle(s: string, c: char, j: int)
    requires 0 <= j < |s|
    ensures OccursAt(s, [c], j) <==> s[j] == c
  {
    assert s[j..j + 1] == [s[j]];
  }

  // ---------------------------------------------------------------------
  // split / join / partition / replace

  /** `sep.join(parts)` */
  function Join(parts: seq<string>, sep: string): string
  {
    if |parts| == 0 then ""
    else if |parts| == 1 then parts[0]
    else parts[0] + sep + Join(parts[1..], sep)
  }

  /** `s.split(sep)` for a non-empty separator: the pieces between the
      leftmost non-overlapping occurrences of `sep`. Joining the pieces back
      gives `s`, and no piece contains the separator. */
  function Split(s: string, sep: string): (parts: seq<string>)
    requires |sep| > 0
    ensures |parts| >= 1
    ensures Join(parts, sep) == s
    ensures forall i :: 0 <= i < |parts| ==> !Contains(parts[i], sep)
    ensures Contains(s, sep) <==> |parts| >= 2
    ensures |parts| >= 2 ==> FindFrom(s, sep, 0) == Some(|parts[0]|)
    decreases |s|
  {
    match FindFrom(s, sep, 0)
    case None =>
      [s]
    case Some(k) =>
      var head := s[..k];
      var rest := Split(s[k + |sep|..], sep);
      assert s == head + sep + s[k + |sep|..];
      assert !Contains(head, sep) by {
        forall j | 0 <= j
          ensures !OccursAt(head, sep, j)
        {
          OccursInPrefix(s, sep, k, j);
        }
      }
      assert ([head] + rest)[1..] == rest;
      [head] + rest
  }

  /** `s.partition(c)` without the separator itself: the text before the
      first `c` and the text after it, or `(s, "")` when there is none. */
  function Partition(s: string, c: char): (r: (string, string))
    ensures c !in s ==> r == (s, "")
    ensures c in s ==> c !in r.0 && r.0 + [c] + r.1 == s
  {
    match FindFrom(s, [c], 0)
    case None =>
      assert c !in s by {
        forall k | 0 <= k < |s|
          ensures s[k] != c
        {
          OccursSingle(s, c, k);
        }
      }
      (s, "")
    case Some(k) =>
      assert s == s[..k] + [c] + s[k + 1..];
      assert c !in s[..k] by {
        forall j | 0 <= j < k
          ensures s[j] != c
        {
          OccursSingle(s, c, j);
        }
      }
      (s[..k], s[k + 1..])
  }

  /** `s.find(c)` as an option. */
  function IndexOf(s: string, c: char): (r: Option<nat>)
    ensures r.None? <==> c !in s
    ensures r.Some? ==> r.value < |s| && s[r.value] == c && c !in s[..r.value]
  {
    var r := FindFrom(s, [c], 0);
    if r.Some? then
      assert s[r.value..r.value + 1] == [c];
      assert s[r.value] == s[r.value..r.value + 1][0];
      assert c !in s[..r.value] by {
        forall j | 0 <= j < r.value
          ensures s[j] != c
        {
          OccursSingle(s, c, j);
        }
      }
      r
    else
      assert c !in s by {
        forall k | 0 <= k < |s|
          ensures s[k] != c
        {
          OccursSingle(s, c, k);
        }
      }
      r
  }

  /** `s.split(c)[-1]`: the text after the last `c`, or all of `s`. */
  function AfterLast(s: string, c: char): string
    decreases |s|
  {
    if |s| == 0 then ""
    else if s[|s| - 1] == c then ""
    else AfterLast(s[..|s| - 1], c) + [s[|s| - 1]]
  }

  /** The text after the last `c` is a suffix without `c`, and it is all of
      `s` unless a `c` stands right before it. */
  lemma {:induction false} AfterLastMeaning(s: string, c: char)
    ensures var r := AfterLast(s, c);
      && |r| <= |s| && r == s[|s| - |r|..]
      && c !in r
      && (|r| < |s| ==> s[|s| - |r| - 1] == c)
    decreases |s|
  {
    if |s| > 0 && s[|s| - 1] != c {
      var s' := s[..|s| - 1];
      AfterLastMeaning(s', c);
      var r' := AfterLast(s', c);
      assert s[|s| - |r'| - 1..] == s'[|s'| - |r'|..] + [s[|s| - 1]];
    }
  }

  /** The text after the last `c` of `a + [c] + b` is `b` when `b` has no `c`. */
  lemma {:induction false} AfterLastOfAppend(a: string, c: char, b: string)
    requires c !in b
    ensures AfterLast(a + [c] + b, c) == b
    decreases |b|
  {
    var s := a + [c] + b;
    if |b| == 0 {
      assert s[|s| - 1] == c;
    } else {
      var b' := b[..|b| - 1];
      assert s[..|s| - 1] == a + [c] + b';
      assert s[|s| - 1] == b[|b| - 1];
      AfterLastOfAppend(a, c, b');
      assert b == b' + [b[|b| - 1]];
    }
  }

  /** `s.replace(c, '')` for a one-character `c`. */
  function RemoveChar(s: string, c: char): (r: string)
    ensures c !in r
    ensures |r| <= |s|
    ensures c !in s ==> r == s
  {
    if |s| == 0 then ""
    else (if s[0] == c then "" else [s[0]]) + RemoveChar(s[1..], c)
  }

  /** `s.replace(p, '')`: every leftmost non-overlapping occurrence removed. */
  function RemoveAll(s: string, p: string): (r: string)
    requires |p| > 0
    ensures !Contains(s, p) ==> r == s
  {
    Join(Split(s, p), "")
  }

  // ---------------------------------------------------------------------
  // Whitespace and case

  /** Python's `str.isspace()` on one character. */
  predicate IsSpace(c: char) {
    var n := c as int;
    (9 <= n <= 13) || (28 <= n <= 32) || n == 0x85 || n == 0xA0 || n == 0x1680
    || (0x2000 <= n <= 0x200A) || n == 0x2028 || n == 0x2029 || n == 0x202F
    || n == 0x205F || n == 0x3000
  }

  /** `s.lstrip()` */
  function TrimLeft(s: string): (r: string)
    ensures |r| <= |s|
  {
    if |s| > 0 && IsSpace(s[0]) then TrimLeft(s[1..]) else s
  }

  /** `s.rstrip()` */
  function TrimRight(s: string): (r: string)
    ensures |r| <= |s|
  {
    if |s| > 0 && IsSpace(s[|s| - 1]) then TrimRight(s[..|s| - 1]) else s
  }

  /** `lstrip()` removes exactly the leading whitespace. */
  lemma {:induction false} TrimLeftMeaning(s: string)
    ensures var r := TrimLeft(s);
      && |r| <= |s| && r == s[|s| - |r|..]
      && (forall i :: 0 <= i < |s| - |r| ==> IsSpace(s[i]))
      && (|r| > 0 ==> !IsSpace(r[0]))
  {
    if |s| > 0 && IsSpace(s[0]) {
      TrimLeftMeaning(s[1..]);
    }
  }

  /** `rstrip()` removes exactly the trailing whitespace. */
  lemma {:induction false} TrimRightMeaning(s: string)
    ensures var r := TrimRight(s);
      && |r| <= |s| && r == s[..|r|]
      && (forall i :: |r| <= i < |s| ==> IsSpace(s[i]))
      && (|r| > 0 ==> !IsSpace(r[|r| - 1]))
  {
    if |s| > 0 && IsSpace(s[|s| - 1]) {
      TrimRightMeaning(s[..|s| - 1]);
    }
  }

  /** `s.strip()` */
  function Strip(s: string): (r: string)
    ensures |r| <= |s|
  {
    TrimRight(TrimLeft(s))
  }

  /** Where `strip()` starts cutting: the length of the leading whitespace. */
  function StripStart(s: string): nat {
    |s| - |TrimLeft(s)|
  }

  /** `strip()` leaves a contiguous piece of `s`, with only whitespace
      around it and none at its ends. */
  lemma StripMeaning(s: string)
    ensures var r := Strip(s);
      var k := StripStart(s);
      && k + |r| <= |s|
      && r == s[k..k + |r|]
      && (|r| > 0 ==> !IsSpace(r[0]) && !IsSpace(r[|r| - 1]))
      && (forall i :: 0 <= i < k ==> IsSpace(s[i]))
      && (forall i :: k + |r| <= i < |s| ==> IsSpace(s[i]))
  {
    var l := TrimLeft(s);
    TrimLeftMeaning(s);
    TrimRightMeaning(l);
    var r := TrimRight(l);
    var k := |s| - |l|;
    assert r == s[k..k + |r|];
    if |r| > 0 {
      assert r[0] == l[0];
    }
    forall i | k + |r| <= i < |s| ensures IsSpace(s[i]) {
      assert s[i] == l[i - k];
    }
  }

  /** `strip()` empties exactly the strings made only of whitespace. */
  lemma StripEmptyIff(s: string)
    ensures (forall i :: 0 <= i < |s| ==> IsSpace(s[i])) <==> Strip(s) == ""
  {
    StripMeaning(s);
    if Strip(s) != "" {
      assert s[StripStart(s)] == Strip(s)[0];
    }
  }

  /** A string without surrounding whitespace is its own `strip()`. */
  lemma StripOfStripped(s: string)
    requires |s| > 0 ==> !IsSpace(s[0]) && !IsSpace(s[|s| - 1])
    ensures Strip(s) == s
  {
    if |s| > 0 {
      assert TrimLeft(s) == s;
      assert TrimRight(s) == s;
    }
  }

  /** `strip()` is idempotent. */
  lemma StripIdempotent(s: string)
    ensures Strip(Strip(s)) == Strip(s)
  {
    StripMeaning(s);
    StripOfStripped(Strip(s));
  }

  /** `c.lower()` for ASCII letters; every other character is unchanged. */
  function LowerChar(c: char): char {
    if 'A' <= c <= 'Z' then (c as int + 32) as char else c
  }

  /** `s.lower()` (ASCII letters only). */
  function Lower(s: string): (r: string)
    ensures |r| == |s|
    ensures forall i :: 0 <= i < |s| ==> r[i] == LowerChar(s[i])
  {
    seq(|s|, i requires 0 <= i < |s| => LowerChar(s[i]))
  }

  /** `line.lower().strip()` */
  function Normalize(raw: string): string {
    Strip(Lower(raw))
  }

  /** `line.split(':')[-1].strip()`: the value of a `key: value` line. */
  function ColonValue(line: string): string {
    Strip(AfterLast(line, ':'))
  }

  /** The value of a line `key: v` whose `v` has no colon is `v` trimmed;
      a value holding a colon keeps only what follows its last colon. */
  lemma ColonValueOfKeyedLine(key: string, v: string)
    requires ':' !in v
    ensures ColonValue(key + ":" + v) == Strip(v)
  {
    AfterLastOfAppend(key, ':', v);
  }

  // ---------------------------------------------------------------------
  // Clamped slicing: Python never raises on an out-of-range slice

  /** `s[k:]` for `k >= 0` */
  function Drop(s: string, k: nat): (r: string)
    ensures |r| == if k >= |s| then 0 else |s| - k
    ensures r == s[|s| - |r|..]
  {
    if k >= |s| then "" else s[k..]
  }

  /** `s[:-n]` for `n >= 1` */
  function DropLast(s: string, n: nat): (r: string)
    ensures |r| == if |s| <= n then 0 else |s| - n
    ensures r == s[..|r|]
  {
    if |s| <= n then "" else s[..|s| - n]
  }

  /** `s[k:-1]` */
  function SliceToLast(s: string, k: nat): string {
    Drop(DropLast(s, 1), k)
  }

  /** `s[i]` for a list read past its end by `readline()`, which yields `''`. */
  function LineAt(lines: seq<string>, i: nat): string {
    if i < |lines| then lines[i] else ""
  }

  /** Number of lines that start with `p`. */
  function CountPrefixed(lines: seq<string>, p: string): (n: nat)
    ensures n <= |lines|
  {
    if |lines| == 0 then 0
    else (if StartsWith(lines[0], p) then 1 else 0) + CountPrefixed(lines[1..], p)
  }

  lemma {:induction false} CountPrefixedAppend(a: seq<string>, b: seq<string>, p: string)
    ensures CountPrefixed(a + b, p) == CountPrefixed(a, p) + CountPrefixed(b, p)
  {
    if |a| > 0 {
      assert (a + b)[1..] == a[1..] + b;
      CountPrefixedAppend(a[1..], b, p);
    } else {
      assert a + b == b;
    }
  }

  /** Every line mapped through `strip()`. */
  function StripAll(lines: seq<string>): (r: seq<string>)
    ensures |r| == |lines|
    ensures forall i :: 0 <= i < |lines| ==> r[i] == Strip(lines[i])
  {
    seq(|lines|, i requires 0 <= i < |lines| => Strip(lines[i]))
  }
}

=== FILE: wrappers.dfy ===
/** Python's `None`-or-value, used for every field the source may leave unset
    and for every conversion that may raise. */
module Wrappers {

  datatype Option<+T> = None | Some(value: T) {

    /** `dict.get(key, default)` / `x if x is not None else default` */
    function GetOr(default: T): T {
      match this
      case Some(v) => v
      case None => default
    }
  }
}
